=== FILE: README.md ===
# Fizz interpreter core in Dafny

A model of the Fizz interpreter's front end and runtime core, together with
the two Python scripts that maintain its libraries. Everything is pure
functions over immutable values, and state is passed along explicitly.

- **Token tables and lexer** (`TokenTypes`, `Lexer`).
  - `GetTokens` walks the source once and carries the line number.
  - Spaces, tabs and carriage returns are dropped, each line break becomes an empty NEWLINE token, and `#` comments run to the end of the line.
  - A symbol followed by `=` becomes a two-character token.
  - A string runs to the next `"`.
  - A maximal run of `[a-zA-Z_0-9.]` becomes a number, a keyword, an identifier or a dotted chain.
  - `strconv.ParseFloat` is a parameter.
  - Properties live in `LexerProps`, `LexerShapes` and `LexerExamples`:
    - the lexemes spell the input's visible text;
    - every token is well formed;
    - what one pass of the loop does for each kind of character.
- **Expression parser** (`ExprParse`, `ExprParseProps`). Phase one nests parenthesised, call and array groups into parse tokens. Phase two splits at the leftmost lowest-precedence operator. The older parser (`OldParser`) groups up to the *last* closing parenthesis.
- **Statement splitter** (`StmtParse`): one statement per semicolon, over all tokens including the NEWLINE tokens. It comes in the version as written and a corrected version that skips the line breaks before a statement (see Findings).
- **Evaluator** (`Evaluate`, `EvaluateProps`).
  - Values are `Nil | Bool | Num | Str | Fn | Obj | Arr | Opaque`.
  - A Go panic is an outcome of its own.
  - Arithmetic results, object identity and library callees come from a `Host` parameter.
- **Scoped environment and objects** (`Env`, `Values`).
  - The environment is a list of scopes searched innermost-first, with a temporary environment for closures and a call stack. It is threaded as a value.
  - Objects, arrays and callables are values.
- **Helpers** (`Util`, with `Fmt` for Go's `fmt` verbs and `Strs` for string functions): `%d` error templating, bracket matching, comma splitting, filename handling, and the pair list used for import-cycle detection.
- **Command-line parsers** (`TermFlags`, `TermFlagsProps`, `TermArgs`).
  - One is the flag parser with callbacks.
  - The other is the argument classifier into options, flags, subcommand and arguments.
  - `os.Args[1:]` is a parameter.
- **Library scripts** (`Build`, `AutoDocs`, `AutoDocsProps`).
  - The first builds the text of `lib/include.go`.
  - The second builds the markdown that `autodocs.py` writes per library. Its `add_doc` scanner is related to an independent block-by-block reading of a file.

**Error conventions.**
- A Go error is `Err(message)`, where the message is a template plus its arguments. `Fmt.Text` renders it with Go's `%s`/`%d` rules.
- A Go panic or an uncaught Python exception is `Crash(reason)`.

**Names that the shown revision uses but does not declare** are given values at the end of the token table, as error templates and as parse-token kinds that continue the `iota` list of expr/expr.go. These names are:
- `ArrayGroup`, `Array`, `Getter`;
- `LEFT_SQUARE`, `RIGHT_SQUARE`, `MODULO`;
- `ErrBracketError`, `ErrNotFunction`, `ErrIncorrectArgs`;
- `util.SplitByToken`.

## Model

| member | source | states |
|---|---|---|
| TokenTypes.PrecedenceOrder | lexer/token_types.go:4-57 | the operator kinds strictly increase from NOT_TOKEN to NOT, and every non-operator kind from IDENTIFIER on is above every operator |
| TokenTypes.SymbolTableShape | lexer/token_types.go:60-89 | the single-character table lists 24 distinct characters; `&` is AND and `:` is OR |
| TokenTypes.SymbolTypeDomain | lexer/token_types.go:60-89 | a character has a table kind exactly when it is one of those 24 characters |
| TokenTypes.SymbolClasses | lexer/token_types.go:61-67 | space, tab and carriage return, and only they, are WHITESPACE; only `\n` is NEWLINE, only `#` is COMMENT, only `"` is STRING |
| TokenTypes.DoubleType | lexer/token_types.go:91-96 | a two-character kind exists exactly for `==`, `!=`, `>=` and `<=` |
| TokenTypes.Lookup | lexer/token_types.go:98-115 | a table lookup finds a kind exactly when the word is listed, and the kind found is listed with that word |
| TokenTypes.LookupFirst | lexer/token_types.go:98-115 | the lookup returns the kind of the first entry for the word |
| TokenTypes.KeywordTableShape | lexer/token_types.go:98-115 | 16 distinct reserved words, of which only `type` has a kind in the operator range |
| TokenTypes.KeywordKinds | lexer/token_types.go:98-115 | each reserved word looks up to its own kind |
| Lexer.NextCharacter | lexer/lexer.go:164-170 | the next character, or the zero character with eof exactly when none follows |
| Lexer.SeekFunc | lexer/lexer.go:174-187 | stops on the character just before the first match after the start; eof exactly when none matches, and then it stops on the last character |
| Lexer.SeekCharacter | lexer/lexer.go:190-197 | lands on the first target after the start, or one past the end with eof; nothing skipped is the target |
| Lexer.IntervalToString | lexer/lexer.go:200-207 | the characters from i to j inclusive, and the empty string when j < i |
| Lexer.WordToken | lexer/lexer.go:134-156 | the token of a word run spells the run and carries the run's line |
| Lexer.Step | lexer/lexer.go:33-158 | every successful pass of the main loop consumes at least one character and stays within the input |
| Lexer.SymbolStep | lexer/lexer.go:41-79 | a pass on a table symbol advances within the input |
| Lexer.StringStep | lexer/lexer.go:66-74 | a string pass advances within the input |
| Lexer.WordStep | lexer/lexer.go:81-157 | a word pass advances within the input |
| Lexer.LexParts | lexer/lexer.go:106-132 | a dotted run gives at least one token per part |
| LexerProps.GetTokensSpells | lexer/lexer.go:27-161 | on success the lexemes, concatenated, equal the input with layout and comments removed, which is an independent reading of the text |
| LexerProps.DotTokens | lexer/lexer.go:106-110 | lexing "." gives the single DOT token that the dotted-run case inserts between parts |
| LexerShapes.GetTokensShapes | lexer/lexer.go:27-161 | every token is well formed: no layout or comment tokens; NEWLINE tokens are empty; every other token spells something on a line ≥ 1; a string keeps its quotes in the lexeme and drops them from the literal |
| LexerShapes.NewlinePass | lexer/lexer.go:44-48 | a line break gives one empty NEWLINE token on line 0, and the scan continues on the next line |
| LexerShapes.LayoutPass | lexer/lexer.go:49-51 | space, tab and carriage return give no token and keep the line |
| LexerShapes.CommentPass | lexer/lexer.go:52-54 | a comment gives no token and resumes on the line break that ends it, or at the end of the input |
| LexerShapes.DoublePass | lexer/lexer.go:57-63 | a symbol followed by `=` is one token spelling both characters, whose kind comes from the two-character table |
| LexerShapes.SinglePass | lexer/lexer.go:38-78 | any other symbol is a one-character token of its table kind |
| LexerShapes.StringPass | lexer/lexer.go:66-74 | a string closed by the next `"` is one STRING token with the quotes in the lexeme and the text between them as the literal |
| LexerShapes.UnterminatedPass | lexer/lexer.go:66-69 | a string with no closing quote is the unterminated-string error with the line |
| LexerShapes.UnexpectedPass | lexer/lexer.go:81-84 | a character outside the table and the word class is the unexpected-token error naming it |
| LexerShapes.WordPass | lexer/lexer.go:87-157 | a numeral, or an identifier-shaped run without dots, is one token spelling the maximal run |
| LexerShapes.InvalidPass | lexer/lexer.go:95-104 | a run that is no numeral, has no dot and is not identifier-shaped is the invalid-syntax error naming it |
| LexerShapes.KeywordTokens | lexer/lexer.go:139-153 | a reserved word gets its own kind, and `true`, `false` and `nil` carry their value as the literal |
| LexerShapes.IdentifierToken | lexer/lexer.go:139-141 | an identifier-shaped word that is not reserved is an IDENTIFIER |
| LexerShapes.NumberToken | lexer/lexer.go:134-137 | a numeral that is not identifier-shaped is a NUMBER carrying its value |
| LexerExamples.JohnTokens | test/lexer_test.go:10-20 | `var name = "John";` lexes to five tokens, the fourth being STRING with literal `John` |
| LexerExamples.UnterminatedExample | lexer/lexer.go:66-69 | `"abc` fails with "unterminated string, line 1" |
| LexerExamples.UnexpectedExample | lexer/lexer.go:81-84 | `$` fails with the unexpected-token error naming `$` on line 1 |
| ExprParse.PStep | expr/parse.go:52-125 | every successful pass of the grouping loop advances within the token list |
| ExprParse.ParseCSV | expr/parse.go:21-40 | a bracketed list ends at a closing index strictly after the opening one |
| ExprParse.GenGroups | expr/parse.go:28-37 | one group per comma-separated part |
| ExprParse.Lowest | expr/parse.go:169-176 | the first single token of minimal kind: kinds before it are greater, kinds after it are no smaller |
| ExprParse.SplitPoint | expr/parse.go:204-210 | the split is at the lowest single token unless that is the last element, and then at the middle element `len/2`, whatever it is; with three or more elements the split is never the last one |
| ExprParse.ParseGroups | expr/parse.go:147-150 | one expression per argument group |
| ExprParseProps.ParseGroupsEach | expr/parse.go:147-150 | expression g of a call's or array's groups is the tree of group g's inner tokens |
| ExprParseProps.OneElement | expr/parse.go:139-165 | one parse token gives a Group of its inner tree, an Array or Call of its groups' trees, a Variable for an identifier, and a Literal for any other single token, on the token's line |
| ExprParse.DottedName | expr/parse.go:196-201 | the dotted name of a single part is that part's name |
| ExprParseProps.GroupErrorsFormatted | expr/parse.go:58-65 | the paren and empty-group errors get the line filled in |
| ExprParseProps.GenerateShapes | expr/parse.go:49-128 | every top-level parse token has a valid kind, and every single token is an operator, an identifier or a dot |
| ExprParseProps.ParenStep | expr/parse.go:57-76 | `(` groups the tokens strictly before its depth-matched `)` and resumes after it; unmatched gives the paren error and `()` the empty-group error, each with the line |
| ExprParseProps.CallStep | expr/parse.go:99-115 | an identifier followed by `(` becomes one call group holding the identifier, resuming after the matching `)`; group g of the call is the token group of argument g's parse tokens |
| ExprParseProps.CsvGroups | expr/parse.go:21-40 | a list without a matching bracket is the bracket error; otherwise it succeeds exactly when every comma-separated part parses, and then group g is the token group of part g's parse tokens, and otherwise the first failing part's failure is the result |
| ExprParseProps.GenGroupsContents | expr/parse.go:28-37 | the loop over the parts gives one token group per part holding that part's parse tokens, exactly when every part parses, and otherwise the failure of the first part that does not |
| ExprParseProps.StrayCloseRejected | expr/parse.go:79-82 | a `)` at top level is the paren error with its line |
| ExprParseProps.UnclosedRejected | expr/parse.go:58-61 | a `(` with no `)` after it is the paren error with its line |
| ExprParseProps.EmptyGroupRejected | expr/parse.go:63-65 | `()` is the empty-group error with its line |
| ExprParseProps.LiteralsRejected | expr/parse.go:118-121 | number, string and `true` tokens are rejected as invalid expressions, because their kinds sort after IDENTIFIER |
| ExprParseProps.BinarySplitsAtLowest | expr/parse.go:168-219 | three or more tokens that are not a getter (`.` second and an identifier lowest), whose first element is a valid parse token, and whose lowest single token is not last, give a Binary split at that first single token of minimal kind, with the parts on either side parsed recursively; the last-position case is `BinarySplitsAtMiddle` |
| ExprParseProps.SplitsAtSplitPoint | expr/parse.go:204-219 | outside getters, three or more tokens give the Binary at the split point, since the unary test fails |
| ExprParseProps.BinarySplitsAtMiddle | expr/parse.go:204-219 | when the lowest single token is last, the Binary is split at the middle element `len/2`, with that element's token as the operator |
| ExprParseProps.MiddleMoveExample | expr/parse.go:204-219 | `a * b +` becomes a Binary with `b` as its operator, over the pair `a *` (a Unary) and the lone `+` (a Literal) |
| ExprParseProps.UnaryOnlyForPairs | expr/parse.go:212-216 | outside getters the result is Unary exactly for two parse tokens |
| ExprParseProps.ChainGroupsRight | expr/parse.go:169-219 | `a op b op c` groups to the right |
| ExprParseProps.DottedNameGetter | expr/parse.go:178-202 | `a.b` is a Getter named "a.b" over the two variables |
| ExprParseProps.GenerateFlat | expr/parse.go:118-125 | a list of operators, identifiers not followed by `(`, and dots becomes one single parse token each |
| ExprParseProps.ParseChain | expr/parse.go:11-18 | end to end, `a op b op c` parses to the right-grouped Binary |
| OldParser.LastFrom | parser/parser.go:57-62 | the closing index is a `)` with no `)` after it, or the start when there is none |
| OldParser.Split | parser/parser.go:111-118 | the first single token of minimal kind |
| OldParser.ParenToLast | parser/parser.go:56-78 | `(` groups up to the last `)` in the list, and with none it is the paren error with the `(` line |
| OldParser.StrayClose | parser/parser.go:81-84 | a `)` at top level is the paren error with its line |
| OldParser.GenNoParens | parser/parser.go:86-87 | without parentheses every token becomes one single parse token, in order |
| OldParser.TwoGroupsRejected | parser/parser.go:56-84 | `(a) + (b)` is rejected, because the first group runs to the last `)` |
| OldParser.PairIsUnary | parser/parser.go:106-108 | two parse tokens give Unary with the first as operator and the second's token as value |
| OldParser.BinarySplit | parser/parser.go:110-121 | three or more tokens succeed exactly when the split is strictly inside and both sides parse; the result is the Binary of the two sides |
| OldParser.BinaryUnfold | parser/parser.go:110-121 | the result of three or more tokens is the Binary of the parses on either side of the split |
| OldParser.BinaryBody | parser/parser.go:120-121 | the right side is parsed first, and a failure on either side is the result |
| OldParser.EmptyCrashes | parser/parser.go:110-121 | an empty list panics on its slice |
| OldParser.OneLiteral | parser/parser.go:96-103 | one single token is a Literal |
| OldParser.Triple | parser/parser.go:110-121 | `x op y` with op the lowest kind is Binary(op, x, y) |
| OldParser.ChainGroupsRight | parser/parser.go:49-121 | `a op b op c` groups to the right |
| StmtParse.NextSemicolon | stmt/parse.go:21-28 | the first semicolon at or after the start, or none |
| StmtParse.StatementsPerSemicolon | stmt/parse.go:11-61 | parsing succeeds exactly when every run between semicolons builds and the last run is empty (corrected: the runs without their leading line breaks); then there is one statement per semicolon, in order, each built from its run |
| StmtParse.StatementsFromRuns | stmt/parse.go:14-58 | the loop from any position agrees with the runs between semicolons of the rest |
| StmtParse.MissingSemicolon | stmt/parse.go:30-32 | with no semicolon left, the error names the line of the statement's first token (corrected: once the leading line breaks are skipped) |
| StmtParse.TrailingLineBreaks | stmt/parse.go:14-32 | line breaks after the last semicolon are, as written, the missing-semicolon error with the line break token's line; corrected, the end of the input |
| StmtParse.LineBreakStatements | stmt/parse.go:14-58 | `x;`, a line break and `y;`: as written the line break is dropped from the second statement, so `y` survives, while `x` is still lost; corrected, both are variable statements |
| StmtParse.FinalLineBreak | stmt/parse.go:14-32 | `x;` and a final line break: as written the missing-semicolon error with the line break's line; corrected, the one statement `x` |
| StmtParse.PrintAfterLineBreak | stmt/parse.go:34-44 | `print x;` after a line break: as written the invalid-expression error, since the line break is taken as the first token; corrected, a Print statement of x |
| StmtParse.PrintStatement | stmt/parse.go:37-44 | `print x;` is a Print statement of the variable x |
| StmtParse.FirstTokenDropped | stmt/parse.go:34-53 | as written, `x;` is an expression statement of the empty expression; corrected, it is the variable x |
| StmtParse.EmptyStatement | stmt/parse.go:34 | as written, a lone `;` panics on its slice; corrected, it is an error with the line |
| StmtParse.EmptyExpression | expr/parse.go:131-134 | no tokens parse to the zero expression |
| StmtParse.VariableExpression | expr/parse.go:160-162 | one identifier parses to a Variable |
| EvaluateProps.OperandsFirst | expr/evaluate.go:63-72 | the left operand is evaluated first and its failure is the result, then the right one; only two successes reach the operator |
| EvaluateProps.BinaryOutcomes | expr/evaluate.go:63-124 | for every operator and pair of values: a panic exactly in the reference panic cases; success exactly in the reference table of accepted combinations; otherwise a nil value with the divide-by-zero error or the operator-types error naming both types |
| EvaluateProps.NumBinaryCases | expr/evaluate.go:75-103 | the number switch handles exactly the ten arithmetic and comparison operators; `%` panics exactly on a divisor that truncates to 0; `/` fails exactly on 0 |
| EvaluateProps.DivideByZeroFormatted | expr/evaluate.go:96-99 | the divide-by-zero error gets the line filled in |
| EvaluateProps.ComparisonDuality | expr/evaluate.go:86-93 | `>` and `<`, and `>=` and `<=`, mirror each other, and `<=` is the negation of `>` |
| EvaluateProps.EqualityDuality | expr/evaluate.go:106-109 | `==` and `!=` accept any comparable operands and give complementary Booleans; equal plain values compare equal |
| EvaluateProps.AndOrTruthiness | expr/evaluate.go:110-113 | `and` and `or` combine truthiness, where only nil and false are falsy, and `!(a and b)` equals `!a or !b` |
| EvaluateProps.AndOr | expr/evaluate.go:110-113 | `and` and `or` give the conjunction and disjunction of the operands' truthiness |
| EvaluateProps.NotTruthy | expr/evaluate.go:51-52 | `!` gives the negated truthiness, and a Boolean is truthy exactly when it is true |
| EvaluateProps.StringConcat | expr/evaluate.go:116-119 | `+` on two strings concatenates them |
| Evaluate.Trunc | expr/evaluate.go:95 | Go's `int(x)`: the result has the sign of x and lies less than one away from it, toward zero |
| Evaluate.GoRem | expr/evaluate.go:95 | Go's integer `%`: the remainder has the dividend's sign, is smaller than the divisor in size, and the truncated quotient times the divisor plus the remainder is the dividend |
| EvaluateProps.ModuloTruncates | expr/evaluate.go:94-95 | for all numbers, `%` panics exactly when the divisor is smaller than 1 in size; otherwise it is Go's integer remainder of the two truncated operands, with the dividend's sign and smaller than the truncated divisor in size |
| EvaluateProps.ModuloExamples | expr/evaluate.go:94-95 | -7 % 2 is -1, 7.5 % 2.9 is 1 and 5 % 0.5 panics |
| EvaluateProps.UnaryOutcomes | expr/evaluate.go:38-59 | unary minus negates a number, rejects a Boolean with the operator-type error and panics on anything else; `!` negates truthiness; `type` names the type ("nil" for nil); any other operator is the unary-operator error |
| EvaluateProps.UnaryInverses | expr/evaluate.go:42-52 | double minus gives back the number, and double `!` gives the truthiness |
| EvaluateProps.CorrectedUnaryPropagates | expr/evaluate.go:38-46 | in the corrected reading an operand's error is returned with a nil value and never panics |
| EvaluateProps.MinusOfUndefined | expr/evaluate.go:38-46 | as written, `-x` for an undefined x panics; corrected, it is the undefined-variable error |
| EvaluateProps.VariableReads | expr/evaluate.go:26-27 | a declared variable reads its value, and an unbound one is the undefined-variable error |
| EvaluateProps.GroupsAndLiterals | expr/evaluate.go:18-25 | a group evaluates to its inner expression, and a literal to its token's literal |
| EvaluateProps.ArgsInOrder | expr/evaluate.go:143-151 | arguments are evaluated left to right; on success there is one value per argument, in order; otherwise the first failing argument's failure is the result |
| EvaluateProps.CallUnfold | expr/evaluate.go:128-161 | a name that is not a callable is the not-a-function error; a refused count is the argument-count error; otherwise the arguments are evaluated and then the callee runs |
| EvaluateProps.CallOutcomes | expr/evaluate.go:128-161 | a call either fails on the name or the count, or returns the first failing argument's failure, or runs the callee on one value per argument |
| EvaluateProps.LibraryCallRefused | expr/evaluate.go:136-140 | as written, calling a library callable (`numArgs` -1) is the argument-count error whatever the arguments |
| EvaluateProps.LibraryCallRuns | expr/evaluate.go:136-140 | corrected, a callable with a negative `numArgs` accepts any count: its arguments are evaluated and the callee runs |
| Env.FailCall | env/env.go:33-35 | appends exactly one entry "\tat name() in origin, line n" and changes nothing else |
| Env.CallstackLines | env/env.go:38-45 | read back line by line, the call stack is its first 10 entries followed by "\t..." when there are more, and otherwise all of them |
| Env.FailCallEntryIsOneLine | env/env.go:34 | an entry holds no line break when the name and origin hold none |
| Env.FailCallEntryText | env/env.go:34 | an entry reads "\tat ", the name, "() in ", the origin, ", line " and the number |
| Env.Innermost | env/env.go:76-81 | the index of the innermost scope binding the name, with no earlier scope binding it, or none |
| Env.Declare | env/env.go:62-70 | binds only in the innermost scope and fails exactly when the name is already bound there, leaving everything unchanged; other scopes are untouched |
| Env.Assign | env/env.go:75-84 | updates only the innermost scope that binds the name, and fails with the undefined-variable error exactly when no scope binds it |
| Env.Get | env/env.go:89-97 | the binding in the innermost scope that has the name, or the undefined-variable error exactly when none has it |
| Env.GetAfterDeclare | env/env.go:60-97 | after a declaration the name reads back the value and every other name reads as before |
| Env.GetAfterAssign | env/env.go:72-97 | after an assignment the name reads back the value and every other name reads as before |
| Env.AssignNeedsDeclare | env/env.go:62-84 | a name just declared can be assigned, and the assignment lands in the innermost scope |
| Env.PushScope | env/env.go:101-103 | prepends one empty scope |
| Env.PopScope | env/env.go:108-114 | removes the innermost scope, and panics exactly when fewer than two are left |
| Env.PushPop | env/env.go:99-114 | push then pop restores the environment, even after declaring in the pushed scope |
| Env.ShadowingEnds | env/env.go:60-114 | a declaration in a pushed scope shadows an outer one until the scope is popped |
| Env.CopyEnvironment | env/env.go:161-168 | a single scope with exactly the bindings of the input's first scope; an empty input panics |
| Env.NewEnvironment | env/env.go:50-58 | returns the old environment; replaces it with a copy of the standard one only when environments are thrown away |
| Env.AddImportedFile | env/env.go:118-124 | declares the name as an object whose fields are the imported file's global scope |
| Env.ImportedGlobals | env/env.go:118-124 | each field of the imported object reads as the imported global, and a missing one is the not-a-field error |
| Env.GetCurrentEnvSnapshot | env/env.go:129-139 | the same number of scopes with the same keys and values |
| Env.SnapshotGet | env/env.go:129-139 | every name reads the same in the snapshot as in the current environment |
| Env.PushTempEnv | env/env.go:149-152 | saves the current environment and installs the given one |
| Env.PopTempEnv | env/env.go:156-158 | reinstates the saved environment |
| Env.TempEnvRestores | env/env.go:149-158 | declarations made under a temporary environment leave the restored one untouched |
| Values.NewObject | env/create.go:4-6 | the object keeps the name and the fields, and its field count agrees with them |
| Values.NewFunction | env/create.go:9-11 | keeps the name, argument count and callback, with an empty origin |
| Values.NewArray | env/create.go:14-16 | keeps the elements, and its length agrees with them |
| Values.GetField | env/types.go:60-66 | the field's value exactly when the field exists, and otherwise the not-a-field error |
| Values.SetField | env/types.go:70-77 | updates only an existing field; never changes the key set, field count or name; a missing field is the not-a-field error |
| Values.GetAfterSet | env/types.go:59-77 | a set field reads back the new value and every other field reads as before |
| Values.TypeName | env/types.go:30-87 | a callable's type name is "function", an object's "object" and an array's "array", and each name belongs to its kind only |
| Values.CallablePrint | env/types.go:34-36 | prints as the name followed by "()" |
| Values.PrintOfNewFunction | env/create.go:9-11 | a function made by `NewFunction` prints as the name it was given followed by "()" |
| Values.ArrayPrint | env/types.go:89-91 | a valid array prints as many elements as its stored length |
| Values.PrintOfNewArray | env/types.go:89-91 | printing an array made by `NewArray` gives back its elements, and a valid array is rebuilt by `NewArray` from what it prints |
| Util.FormatError | util/util.go:17-27 | nil stays nil; a message whose text contains "%d" is rendered again with the line as its one argument, whatever other verbs it holds; any other message passes through unchanged |
| Util.FormatErrorTemplate | util/util.go:22-23 | a template with one `%d` gets the line substituted, and formatting the result again changes nothing |
| Util.Contains | util/util.go:47-65 | true exactly when the target occurs in the list |
| Util.SeekClosingBracket | util/util.go:68-84 | the first index at or after the start where the bracket depth returns to 0, or eof when it never does |
| Util.ClosingBracketMatches | util/util.go:68-84 | from an opening bracket, the index found is a closing bracket and the depth stays positive up to it |
| Util.SplitByToken | expr/parse.go:29 | no parts for an empty interval; otherwise the parts between separators |
| Util.SplitTokensParts | expr/parse.go:29 | one more part than separators, no part holds a separator, and the parts concatenate to the input without its separators |
| Util.WrapFilename | util/util.go:103-113 | nil stays nil, and a message is changed only when it does not mention ".fizz" |
| Util.WrapFilenameText | util/util.go:108-110 | such a message is prefixed with the file name and ": ", and wrapping again with a ".fizz" name changes nothing |
| Util.GetPlainFilename | util/util.go:133-137 | the result holds no "/" |
| Util.PlainFilenameOfPath | util/util.go:133-137 | "dir/name.fizz" gives "name" |
| Util.PlainFilenameOfFile | util/util.go:133-137 | "name.fizz" gives "name" |
| Util.AddPair | util/util.go:118-130 | reports true exactly when the pair, as given, is stored, and then the list is unchanged; otherwise the sorted pair is appended; stored pairs stay sorted |
| Util.AddPairOnlySorted | util/util.go:126-127 | with sorted stored pairs, a hit is only possible for a query already in order |
| Util.AddPairMissesCycle | util/util.go:117-130 | after adding ("lib", "main"), adding ("main", "lib") is not detected and stores the pair again; only a third `Add("lib", "main")` reports it |
| Util.AddPairSorted | util/util.go:118-130 | the corrected check: true exactly when the sorted pair is stored |
| Util.AddPairSortedSymmetric | util/util.go:117-130 | the corrected check does not depend on the order of the two names, so the reverse of an added pair is detected |
| TermFlags.Register | term/term.go:39-45 | exactly the prefixed names are added, each set to false, and other entries are kept |
| TermFlags.NewFlagParser | term/term.go:33-48 | registers "-s" for each single-dash name and "--d" for each double-dash name, all false, with no callbacks |
| TermFlags.Assign | term/term.go:62-69 | only a registered name gets the callback; otherwise the not-valid error, with the parser unchanged; other callbacks are kept |
| TermFlags.Letters | term/term.go:90 | the letters of a single-dash argument hold no dash |
| TermFlagsProps.NewParserFlags | term/term.go:33-48 | every single-dash name is registered, unset and without callback |
| TermFlagsProps.SetLettersShape | term/term.go:89-104 | the letter loop only sets registered names and keeps the callbacks |
| TermFlagsProps.SetLettersOk | term/term.go:89-104 | the letters succeed exactly when every letter is registered, and then exactly those names are set |
| TermFlagsProps.SetLettersStops | term/term.go:89-104 | on failure the error names the first unregistered letter, and exactly the letters before it are set |
| TermFlagsProps.RunShape | term/term.go:72-113 | parsing keeps the registered names and callbacks and never unsets a flag |
| TermFlagsProps.RunOk | term/term.go:72-113 | parsing succeeds exactly when every dashed name is registered and at most one file is given |
| TermFlagsProps.RunResult | term/term.go:72-113 | on success the file name is the plain argument, a flag is set exactly when it was already set or an argument names it, and the callbacks run are those assigned to the named flags, one per mention, in argument order and, within "-abc", letter order |
| TermFlagsProps.SetLettersRan | term/term.go:89-101 | a successful letters loop runs the callbacks of "-a", "-b", … in letter order |
| TermFlagsProps.NoArguments | term/term.go:72-113 | no arguments give the empty file name, no error and an unchanged parser |
| TermFlagsProps.DoubleDash | term/term.go:76-87 | a registered "--x" is set and runs its callback, and an unregistered one is the not-valid error |
| TermFlagsProps.AssignThenParse | term/term.go:62-87 | an assigned callback runs when its flag is given |
| TermFlagsProps.LettersStop | term/term.go:89-104 | "-ab" with only "-a" registered sets "-a" and fails on "-b" |
| TermFlagsProps.TwoFiles | term/term.go:106-110 | a second file name is the too-many-files error, keeping the first name |
| TermArgs.Find | term/handler.go:12-28 | the search is true exactly when the name is stored |
| TermArgs.FirstUnknown | term/parser.go:44-56 | the position of the first dashed argument not in the valid list, with every earlier one known |
| TermArgs.LoopStops | term/parser.go:44-63 | the loop never panics; it succeeds exactly when no unknown dashed argument remains, and otherwise fails naming the first one |
| TermArgs.LoopOptions | term/parser.go:45-50 | the options are the double-dash arguments, in order, with their leading dashes trimmed |
| TermArgs.LoopFlags | term/parser.go:51-56 | the flags are the single-dash arguments, in order, with the dash trimmed |
| TermArgs.LoopArgs | term/parser.go:57-62 | the arguments are the undashed ones after the subcommand, in order |
| TermArgs.ParseSpec | term/parser.go:40-66 | `Parse` agrees with the reference reading: success exactly without unknown dashed arguments, the error naming the first one, and otherwise options, flags, subcommand and arguments as read off the list |
| TermArgs.Queries | term/handler.go:12-36 | `HasFlag` and `HasOption` are true exactly when a matching argument was given; `SubCommand` and `Args` give the subcommand (or "") and the arguments |
| TermArgs.SubCommandNeedsCompany | term/parser.go:57-59 | a lone argument is an argument, while the first of two is the subcommand |
| TermArgs.DashesCut | term/parser.go:45-56 | "--help" is stored as "help", and "-help" must itself be listed as valid |
| Build.Libraries | lib/build.py:26-29 | no more registrations than listing entries |
| Build.Include | lib/build.py:22-34 | the text is the header, one `Add` line per registered directory and the closing brace; it starts with the header and ends with "}" |
| Build.LibrariesAppend | lib/build.py:27-32 | listing order is kept, and two listings register one after the other |
| Build.Ignored | lib/build.py:28-29 | a file, or the `_libdump` directory, adds nothing wherever it appears |
| Build.NoneRegistered | lib/build.py:28-29 | with no qualifying entry nothing is registered |
| Build.NothingRegistered | lib/build.py:23-34 | with no qualifying directory the file is the header and "}" |
| Build.OneLinePerLibrary | lib/build.py:27-32 | read back line by line, the registrations are exactly one `Add("d", d.Includes)` per registered directory, in order |
| Build.Example | lib/build.py:22-34 | a listing of io, include.go, _libdump and str registers io and str |
| AutoDocsProps.OneLinerRecord | lib/autodocs.py:30-33 | a one-line comment gives the record ("", text + " \n"), keeping the space before `*/`, and does not move `start` |
| AutoDocsProps.StepOpen | lib/autodocs.py:35-36 | an opening line sets `start` to its index |
| AutoDocsProps.StepClose | lib/autodocs.py:37-41 | a closing line records the lines strictly between `start` and it: the last one, without tabs, is the signature, and the others joined without tabs are the doc |
| AutoDocsProps.StepCloseEmpty | lib/autodocs.py:37-40 | a closing line with nothing between it and `start` raises the index error |
| AutoDocsProps.SkipQuiet | lib/autodocs.py:29-41 | lines that neither open nor close change nothing |
| AutoDocsProps.RoundTrip | lib/autodocs.py:26-43 | scanning text built from well-formed blocks gives back exactly the blocks' records, in order |
| AutoDocsProps.AddDocOfBlocks | lib/autodocs.py:26-43 | `add_doc` of a file of well-formed blocks is those blocks' records |
| AutoDocsProps.StrayCloseReusesStart | lib/autodocs.py:28-41 | a second closing line reuses the old `start` and records the whole block again |
| AutoDocsProps.EmptyBlockCrashes | lib/autodocs.py:37-40 | `/*` directly followed by `*/` raises the index error |
| AutoDocsProps.CloseFirstCrashes | lib/autodocs.py:28-40 | a closing first line raises the index error |
| AutoDocsProps.LastOpenWins | lib/autodocs.py:35-41 | of two opening lines, the later one starts the block |
| AutoDocsProps.ReadFileExample | lib/io/io.go:49-53 | the `readFile` comment gives the doc "Reads file and returns text.\nThis is some extra line\n" and its signature line, with the tabs deleted |
| AutoDocsProps.NameOfSignature | lib/autodocs.py:52 | the heading of "func name(…" is name |
| AutoDocsProps.NameNeedsSpace | lib/autodocs.py:52 | a signature without a space raises the index error |
| AutoDocsProps.SectionsAppend | lib/autodocs.py:51-56 | the sections of two record lists follow each other |
| AutoDocsProps.Layout | lib/autodocs.py:50-56 | the exact markdown of one record, and the title alone for none |
| AutoDocsProps.DottedSkipped | lib/autodocs.py:8-10 | a name with a dot is skipped |
| AutoDocsProps.OnlyGoFiles | lib/autodocs.py:15-17 | files not ending in ".go" contribute no records |
| AutoDocsProps.NoRecordsNoFile | lib/autodocs.py:22-23 | a library without records writes no file |
| AutoDocsProps.OneFilePerLibrary | lib/autodocs.py:12-23 | a library with records writes exactly `./lib/L/L_docs.md` with its markdown |
| AutoDocsProps.GenerateAppend | lib/autodocs.py:8-23 | the files of two listings are written one after the other |

## Findings

| source | as written | input that shows it | evidently intended | confidence | as-written member | corrected member |
|---|---|---|---|---|---|---|
| util/util.go:117-130 | `Add(a, b)` compares the query, unsorted, with stored pairs that are sorted | `Add("lib", "main")` then `Add("main", "lib")` returns false; the import at interp/interp.go:63-67 then re-runs main.fizz, whose `Add("lib", "main")` matches, so the cycle is reported one import late with the names swapped | the reverse of a stored pair is detected at the import that closes the cycle | not executed | Util.AddPairMissesCycle | Util.AddPairSortedSymmetric |
| expr/evaluate.go:136-140 | the count test compares the number of arguments with `numArgs`, which lib/lib.go:49-50 sets to -1 for every library function; latent in this revision, since a library function is only a field of the imported object (lib/lib.go:41-67) and `EvaluateExpression` does not evaluate getters (expr/evaluate.go:17-33) | none in this revision: `io.readFile(...)` is a getter and gives ErrInvalidExpression, and a bare `readFile(...)` is not declared; once getters are evaluated, any call of a library function reaches the test with -1 | -1 means any number of arguments, as the comment at lib/lib.go:49 says | not executed | EvaluateProps.LibraryCallRefused | EvaluateProps.LibraryCallRuns |
| stmt/parse.go:34 | a lone `;` slices `tokens[1:0]` | the token list `[;]` | an empty statement is reported as an error | not executed | StmtParse.EmptyStatement | StmtParse.StatementsPerSemicolon |
| stmt/parse.go:34-53 | a statement's first token is dropped, or taken as `print`. The lexer turns each line break into a NEWLINE token (lexer/lexer.go:44-48), so a statement that starts a line loses that token and keeps its own, and a `print` there is parsed as an operand and refused. The first statement of the input and any statement after another on the same line lose their own first token. Line breaks after the last `;` are a statement without `;` | `x;` parses to the empty expression; `x;` and a line break is the missing-semicolon error with line 0 | line breaks before a statement are skipped, and only a `print` keyword is dropped | not executed | StmtParse.FirstTokenDropped | StmtParse.StatementsPerSemicolon |
| expr/evaluate.go:38-46 | unary minus asserts a number even when its operand failed | `-x` with x undefined | the operand's error is returned | not executed | EvaluateProps.MinusOfUndefined | EvaluateProps.CorrectedUnaryPropagates |

The corrected readings are `StmtParse.ParseStatementsCorrected` and `Evaluate.Eval` with `corrected` set, which both returns a unary operand's error and lets a negative `numArgs` accept any argument count. `EvaluateProps.LibraryCallRefused` and `EvaluateProps.LibraryCallRuns` state the two readings of a library call. `StatementsPerSemicolon` and `CorrectedUnaryPropagates` are stated for them. `StmtParse.LineBreakStatements`, `StmtParse.PrintAfterLineBreak`, `StmtParse.FinalLineBreak` and `StmtParse.TrailingLineBreaks` show the line-break side of the dropped first token in both readings. `Util.AddPairSorted` is the corrected `Add`. The old parser's grouping up to the last `)` is modelled as written and is not listed as a finding. That code is superseded, and `OldParser.TwoGroupsRejected` shows its effect.

## Left out

- Floating point. Numbers are `real`, and the results of `+ - * ^ /` come from the `Host` parameter. `strconv.ParseFloat` in the lexer is the `parseFloat` parameter. The `int` overflow of the float-to-int conversion in `%` is not modelled.
- Evaluate.EvalBinary: equality of objects, arrays and opaque library values is Go reference or interface identity, which comes from the `Host` parameter. Go's `==` also panics on two values of the same uncomparable dynamic type, such as a slice or map a library returns; the model asks `Host` instead for any two `Opaque` values of the same type name.
- Values.ArrayPrint: only a valid array's print is stated, that is, one whose stored length agrees with its elements, as every array `NewArray` builds does.
- Evaluate.EvalCall: the callee is a `Host` parameter that maps a callable and its arguments to an outcome. Library callbacks (`Callable.Call`, flag callbacks) are opaque values.
- Evaluate.TypeOf: reflection-based type names are an enumeration over value kinds.
  - Objects and arrays are held by reference and have the empty type name.
  - Library values of other Go types carry their type name.
- Values and Env: Go map aliasing is not modelled. This covers `GetCurrentEnv` versus the snapshot, and an object sharing its fields with the scope it was built from. `Object.Print` is not modelled, because its field order is Go's random map order.
- Lexer.GetTokens: input is a sequence of characters, whereas Go indexes bytes; multi-byte characters are not modelled. On an error the Go function also returns the tokens produced so far; callers drop them, and so does the model.
- Input and output: all of it is left out.
  - Directory listings and file contents are parameters of `Build.Include` and `AutoDocs.GenerateDocs`, and the written files are returned.
  - Files written before a later exception are not modelled.
  - `goimports`/`gofmt` (lib/build.py:38-39) are not modelled.
- Build.Include: that the same listing always gives the same text holds because the model is a function, and is not stated separately.
- Util.Contains covers both `Contains` and `SContains`; it is a generic method.
- util.PrintError, util.ErrorAndExit and util.GetType print, exit or use reflection.
- The executor, REPL and process wiring are not part of this model: stmt/execute.go, interp, run, main.go, lib/lib.go, the lib/io, lib/str, lib/math and lib/std wrappers, lib/print.go, parser/evaluate.go, env/native.go, term/cmd.go and the embedded HELP text.
- TermFlags.Run: `os.Args[1:]` is a parameter. Callbacks run are returned in order rather than executed.
- ExprParse.ParsePTokens: the unary test compares a lexer kind with a parse-token kind, which never matches for MINUS, TYPE or NOT. It is modelled as written, so only pairs are Unary (`ExprParseProps.UnaryOnlyForPairs`).

=== FILE: autodocs.dfy ===
/** The library documentation generator (lib/autodocs.py). `add_doc` scans
    a Go file's lines for `/* … */` blocks and turns each into a record of
    doc text and signature line; `create_file` renders a library's records
    as markdown; `main` walks the library folders. Lines keep their
    newline, as `readlines` returns them. Directory listings and file
    contents are parameters and the written files are returned; a Python
    exception is `Crash`. */
module AutoDocs {
  import opened Results
  import opened Strs

  datatype Doc = Doc(doc: string, func: string)

  /** `notab[3:len(notab)-3]`: the text between "/* " and " */\n". For a
      string shorter than three the stop is negative and counts from the
      end, which still leaves it before the start. */
  function Inner(notab: string): string {
    Slice(notab, 3, if |notab| >= 3 then |notab| - 3 else 0)
  }

  /** A comment that opens and closes on one line. */
  predicate OneLiner(l: string) {
    StartsWith(Without(l, '\t'), "/*") && Count(l, "*/") == 1
  }

  predicate Opens(l: string) {
    StartsWith(l, "/*")
  }

  predicate Closes(l: string) {
    StartsWith(l, "*/")
  }

  /** The record of a block whose lines strictly between the markers are
      `interval`: all but the last line are the doc, the last is the
      signature, tabs deleted from both. An empty interval is the
      `IndexError` of `interval[-1]`. */
  function Record(interval: seq<string>): Result<Doc> {
    if |interval| == 0 then Crash("IndexError: list index out of range")
    else Ok(Doc(Without(Join(interval[..|interval| - 1], ""), '\t'), Without(interval[|interval| - 1], '\t')))
  }

  /** The loop of `add_doc` from line `idx`, with `start` the index of the
      last opening line and the records so far. */
  function AddDocFrom(c: seq<string>, idx: nat, start: nat, docs: seq<Doc>): Result<seq<Doc>>
    requires idx <= |c|
    decreases |c| - idx
  {
    if idx == |c| then Ok(docs)
    else
      var l := c[idx];
      if OneLiner(l) then AddDocFrom(c, idx + 1, start, docs + [Doc("", Inner(Without(l, '\t')) + "\n")])
      else
        var start' := if Opens(l) then idx else start;
        if Closes(l) then
          match Record(Slice(c, start' + 1, idx))
          case Ok(d) => AddDocFrom(c, idx + 1, start', docs + [d])
          case Err(m) => Err(m)
          case Crash(why) => Crash(why)
        else AddDocFrom(c, idx + 1, start', docs)
  }

  /** `add_doc`: `start` begins at 0 and is never reset. */
  function AddDoc(c: seq<string>): Result<seq<Doc>> {
    AddDocFrom(c, 0, 0, [])
  }

  /** The heading name: the second space-separated word of the signature,
      cut at its first "(". A signature without a space is the
      `IndexError` of `split(" ")[1]`. */
  function Name(func: string): Result<string> {
    var words := SplitOn(func, ' ');
    if |words| < 2 then Crash("IndexError: list index out of range")
    else Ok(SplitOn(words[1], '(')[0])
  }

  /** What `create_file` writes for one record with heading `name`. */
  function Section(name: string, d: Doc): string {
    "## **`" + name + "`**\n\n" + d.doc + "\n" + "```go\n" + d.func + "```\n\n" + "<br>\n\n"
  }

  function Title(libname: string): string {
    "# Methods in " + libname + " library\n\n"
  }

  function Sections(docs: seq<Doc>): Result<string>
    decreases |docs|
  {
    if |docs| == 0 then Ok("")
    else
      match Name(docs[0].func)
      case Ok(name) =>
        (match Sections(docs[1..])
         case Ok(rest) => Ok(Section(name, docs[0]) + rest)
         case Err(m) => Err(m)
         case Crash(why) => Crash(why))
      case Err(m) => Err(m)
      case Crash(why) => Crash(why)
  }

  /** `create_file`: the text of `<path>/<libname>_docs.md`. */
  function CreateFile(libname: string, docs: seq<Doc>): Result<string> {
    match Sections(docs)
    case Ok(body) => Ok(Title(libname) + body)
    case Err(m) => Err(m)
    case Crash(why) => Crash(why)
  }

  /** An entry of `./lib`: a folder with its files (name and lines), or a
      plain file. */
  datatype Entry = Folder(name: string, files: seq<(string, seq<string>)>) | File(name: string)

  /** The records of a folder: the ".go" files' records, file after file. */
  function FolderDocs(files: seq<(string, seq<string>)>): Result<seq<Doc>>
    decreases |files|
  {
    if |files| == 0 then Ok([])
    else
      var here := if EndsWith(files[0].0, ".go") then AddDoc(files[0].1) else Ok([]);
      match here
      case Ok(d) =>
        (match FolderDocs(files[1..])
         case Ok(rest) => Ok(d + rest)
         case Err(m) => Err(m)
         case Crash(why) => Crash(why))
      case Err(m) => Err(m)
      case Crash(why) => Crash(why)
  }

  /** `main`: names with a "." are skipped; any other name is listed as a
      folder, which fails for a plain file; a folder's docs file is
      written only when it has records. The result is the written files,
      path and text, in listing order. */
  function GenerateDocs(entries: seq<Entry>): Result<seq<(string, string)>>
    decreases |entries|
  {
    if |entries| == 0 then Ok([])
    else
      var e := entries[0];
      if '.' in e.name then GenerateDocs(entries[1..])
      else if e.File? then Crash("NotADirectoryError: ./lib/" + e.name)
      else
        var path := "./lib/" + e.name;
        match FolderDocs(e.files)
        case Ok(total) =>
          var here := if |total| != 0 then CreateFile(e.name, total) else Ok("");
          (match here
           case Ok(text) =>
             (match GenerateDocs(entries[1..])
              case Ok(rest) => Ok((if |total| != 0 then [(path + "/" + e.name + "_docs.md", text)] else []) + rest)
              case Err(m) => Err(m)
              case Crash(why) => Crash(why))
           case Err(m) => Err(m)
           case Crash(why) => Crash(why))
        case Err(m) => Err(m)
        case Crash(why) => Crash(why)
  }
}

=== FILE: autodocs_props.dfy ===
/** What the documentation generator (lib/autodocs.py) guarantees: the
    records of a file written as blocks are read back in order, one per
    block; the failure modes of the never-reset `start`; the heading name
    and the markdown layout; and which folders and files `main` looks at. */
module AutoDocsProps {
  import opened Results
  import opened Strs
  import opened AutoDocs

  /** A line that neither opens nor closes a comment. */
  predicate Quiet(l: string) {
    !OneLiner(l) && !Opens(l) && !Closes(l)
  }

  predicate AllQuiet(ls: seq<string>) {
    forall k :: 0 <= k < |ls| ==> Quiet(ls[k])
  }

  /** Code lines, then a `/* … */` block with its doc lines and signature. */
  datatype Block = Block(code: seq<string>, docLines: seq<string>, func: string)

  predicate QuietBlock(b: Block) {
    AllQuiet(b.code) && AllQuiet(b.docLines) && Quiet(b.func)
  }

  const Open := "/*\n"
  const Close := "*/\n"

  function BlockLines(b: Block): seq<string> {
    b.code + [Open] + b.docLines + [b.func] + [Close]
  }

  function Emit(blocks: seq<Block>): seq<string>
    decreases |blocks|
  {
    if |blocks| == 0 then [] else BlockLines(blocks[0]) + Emit(blocks[1..])
  }

  /** The record a block should give. */
  function Expected(b: Block): Doc {
    Doc(Without(Join(b.docLines, ""), '\t'), Without(b.func, '\t'))
  }

  function ExpectedAll(blocks: seq<Block>): seq<Doc>
    decreases |blocks|
  {
    if |blocks| == 0 then [] else [Expected(blocks[0])] + ExpectedAll(blocks[1..])
  }

  lemma MarkerLines()
    ensures !OneLiner(Open) && Opens(Open) && !Closes(Open)
    ensures !OneLiner(Close) && !Opens(Close) && Closes(Close)
  {
    assert Without(Open, '\t') == Open by {
      assert Open[1..][1..][1..] == [];
    }
    assert Count(Open, "*/") == 0 by {
      assert Open[1..] == "*\n" && Open[1..][1..] == "\n" && Open[1..][1..][1..] == [];
      assert !StartsWith(Open, "*/") && !StartsWith("*\n", "*/") && !StartsWith("\n", "*/");
    }
    assert Without(Close, '\t') == Close by {
      assert Close[1..][1..][1..] == [];
    }
    assert !StartsWith(Close, "/*") && !StartsWith(Open, "*/");
  }

  /** The scan ends with the records it has. */
  lemma ScanEnd(c: seq<string>, start: nat, docs: seq<Doc>)
    ensures AddDocFrom(c, |c|, start, docs) == Ok(docs)
  {
  }

  /** One quiet line is passed over. */
  lemma StepQuiet(c: seq<string>, i: nat, start: nat, docs: seq<Doc>)
    requires i < |c| && Quiet(c[i])
    ensures AddDocFrom(c, i, start, docs) == AddDocFrom(c, i + 1, start, docs)
  {
  }

  /** An opening line moves `start` to itself. */
  lemma StepOpen(c: seq<string>, i: nat, start: nat, docs: seq<Doc>)
    requires i < |c| && c[i] == Open
    ensures AddDocFrom(c, i, start, docs) == AddDocFrom(c, i + 1, i, docs)
  {
    MarkerLines();
  }

  /** A closing line with lines after `start` emits their record. */
  lemma StepClose(c: seq<string>, i: nat, start: nat, docs: seq<Doc>)
    requires i < |c| && c[i] == Close && start + 1 < i
    ensures AddDocFrom(c, i, start, docs) ==
            AddDocFrom(c, i + 1, start, docs + [Doc(Without(Join(c[start + 1..i - 1], ""), '\t'), Without(c[i - 1], '\t'))])
  {
    MarkerLines();
    hide OneLiner, Opens, Closes, Without, Count, Join, StartsWith;
    var iv := c[start + 1..i];
    assert Slice(c, start + 1, i) == iv;
    assert iv[..|iv| - 1] == c[start + 1..i - 1] && iv[|iv| - 1] == c[i - 1];
  }

  /** A closing line with nothing after `start` fails. */
  lemma StepCloseEmpty(c: seq<string>, i: nat, start: nat, docs: seq<Doc>)
    requires i < |c| && c[i] == Close && i <= start + 1
    ensures AddDocFrom(c, i, start, docs).Crash?
  {
    MarkerLines();
    assert Slice(c, start + 1, i) == [];
  }

  /** A one-line comment, indented by tabs, gives the record of an empty
      doc and the text between the opening marker and its space and the
      closing marker (the space before that kept) with a newline; `start`
      is left as it was. */
  lemma OneLinerRecord(c: seq<string>, i: nat, start: nat, docs: seq<Doc>, tabs: string, s: string)
    requires i < |c| && c[i] == tabs + ("/* " + s + " */\n")
    requires forall k :: 0 <= k < |tabs| ==> tabs[k] == '\t'
    requires '\t' !in s && Count(c[i], "*/") == 1
    ensures AddDocFrom(c, i, start, docs) == AddDocFrom(c, i + 1, start, docs + [Doc("", s + " \n")])
  {
    var body := "/* " + s + " */\n";
    OneLinerText(tabs, s);
    hide Without, Count, Slice, Inner;
    assert OneLiner(c[i]);
    assert Inner(Without(c[i], '\t')) + "\n" == s + " \n";
  }

  /** What a one-line comment looks like with its tabs deleted. */
  lemma OneLinerText(tabs: string, s: string)
    requires forall k :: 0 <= k < |tabs| ==> tabs[k] == '\t'
    requires '\t' !in s
    ensures var body := "/* " + s + " */\n";
            && Without(tabs + body, '\t') == body
            && StartsWith(body, "/*")
            && Inner(body) == s + " "
  {
    hide *;
    var body := "/* " + s + " */\n";
    BodyShape(s);
    WithoutAppend(tabs, body, '\t');
    WithoutTabs(tabs);
    WithoutAbsent(body, '\t');
    assert [] + body == body;
    InnerBody(s);
  }

  lemma BodyShape(s: string)
    requires '\t' !in s
    ensures var body := "/* " + s + " */\n";
            '\t' !in body && StartsWith(body, "/*")
  {
    var body := "/* " + s + " */\n";
    assert body[..2] == "/*";
    assert '\t' !in "/* " && '\t' !in " */\n";
  }

  lemma InnerBody(s: string)
    ensures Inner("/* " + s + " */\n") == s + " "
  {
    var body := "/* " + s + " */\n";
    assert |body| == |s| + 7;
    assert Inner(body) == body[3..|s| + 4];
    forall k | 0 <= k < |s| + 1
      ensures body[3..|s| + 4][k] == (s + " ")[k]
    {
      if k < |s| {
        assert body[3 + k] == s[k];
      } else {
        assert body[3 + |s|] == ' ';
      }
    }
  }

  lemma {:induction false} WithoutTabs(tabs: string)
    requires forall k :: 0 <= k < |tabs| ==> tabs[k] == '\t'
    ensures Without(tabs, '\t') == []
    decreases |tabs|
  {
    if |tabs| > 0 {
      WithoutTabs(tabs[1..]);
    }
  }

  /** Lines that neither open nor close leave the scan as it was. */
  lemma {:induction false} SkipQuiet(c: seq<string>, i: nat, j: nat, start: nat, docs: seq<Doc>)
    requires i <= j <= |c|
    requires forall k :: i <= k < j ==> Quiet(c[k])
    ensures AddDocFrom(c, i, start, docs) == AddDocFrom(c, j, start, docs)
    decreases j - i
  {
    hide *;
    if i < j {
      StepQuiet(c, i, start, docs);
      SkipQuiet(c, i + 1, j, start, docs);
    }
  }

  lemma BlockLinesAt(b: Block)
    ensures var lines := BlockLines(b);
            |lines| == |b.code| + |b.docLines| + 3 &&
            lines[..|b.code|] == b.code && lines[|b.code|] == Open &&
            lines[|b.code| + 1..|lines| - 2] == b.docLines &&
            lines[|lines| - 2] == b.func && lines[|lines| - 1] == Close
  {
    var lines := BlockLines(b);
    assert lines == b.code + ([Open] + b.docLines + [b.func] + [Close]);
  }

  /** A block read from position `p`: whatever `start` was before, its
      opening line resets it, and its closing line emits its record. */
  lemma ReadBlock(c: seq<string>, p: nat, b: Block, start: nat, docs: seq<Doc>)
    requires QuietBlock(b)
    requires p + |BlockLines(b)| <= |c| && c[p..p + |BlockLines(b)|] == BlockLines(b)
    ensures AddDocFrom(c, p, start, docs) == AddDocFrom(c, p + |BlockLines(b)|, p + |b.code|, docs + [Expected(b)])
  {
    hide AddDocFrom, Quiet, OneLiner, Opens, Closes, Without, Join, Count, StartsWith;
    var lines := BlockLines(b);
    var o := p + |b.code|;
    var q := o + 1 + |b.docLines| + 1;
    assert |lines| == q + 1 - p;
    BlockLinesAt(b);
    assert c[p..o] == b.code && c[o] == Open && c[o + 1..q - 1] == b.docLines && c[q - 1] == b.func && c[q] == Close by {
      assert c[p..p + |lines|][..|b.code|] == c[p..o];
      assert c[p..p + |lines|][|b.code|] == c[o];
      forall k | 0 <= k < |b.docLines|
        ensures c[o + 1..q - 1][k] == b.docLines[k]
      {
        assert c[o + 1 + k] == c[p..p + |lines|][|b.code| + 1 + k];
        assert lines[|b.code| + 1 + k] == lines[|b.code| + 1..|lines| - 2][k];
      }
      assert c[p..p + |lines|][|lines| - 2] == c[q - 1];
      assert c[p..p + |lines|][|lines| - 1] == c[q];
    }
    forall k | p <= k < o
      ensures Quiet(c[k])
    {
      assert c[k] == c[p..o][k - p];
    }
    forall k | o + 1 <= k < q
      ensures Quiet(c[k])
    {
      if k < q - 1 {
        assert c[k] == c[o + 1..q - 1][k - o - 1];
      }
    }
    SkipQuiet(c, p, o, start, docs);
    StepOpen(c, o, start, docs);
    SkipQuiet(c, o + 1, q, o, docs);
    StepClose(c, q, o, docs);
  }

  /** Written out as blocks, a file's records are read back, one per block
      and in order, with tabs deleted; quiet lines after the last block
      change nothing. */
  lemma {:induction false} RoundTrip(pre: seq<string>, blocks: seq<Block>, tail: seq<string>, start: nat, docs: seq<Doc>)
    requires forall k :: 0 <= k < |blocks| ==> QuietBlock(blocks[k])
    requires AllQuiet(tail)
    ensures AddDocFrom(pre + Emit(blocks) + tail, |pre|, start, docs) == Ok(docs + ExpectedAll(blocks))
    decreases |blocks|
  {
    hide AddDocFrom, Quiet, QuietBlock, BlockLines, Expected;
    var c := pre + Emit(blocks) + tail;
    if |blocks| == 0 {
      assert c == pre + tail;
      forall k | |pre| <= k < |c|
        ensures Quiet(c[k])
      {
        assert c[k] == tail[k - |pre|];
      }
      SkipQuiet(c, |pre|, |c|, start, docs);
      ScanEnd(c, start, docs);
      assert docs + [] == docs;
    } else {
      var b := blocks[0];
      var pre' := pre + BlockLines(b);
      assert Emit(blocks) == BlockLines(b) + Emit(blocks[1..]);
      assert c == pre' + Emit(blocks[1..]) + tail;
      assert c[|pre|..|pre| + |BlockLines(b)|] == BlockLines(b);
      ReadBlock(c, |pre|, b, start, docs);
      RoundTrip(pre', blocks[1..], tail, |pre| + |b.code|, docs + [Expected(b)]);
      assert ExpectedAll(blocks) == [Expected(b)] + ExpectedAll(blocks[1..]);
      assert docs + [Expected(b)] + ExpectedAll(blocks[1..]) == docs + ExpectedAll(blocks);
    }
  }

  /** `add_doc` on a file written as blocks. */
  lemma AddDocOfBlocks(blocks: seq<Block>, tail: seq<string>)
    requires forall k :: 0 <= k < |blocks| ==> QuietBlock(blocks[k])
    requires AllQuiet(tail)
    ensures AddDoc(Emit(blocks) + tail) == Ok(ExpectedAll(blocks))
  {
    hide AddDocFrom, Emit, ExpectedAll, QuietBlock, AllQuiet;
    var none: seq<string> := [];
    RoundTrip(none, blocks, tail, 0, []);
    assert none + Emit(blocks) + tail == Emit(blocks) + tail;
    assert [] + ExpectedAll(blocks) == ExpectedAll(blocks);
  }

  /** A second closing line reuses the block's `start`: it emits a record
      of everything since the opening line, the first closing line
      included. */
  lemma StrayCloseReusesStart(b: Block)
    requires QuietBlock(b)
    ensures AddDoc(BlockLines(b) + [Close]) ==
            Ok([Expected(b), Doc(Without(Join(b.docLines + [b.func], ""), '\t'), Without(Close, '\t'))])
  {
    hide AddDocFrom, Quiet, QuietBlock, Expected, Without, Join;
    var c := BlockLines(b) + [Close];
    var o := |b.code|;
    var q := |BlockLines(b)|;
    assert c[0..q] == BlockLines(b);
    ReadBlock(c, 0, b, 0, []);
    BlockLinesAt(b);
    var lines := BlockLines(b);
    assert c[q] == Close && c[q - 1] == Close;
    assert c[o + 1..q - 1] == b.docLines + [b.func] by {
      assert c[o + 1..q - 1] == lines[o + 1..q - 1];
      assert lines[o + 1..q - 1] == lines[o + 1..q - 2] + [lines[q - 2]];
    }
    var stray := Doc(Without(Join(b.docLines + [b.func], ""), '\t'), Without(Close, '\t'));
    StepClose(c, q, o, [] + [Expected(b)]);
    ScanEnd(c, o, [] + [Expected(b)] + [stray]);
    assert |c| == q + 1;
    assert [] + [Expected(b)] + [stray] == [Expected(b), stray];
  }

  /** An opening line directly followed by a closing line leaves nothing
      between them, and `interval[-1]` fails. */
  lemma EmptyBlockCrashes(code: seq<string>, rest: seq<string>)
    requires AllQuiet(code)
    ensures AddDoc(code + [Open, Close] + rest).Crash?
  {
    hide AddDocFrom, Quiet;
    var c := code + [Open, Close] + rest;
    forall k | 0 <= k < |code|
      ensures Quiet(c[k])
    {
      assert c[k] == code[k];
    }
    SkipQuiet(c, 0, |code|, 0, []);
    StepOpen(c, |code|, 0, []);
    StepCloseEmpty(c, |code| + 1, |code|, []);
  }

  /** A closing line before any opening one reads from line 1: on the
      first line it finds nothing and fails. */
  lemma CloseFirstCrashes(rest: seq<string>)
    ensures AddDoc([Close] + rest).Crash?
  {
    StepCloseEmpty([Close] + rest, 0, 0, []);
  }

  /** Of two opening lines the later one wins: the record holds only what
      follows it. */
  lemma LastOpenWins(unclosed: seq<string>, b: Block)
    requires AllQuiet(unclosed) && QuietBlock(b)
    ensures AddDoc([Open] + unclosed + BlockLines(b)) == Ok([Expected(b)])
  {
    hide AddDocFrom, Quiet, QuietBlock, BlockLines, Expected;
    var c := [Open] + unclosed + BlockLines(b);
    var p := 1 + |unclosed|;
    forall k | 1 <= k < p
      ensures Quiet(c[k])
    {
      assert c[k] == unclosed[k - 1];
    }
    StepOpen(c, 0, 0, []);
    SkipQuiet(c, 1, p, 0, []);
    assert c[p..p + |BlockLines(b)|] == BlockLines(b);
    ReadBlock(c, p, b, 0, []);
    ScanEnd(c, p + |b.code|, [] + [Expected(b)]);
    assert [] + [Expected(b)] == [Expected(b)];
  }

  const ReadFileDoc1 := "Reads file and returns text.\n"
  const ReadFileDoc2 := "This is some extra line\n"
  const ReadFileFunc := "func readFile(filename string) string\n"

  /** The readFile block of lib/io/io.go: the doc's two lines and the
      signature, their leading tabs gone. */
  lemma ReadFileExample()
    ensures AddDoc([Open, "\t" + ReadFileDoc1, "\t" + ReadFileDoc2, "\t" + ReadFileFunc, Close])
            == Ok([Doc(ReadFileDoc1 + ReadFileDoc2, ReadFileFunc)])
  {
    hide *;
    var b := Block([], ["\t" + ReadFileDoc1, "\t" + ReadFileDoc2], "\t" + ReadFileFunc);
    ReadFileLines();
    QuietIndented(ReadFileDoc1);
    QuietIndented(ReadFileDoc2);
    QuietIndented(ReadFileFunc);
    BlockQuiet(b);
    AddDocOfBlocks([b], []);
    OneBlock(b);
    ExpectedIndented(ReadFileDoc1, ReadFileDoc2, ReadFileFunc);
    assert [Open] + ["\t" + ReadFileDoc1, "\t" + ReadFileDoc2] + ["\t" + ReadFileFunc] + [Close]
        == [Open, "\t" + ReadFileDoc1, "\t" + ReadFileDoc2, "\t" + ReadFileFunc, Close];
  }

  lemma ReadFileLines()
    ensures |ReadFileDoc1| > 0 && 'A' <= ReadFileDoc1[0] <= 'z' && '\t' !in ReadFileDoc1
    ensures |ReadFileDoc2| > 0 && 'A' <= ReadFileDoc2[0] <= 'z' && '\t' !in ReadFileDoc2
    ensures |ReadFileFunc| > 0 && 'A' <= ReadFileFunc[0] <= 'z' && '\t' !in ReadFileFunc
  {
  }

  lemma BlockQuiet(b: Block)
    requires AllQuiet(b.code) && AllQuiet(b.docLines) && Quiet(b.func)
    ensures QuietBlock(b)
  {
  }

  lemma OneBlock(b: Block)
    requires b.code == []
    ensures Emit([b]) + [] == [Open] + b.docLines + [b.func] + [Close]
    ensures ExpectedAll([b]) == [Expected(b)]
  {
    assert [b][1..] == [];
  }

  lemma ExpectedIndented(d1: string, d2: string, f: string)
    requires '\t' !in d1 && '\t' !in d2 && '\t' !in f
    ensures Expected(Block([], ["\t" + d1, "\t" + d2], "\t" + f)) == Doc(d1 + d2, f)
  {
    assert Join(["\t" + d1, "\t" + d2], "") == "\t" + d1 + ("\t" + d2) by {
      assert ["\t" + d1, "\t" + d2][1..] == ["\t" + d2];
    }
    WithoutAppend("\t" + d1, "\t" + d2, '\t');
    WithoutIndent(d1);
    WithoutIndent(d2);
    WithoutIndent(f);
  }

  lemma {:induction false} WithoutAppend(a: string, b: string, c: char)
    ensures Without(a + b, c) == Without(a, c) + Without(b, c)
    decreases |a|
  {
    if |a| > 0 {
      assert (a + b)[1..] == a[1..] + b;
      WithoutAppend(a[1..], b, c);
    } else {
      assert a + b == b;
    }
  }

  lemma {:induction false} WithoutAbsent(s: string, c: char)
    requires c !in s
    ensures Without(s, c) == s
    decreases |s|
  {
    if |s| > 0 {
      WithoutAbsent(s[1..], c);
    }
  }

  /** One leading tab goes. */
  lemma WithoutIndent(s: string)
    requires '\t' !in s
    ensures Without("\t" + s, '\t') == s
  {
    assert ("\t" + s)[1..] == s;
    WithoutAbsent(s, '\t');
  }

  /** A tab-indented line whose text starts with a letter is quiet. */
  lemma QuietIndented(s: string)
    requires |s| > 0 && 'A' <= s[0] <= 'z' && '\t' !in s
    ensures Quiet("\t" + s)
  {
    WithoutIndent(s);
    var l := "\t" + s;
    assert !StartsWith(s, "/*");
    assert !StartsWith(l, "/*") && !StartsWith(l, "*/");
  }

  // ---------------------------------------------------------------------
  // Names and layout

  lemma {:induction false} FirstPart(a: string, c: char, b: string)
    requires c !in a
    ensures SplitOn(a + b, c)[0] == a + SplitOn(b, c)[0]
    decreases |a|
  {
    if |a| > 0 {
      assert (a + b)[1..] == a[1..] + b;
      FirstPart(a[1..], c, b);
      assert a == [a[0]] + a[1..];
    } else {
      assert a + b == b;
    }
  }

  /** The heading name of "func name(…) …" is `name`. */
  lemma NameOfSignature(name: string, rest: string)
    requires ' ' !in name && '(' !in name
    ensures Name("func " + name + "(" + rest) == Ok(name)
  {
    var s := "func " + name + "(" + rest;
    assert s == "func" + [' '] + (name + "(" + rest);
    SplitOnFree("func", ' ');
    assert ' ' !in "func";
    SplitOnCons("func", ' ', name + "(" + rest);
    var w := SplitOn(name + "(" + rest, ' ');
    assert SplitOn(s, ' ')[1] == w[0];
    FirstPart(name + "(", ' ', rest);
    assert name + "(" + rest == (name + "(") + rest;
    assert w[0] == name + "(" + SplitOn(rest, ' ')[0];
    SplitOnCons(name, '(', SplitOn(rest, ' ')[0]);
    assert name + "(" + SplitOn(rest, ' ')[0] == name + ['('] + SplitOn(rest, ' ')[0];
  }

  /** A signature without a space has no second word. */
  lemma NameNeedsSpace(func: string)
    requires ' ' !in func
    ensures Name(func).Crash?
  {
    SplitOnFree(func, ' ');
  }

  /** The sections of a list are those of its first record, then the
      rest's. */
  lemma SectionsCons(d: Doc, rest: seq<Doc>)
    ensures Sections([d] + rest).Ok? <==> Sections([d]).Ok? && Sections(rest).Ok?
    ensures Sections([d] + rest).Ok? ==> Sections([d] + rest).value == Sections([d]).value + Sections(rest).value
  {
    assert ([d] + rest)[1..] == rest && [d][1..] == [];
    if Name(d.func).Ok? {
      assert Sections([d]) == Ok(Section(Name(d.func).value, d) + "");
      assert Sections([d]).value == Section(Name(d.func).value, d) + "";
      assert Section(Name(d.func).value, d) + "" == Section(Name(d.func).value, d);
    }
  }

  lemma {:induction false} SectionsAppend(a: seq<Doc>, b: seq<Doc>)
    requires Sections(a).Ok? && Sections(b).Ok?
    ensures Sections(a + b) == Ok(Sections(a).value + Sections(b).value)
    decreases |a|
  {
    hide Sections;
    if |a| == 0 {
      assert a + b == b;
      EmptySections();
      assert "" + Sections(b).value == Sections(b).value;
    } else {
      assert a == [a[0]] + a[1..];
      assert a + b == [a[0]] + (a[1..] + b);
      SectionsCons(a[0], a[1..]);
      SectionsAppend(a[1..], b);
      SectionsCons(a[0], a[1..] + b);
      var h := Sections([a[0]]).value;
      var x := Sections(a[1..]).value;
      var y := Sections(b).value;
      assert h + (x + y) == h + x + y;
    }
  }

  lemma EmptySections()
    ensures Sections([]) == Ok("")
  {
  }

  /** The markdown of a library: the title, then per record the heading
      with its name, the doc, the signature in a go fence, and a break. */
  lemma Layout(libname: string, d: Doc, name: string)
    requires Name(d.func) == Ok(name)
    ensures CreateFile(libname, [d]) ==
            Ok("# Methods in " + libname + " library\n\n"
               + "## **`" + name + "`**\n\n" + d.doc + "\n" + "```go\n" + d.func + "```\n\n" + "<br>\n\n")
    ensures CreateFile(libname, []) == Ok("# Methods in " + libname + " library\n\n")
  {
    assert [d][1..] == [] && [d][0] == d;
    assert Sections([d]) == Ok(Section(name, d) + "");
    assert Section(name, d) + "" == Section(name, d);
    assert Title(libname) + "" == Title(libname);
    var s := Section(name, d);
    assert Title(libname) + s == "# Methods in " + libname + " library\n\n"
               + "## **`" + name + "`**\n\n" + d.doc + "\n" + "```go\n" + d.func + "```\n\n" + "<br>\n\n";
  }

  // ---------------------------------------------------------------------
  // Folders

  /** A name with a "." is skipped whatever it is. */
  lemma DottedSkipped(e: Entry, rest: seq<Entry>)
    requires '.' in e.name
    ensures GenerateDocs([e] + rest) == GenerateDocs(rest)
  {
    assert ([e] + rest)[1..] == rest;
  }

  /** A plain file whose name has no "." cannot be listed. */
  lemma UndottedFileCrashes(name: string, rest: seq<Entry>)
    requires '.' !in name
    ensures GenerateDocs([File(name)] + rest).Crash?
  {
  }

  /** Files not ending in ".go" are never read. */
  lemma OnlyGoFiles(f: (string, seq<string>), files: seq<(string, seq<string>)>)
    requires !EndsWith(f.0, ".go")
    ensures FolderDocs([f] + files) == FolderDocs(files)
  {
    assert ([f] + files)[1..] == files;
    match FolderDocs(files)
    case Ok(d) => assert [] + d == d;
    case Err(_) =>
    case Crash(_) =>
  }

  /** A folder without records writes no file. */
  lemma NoRecordsNoFile(name: string, files: seq<(string, seq<string>)>, rest: seq<Entry>)
    requires '.' !in name && FolderDocs(files) == Ok([])
    ensures GenerateDocs([Folder(name, files)] + rest) == GenerateDocs(rest)
  {
    assert ([Folder(name, files)] + rest)[1..] == rest;
    match GenerateDocs(rest)
    case Ok(w) => assert [] + w == w;
    case Err(_) =>
    case Crash(_) =>
  }

  /** A folder with records writes exactly one file, `<folder>_docs.md` in
      it, holding the markdown of all its records. */
  lemma OneFilePerLibrary(name: string, files: seq<(string, seq<string>)>)
    requires '.' !in name && FolderDocs(files).Ok? && |FolderDocs(files).value| != 0
    requires CreateFile(name, FolderDocs(files).value).Ok?
    ensures GenerateDocs([Folder(name, files)]) ==
            Ok([("./lib/" + name + "/" + name + "_docs.md", CreateFile(name, FolderDocs(files).value).value)])
  {
    var entries := [Folder(name, files)];
    assert entries[1..] == [] && entries[0] == Folder(name, files);
    assert GenerateDocs(entries[1..]) == Ok([]);
    var f := ("./lib/" + name + "/" + name + "_docs.md", CreateFile(name, FolderDocs(files).value).value);
    assert [f] + [] == [f];
  }

  /** The files of a listing are those of its first entry, then the
      rest's. */
  lemma GenerateCons(e: Entry, rest: seq<Entry>)
    ensures GenerateDocs([e] + rest).Ok? <==> GenerateDocs([e]).Ok? && GenerateDocs(rest).Ok?
    ensures GenerateDocs([e] + rest).Ok? ==> GenerateDocs([e] + rest).value == GenerateDocs([e]).value + GenerateDocs(rest).value
  {
    assert ([e] + rest)[1..] == rest && [e][1..] == [];
    assert GenerateDocs([]) == Ok([]);
    if '.' in e.name {
      assert forall w: seq<(string, string)> :: [] + w == w;
    } else if e.Folder? && FolderDocs(e.files).Ok? && (|FolderDocs(e.files).value| == 0 || CreateFile(e.name, FolderDocs(e.files).value).Ok?) {
      var total := FolderDocs(e.files).value;
      var here: seq<(string, string)> := if |total| != 0 then [("./lib/" + e.name + "/" + e.name + "_docs.md", CreateFile(e.name, total).value)] else [];
      assert here + [] == here;
    }
  }

  /** Folders are handled one after another, in listing order. */
  lemma {:induction false} GenerateAppend(a: seq<Entry>, b: seq<Entry>)
    requires GenerateDocs(a).Ok? && GenerateDocs(b).Ok?
    ensures GenerateDocs(a + b) == Ok(GenerateDocs(a).value + GenerateDocs(b).value)
    decreases |a|
  {
    hide GenerateDocs;
    if |a| == 0 {
      assert a + b == b;
      EmptyListing();
      assert [] + GenerateDocs(b).value == GenerateDocs(b).value;
    } else {
      assert a == [a[0]] + a[1..];
      assert a + b == [a[0]] + (a[1..] + b);
      GenerateCons(a[0], a[1..]);
      GenerateAppend(a[1..], b);
      GenerateCons(a[0], a[1..] + b);
      var h := GenerateDocs([a[0]]).value;
      var x := GenerateDocs(a[1..]).value;
      var y := GenerateDocs(b).value;
      assert h + (x + y) == h + x + y;
    }
  }

  lemma EmptyListing()
    ensures GenerateDocs([]) == Ok([])
  {
  }
}

=== FILE: build.dfy ===
/** The text that lib/build.py writes to lib/include.go: a header, one
    `Add` registration per library directory, and a closing brace. The
    listing of lib/ (each entry's name and whether it is a directory) is a
    parameter, and the text is returned instead of written. */
module Build {
  import opened Strs

  datatype Entry = Entry(name: string, isDir: bool)

  const Header := "package lib\nfunc init() {\n"

  /** The registration line of one directory, without its newline. */
  function AddCall(dir: string): string {
    "Add(\"" + dir + "\", " + dir + ".Includes)"
  }

  /** Directories other than "_libdump" are registered; whatever they hold
      is never looked at. */
  predicate Registered(e: Entry) {
    e.isDir && e.name != "_libdump"
  }

  /** The registered directories, in listing order. */
  function Libraries(contents: seq<Entry>): (r: seq<string>)
    ensures |r| <= |contents|
    decreases |contents|
  {
    if |contents| == 0 then []
    else (if Registered(contents[0]) then [contents[0].name] else []) + Libraries(contents[1..])
  }

  /** One line per directory, each ending in a newline. */
  function Lines(dirs: seq<string>): string
    decreases |dirs|
  {
    if |dirs| == 0 then "" else AddCall(dirs[0]) + "\n" + Lines(dirs[1..])
  }

  /** The script: the header, then one `write` per registered directory
      in listing order, then the closing brace with no newline after it. */
  method Include(contents: seq<Entry>) returns (text: string)
    ensures text == Header + Lines(Libraries(contents)) + "}"
    ensures StartsWith(text, Header) && EndsWith(text, "}")
  {
    text := Header;
    var i := 0;
    while i < |contents|
      invariant 0 <= i <= |contents|
      invariant text + Lines(Libraries(contents[i..])) == Header + Lines(Libraries(contents))
    {
      hide Libraries, Lines, AddCall;
      var e := contents[i];
      assert contents[i..][1..] == contents[i + 1..] && contents[i..][0] == e;
      LibrariesCons(contents[i..]);
      var rest := Libraries(contents[i + 1..]);
      if Registered(e) {
        LinesCons([e.name] + rest);
        assert ([e.name] + rest)[1..] == rest && ([e.name] + rest)[0] == e.name;
        assert text + Lines(Libraries(contents[i..])) == text + AddCall(e.name) + "\n" + Lines(rest);
        text := text + AddCall(e.name) + "\n";
      } else {
        assert Libraries(contents[i..]) == [] + rest == rest;
      }
      i := i + 1;
    }
    hide Libraries, Lines;
    assert contents[i..] == [];
    LibrariesCons(contents[i..]);
    LinesCons([]);
    assert text == Header + Lines(Libraries(contents));
    text := text + "}";
    assert StartsWith(Header, Header);
    StartsWithAppend(Header, Lines(Libraries(contents)) + "}", Header);
    assert text == Header + (Lines(Libraries(contents)) + "}");
    assert text[|text| - 1..] == "}";
  }

  /** One line, in front of the rest. */
  lemma LinesCons(dirs: seq<string>)
    ensures |dirs| == 0 ==> Lines(dirs) == ""
    ensures |dirs| > 0 ==> Lines(dirs) == AddCall(dirs[0]) + "\n" + Lines(dirs[1..])
  {
  }

  // ---------------------------------------------------------------------
  // Properties

  /** Listing order is kept and the lines of two listings follow each
      other. */
  lemma {:induction false} LibrariesAppend(a: seq<Entry>, b: seq<Entry>)
    ensures Libraries(a + b) == Libraries(a) + Libraries(b)
    decreases |a|
  {
    hide *;
    if |a| == 0 {
      assert a + b == b;
      LibrariesCons(a);
      assert [] + Libraries(b) == Libraries(b);
    } else {
      assert (a + b)[1..] == a[1..] + b;
      assert (a + b)[0] == a[0];
      LibrariesCons(a);
      LibrariesCons(a + b);
      LibrariesAppend(a[1..], b);
    }
  }

  /** One entry of the listing, in front of the rest. */
  lemma LibrariesCons(contents: seq<Entry>)
    ensures |contents| == 0 ==> Libraries(contents) == []
    ensures |contents| > 0 ==>
              Libraries(contents) == (if Registered(contents[0]) then [contents[0].name] else []) + Libraries(contents[1..])
  {
  }

  /** A file, or the "_libdump" directory, adds no line wherever it is. */
  lemma Ignored(a: seq<Entry>, e: Entry, b: seq<Entry>)
    requires !Registered(e)
    ensures Libraries(a + [e] + b) == Libraries(a + b)
  {
    LibrariesAppend(a + [e], b);
    LibrariesAppend(a, [e]);
    LibrariesAppend(a, b);
    assert Libraries([e]) == [];
  }

  /** With nothing to register the file is the header and the brace. */
  lemma NothingRegistered(contents: seq<Entry>)
    requires forall k :: 0 <= k < |contents| ==> !Registered(contents[k])
    ensures Header + Lines(Libraries(contents)) + "}" == Header + "}"
  {
    NoneRegistered(contents);
    assert Lines([]) == "";
  }

  lemma {:induction false} NoneRegistered(contents: seq<Entry>)
    requires forall k :: 0 <= k < |contents| ==> !Registered(contents[k])
    ensures Libraries(contents) == []
    decreases |contents|
  {
    if |contents| > 0 {
      NoneRegistered(contents[1..]);
    }
  }

  lemma {:induction false} AddCallHasNoNewline(dir: string)
    requires '\n' !in dir
    ensures '\n' !in AddCall(dir)
  {
  }

  /** Read back line by line, the registrations are exactly one call per
      registered directory, in listing order, then the empty rest after
      the last newline. */
  lemma {:induction false} OneLinePerLibrary(dirs: seq<string>)
    requires forall k :: 0 <= k < |dirs| ==> '\n' !in dirs[k]
    ensures |SplitOn(Lines(dirs), '\n')| == |dirs| + 1
    ensures forall k :: 0 <= k < |dirs| ==> SplitOn(Lines(dirs), '\n')[k] == AddCall(dirs[k])
    ensures SplitOn(Lines(dirs), '\n')[|dirs|] == ""
    decreases |dirs|
  {
    if |dirs| > 0 {
      OneLinePerLibrary(dirs[1..]);
      AddCallHasNoNewline(dirs[0]);
      SplitOnCons(AddCall(dirs[0]), '\n', Lines(dirs[1..]));
      assert Lines(dirs) == AddCall(dirs[0]) + ['\n'] + Lines(dirs[1..]);
    }
  }

  /** `lib/io` and `lib/str` registered, a file and `_libdump` skipped. */
  lemma Example()
    ensures Header + Lines(Libraries([Entry("io", true), Entry("include.go", false), Entry("_libdump", true), Entry("str", true)])) + "}"
            == Header + "Add(\"io\", io.Includes)" + "\n" + "Add(\"str\", str.Includes)" + "\n" + "}"
  {
    hide *;
    var l := [Entry("io", true), Entry("include.go", false), Entry("_libdump", true), Entry("str", true)];
    ExampleEntries();
    assert l[1..] == [Entry("include.go", false), Entry("_libdump", true), Entry("str", true)];
    assert l[1..][1..] == [Entry("_libdump", true), Entry("str", true)];
    assert l[1..][1..][1..] == [Entry("str", true)];
    assert l[1..][1..][1..][1..] == [];
    LibrariesCons(l);
    LibrariesCons(l[1..]);
    LibrariesCons(l[1..][1..]);
    LibrariesCons(l[1..][1..][1..]);
    LibrariesCons(l[1..][1..][1..][1..]);
    assert Libraries(l) == ["io", "str"];
    assert ["io", "str"][1..] == ["str"] && ["str"][1..] == [];
    LinesCons(["io", "str"]);
    LinesCons(["str"]);
    LinesCons([]);
    AddCallExample();
  }

  lemma ExampleEntries()
    ensures Registered(Entry("io", true)) && Registered(Entry("str", true))
    ensures !Registered(Entry("include.go", false)) && !Registered(Entry("_libdump", true))
  {
    assert "io" != "_libdump" by { assert |"io"| != |"_libdump"|; }
    assert "str" != "_libdump" by { assert |"str"| != |"_libdump"|; }
  }

  lemma AddCallExample()
    ensures AddCall("io") == "Add(\"io\", io.Includes)"
    ensures AddCall("str") == "Add(\"str\", str.Includes)"
  {
  }
}

=== FILE: env.dfy ===
/** The scoped environment (env/env.go).

    The Go package keeps the environment in package variables; here the
    state is a value that every operation takes and returns. An environment
    is a list of scopes with the innermost first; a lookup walks it from
    the front. Scopes are values, so the aliasing between a snapshot and
    the live environment in Go is not represented. */
module Env {
  import opened Results
  import opened Strs
  import opened Fmt
  import opened Values

  type Scope = map<string, Value>

  type Environment = seq<Scope>

  /** The package state: the live environment, the one `PushTempEnv`
      saved, and the names of failed calls. */
  datatype State = State(current: Environment, temp: Environment, callStack: seq<string>)

  const CallStackSize := 10

  /** Message templates; the line is filled in later by `FormatError`. */
  function ErrAlreadyDefined(name: string): string {
    "variable '" + name + "' is already defined, line %d"
  }

  function ErrUndefined(name: string): string {
    "undefined variable '" + name + "', line %d"
  }

  // ---------------------------------------------------------------------
  // Call stack

  /** `FailCall`: records one failed call. */
  function FailCall(st: State, name: string, origin: string, line: int): (st': State)
    ensures |st'.callStack| == |st.callStack| + 1
    ensures st'.callStack[..|st.callStack|] == st.callStack
    ensures st'.callStack[|st.callStack|] == Format("\tat %s() in %s, line %d", [S(name), S(origin), D(line)])
    ensures st'.current == st.current && st'.temp == st.temp
  {
    st.(callStack := st.callStack + [Format("\tat %s() in %s, line %d", [S(name), S(origin), D(line)])])
  }

  /** `GetCallstack`: at most `CallStackSize` entries, one per line, and a
      final `\t...` line when some were cut. */
  function GetCallstack(st: State): (s: string)
  {
    var cs := st.callStack;
    if |cs| > CallStackSize then Join(cs[..CallStackSize], "\n") + "\n\t..."
    else Join(cs, "\n")
  }

  /** When no entry holds a line break, the lines of `GetCallstack` are the
      first ten entries, followed by `\t...` exactly when there were more. */
  lemma CallstackLines(st: State)
    requires |st.callStack| >= 1
    requires forall k :: 0 <= k < |st.callStack| ==> '\n' !in st.callStack[k]
    ensures var cs := st.callStack;
            SplitOn(GetCallstack(st), '\n')
            == if |cs| > CallStackSize then cs[..CallStackSize] + ["\t..."] else cs
  {
    var cs := st.callStack;
    if |cs| > CallStackSize {
      var shown := cs[..CallStackSize];
      var lines := shown + ["\t..."];
      JoinAppend(shown, "\t...", "\n");
      assert Join(shown, "\n") + "\n\t..." == Join(shown, "\n") + "\n" + "\t...";
      assert forall k :: 0 <= k < |lines| ==> '\n' !in lines[k];
      SplitJoin(lines, '\n');
    } else {
      assert "\n" == ['\n'];
      SplitJoin(cs, '\n');
    }
  }

  lemma {:induction false} JoinAppend(parts: seq<string>, last: string, sep: string)
    requires |parts| >= 1
    ensures Join(parts + [last], sep) == Join(parts, sep) + sep + last
    decreases |parts|
  {
    if |parts| == 1 {
      assert (parts + [last])[1..] == [last];
    } else {
      assert (parts + [last])[1..] == parts[1..] + [last];
      JoinAppend(parts[1..], last, sep);
    }
  }

  /** A failed call's entry is its own line of the call stack. */
  lemma FailCallEntryIsOneLine(name: string, origin: string, line: int)
    requires '\n' !in name && '\n' !in origin
    ensures '\n' !in Format("\tat %s() in %s, line %d", [S(name), S(origin), D(line)])
  {
    FailCallEntryText(name, origin, line);
    hide Format;
    var n := IntToString(line);
    assert '\n' !in n;
    assert '\n' !in "\tat " + name + "() in " + origin + ", line " + n;
  }

  /** The text of a call-stack entry. */
  lemma FailCallEntryText(name: string, origin: string, line: int)
    ensures Format("\tat %s() in %s, line %d", [S(name), S(origin), D(line)])
            == "\tat " + name + "() in " + origin + ", line " + IntToString(line)
  {
    hide *;
    var a := ", line " + "%d" + "";
    var b := "() in " + "%s" + a;
    CallEntryPieces();
    assert [S(name), S(origin), D(line)] == [S(name)] + [S(origin), D(line)];
    assert [S(origin), D(line)] == [S(origin)] + [D(line)];
    FormatStringArg("\tat ", name, b, [S(origin), D(line)]);
    FormatStringArg("() in ", origin, a, [D(line)]);
    FormatSingleNumber(", line ", "", line);
    var n := IntToString(line);
    assert "\tat " + name + ("() in " + origin + (", line " + n + "")) == "\tat " + name + "() in " + origin + ", line " + n;
  }

  /** The call-stack template cut at its verbs. */
  lemma CallEntryPieces()
    ensures "\tat %s() in %s, line %d" == "\tat " + "%s" + ("() in " + "%s" + (", line " + "%d" + ""))
    ensures '%' !in "\tat " && '%' !in "() in " && '%' !in ", line " && '%' !in ""
  {
  }

  // ---------------------------------------------------------------------
  // Bindings

  /** The index of the innermost scope that binds `name`, if any. */
  function Innermost(env: Environment, name: string): (r: Option<nat>)
    ensures r.Some? ==> r.value < |env| && name in env[r.value]
    ensures r.Some? ==> forall k :: 0 <= k < r.value ==> name !in env[k]
    ensures r.None? ==> forall k :: 0 <= k < |env| ==> name !in env[k]
    decreases |env|
  {
    if |env| == 0 then None
    else if name in env[0] then Some(0)
    else match Innermost(env[1..], name)
      case None => None
      case Some(k) => Some(k + 1)
  }

  /** `Declare`: binds `name` in the innermost scope unless it is already
      bound there. An empty environment makes Go index out of range. */
  function Declare(st: State, name: string, value: Value): (r: Result<State>)
    ensures |st.current| == 0 ==> r.Crash?
    ensures |st.current| > 0 && name in st.current[0] ==> r == Err(Plain(ErrAlreadyDefined(name)))
    ensures r.Ok? ==> |st.current| > 0 && name !in st.current[0]
    ensures r.Ok? ==> && r.value.temp == st.temp && r.value.callStack == st.callStack
                      && |r.value.current| == |st.current|
                      && r.value.current[0] == st.current[0][name := value]
                      && r.value.current[1..] == st.current[1..]
  {
    if |st.current| == 0 then Crash("index out of range")
    else if name in st.current[0] then Err(Plain(ErrAlreadyDefined(name)))
    else Ok(st.(current := [st.current[0][name := value]] + st.current[1..]))
  }

  /** `Assign`: rebinds `name` in the innermost scope that binds it. */
  function Assign(st: State, name: string, value: Value): (r: Result<State>)
    ensures r.Ok? || r == Err(Plain(ErrUndefined(name)))
    ensures r.Ok? <==> Innermost(st.current, name).Some?
    ensures r.Ok? ==> && r.value.temp == st.temp && r.value.callStack == st.callStack
                      && |r.value.current| == |st.current|
                      && var k := Innermost(st.current, name).value;
                         && r.value.current[k] == st.current[k][name := value]
                         && forall j :: 0 <= j < |st.current| && j != k ==> r.value.current[j] == st.current[j]
  {
    match Innermost(st.current, name)
    case None => Err(Plain(ErrUndefined(name)))
    case Some(k) => Ok(st.(current := st.current[k := st.current[k][name := value]]))
  }

  /** `Get`: the value bound by the innermost scope that binds `name`. */
  function Get(st: State, name: string): (r: Result<Value>)
    ensures r.Ok? || r == Err(Plain(ErrUndefined(name)))
    ensures r.Ok? <==> exists k :: 0 <= k < |st.current| && name in st.current[k]
    ensures r.Ok? ==> exists k :: 0 <= k < |st.current| && name in st.current[k] && r.value == st.current[k][name]
                        && forall j :: 0 <= j < k ==> name !in st.current[j]
  {
    match Innermost(st.current, name)
    case None => Err(Plain(ErrUndefined(name)))
    case Some(k) => Ok(st.current[k][name])
  }

  /** A declared name reads back as declared, shadowing outer bindings;
      every other name reads as before. */
  lemma GetAfterDeclare(st: State, name: string, value: Value, other: string)
    requires Declare(st, name, value).Ok?
    ensures Get(Declare(st, name, value).value, name) == Ok(value)
    ensures other != name ==> Get(Declare(st, name, value).value, other) == Get(st, other)
  {
    var st' := Declare(st, name, value).value;
    assert Innermost(st'.current, name) == Some(0);
    if other != name {
      InnermostSameKeys(st.current, st'.current, other);
    }
  }

  /** An assigned name reads back as assigned; every other name reads as
      before. */
  lemma GetAfterAssign(st: State, name: string, value: Value, other: string)
    requires Assign(st, name, value).Ok?
    ensures Get(Assign(st, name, value).value, name) == Ok(value)
    ensures other != name ==> Get(Assign(st, name, value).value, other) == Get(st, other)
  {
    var st' := Assign(st, name, value).value;
    InnermostSameKeys(st.current, st'.current, name);
    if other != name {
      InnermostSameKeys(st.current, st'.current, other);
    }
  }

  /** Environments whose scopes agree on `name` resolve it alike. */
  lemma {:induction false} InnermostSameKeys(a: Environment, b: Environment, name: string)
    requires |a| == |b|
    requires forall k :: 0 <= k < |a| ==> (name in a[k] <==> name in b[k])
    ensures Innermost(a, name) == Innermost(b, name)
    decreases |a|
  {
    if |a| > 0 {
      InnermostSameKeys(a[1..], b[1..], name);
    }
  }

  /** Assigning to a name nobody declared changes nothing and fails;
      declaring it makes a later assignment succeed. */
  lemma AssignNeedsDeclare(st: State, name: string, value: Value, value': Value)
    requires Declare(st, name, value).Ok?
    ensures Assign(Declare(st, name, value).value, name, value').Ok?
    ensures Assign(Declare(st, name, value).value, name, value').value.current[0][name] == value'
  {
    var st' := Declare(st, name, value).value;
    assert Innermost(st'.current, name) == Some(0);
  }

  // ---------------------------------------------------------------------
  // Scopes

  /** `PushScope`: a fresh innermost scope. */
  function PushScope(st: State): (st': State)
    ensures |st'.current| == |st.current| + 1
    ensures st'.current[0] == map[] && st'.current[1..] == st.current
    ensures st'.temp == st.temp && st'.callStack == st.callStack
  {
    st.(current := [map[]] + st.current)
  }

  /** `PopScope`: drops the innermost scope; Go panics below two scopes. */
  function PopScope(st: State): (r: Result<State>)
    ensures r.Ok? <==> |st.current| >= 2
    ensures !r.Ok? ==> r.Crash?
    ensures r.Ok? ==> r.value.current == st.current[1..] && r.value.temp == st.temp && r.value.callStack == st.callStack
  {
    if |st.current| < 2 then Crash("env: popped scope list of length < 2")
    else Ok(st.(current := st.current[1..]))
  }

  /** Pushing then popping a scope restores the state, and a name declared
      in between is gone again. */
  lemma PushPop(st: State, name: string, value: Value)
    requires |st.current| >= 1
    ensures PopScope(PushScope(st)) == Ok(st)
    ensures var inner := Declare(PushScope(st), name, value);
            inner.Ok? && PopScope(inner.value) == Ok(st)
  {
    assert PushScope(st).current[1..] == st.current;
  }

  /** A scope opened inside a function may shadow an outer name; after the
      scope closes the outer binding is visible again. */
  lemma ShadowingEnds(st: State, name: string, value: Value)
    requires |st.current| >= 1
    ensures var inner := Declare(PushScope(st), name, value);
            && inner.Ok? && Get(inner.value, name) == Ok(value)
            && Get(PopScope(inner.value).value, name) == Get(st, name)
  {
    PushPop(st, name, value);
    GetAfterDeclare(PushScope(st), name, value, name);
  }

  /** `CopyEnvironment`: a one-scope environment with the bindings of the
      input's first scope; Go indexes an empty environment out of range. */
  function CopyEnvironment(env: Environment): (r: Result<Environment>)
    ensures r.Ok? <==> |env| >= 1
    ensures !r.Ok? ==> r.Crash?
    ensures r.Ok? ==> |r.value| == 1 && r.value[0].Keys == env[0].Keys
                      && forall k :: k in env[0] ==> r.value[0][k] == env[0][k]
  {
    if |env| == 0 then Crash("index out of range")
    else Ok([map k | k in env[0] :: env[0][k]])
  }

  /** `NewEnvironment`: when environments are thrown away, the live one
      becomes a copy of the standard environment; the old one is returned.
      `standard` and `throwEnvironment` are the package variables. */
  function NewEnvironment(st: State, standard: Environment, throwEnvironment: bool): (r: Result<(Environment, State)>)
    ensures r.Ok? ==> r.value.0 == st.current
    ensures r.Ok? && !throwEnvironment ==> r.value.1 == st
    ensures throwEnvironment ==> (r.Ok? <==> |standard| >= 1)
    ensures r.Ok? && throwEnvironment ==> r.value.1.current == CopyEnvironment(standard).value
  {
    if !throwEnvironment then Ok((st.current, st))
    else
      match CopyEnvironment(standard)
      case Ok(env) => Ok((st.current, st.(current := env)))
      case Err(m) => Err(m)
      case Crash(c) => Crash(c)
  }

  /** `AddImportedFile`: the global scope of an imported file, declared
      under the file's name as an object. */
  function AddImportedFile(st: State, name: string, env: Environment): (r: Result<State>)
    ensures |env| == 0 ==> r.Crash?
    ensures |env| >= 1 ==> r == Declare(st, name, Obj(NewObject(name, env[0])))
  {
    if |env| == 0 then Crash("index out of range")
    else Declare(st, name, Obj(Object(env[0], |env[0]|, name)))
  }

  /** After an import, the file's globals are fields of the object bound
      to its name. */
  lemma ImportedGlobals(st: State, name: string, env: Environment, field: string)
    requires AddImportedFile(st, name, env).Ok?
    ensures var v := Get(AddImportedFile(st, name, env).value, name);
            && v.Ok? && v.value.Obj?
            && GetField(v.value.o, field) == (if field in env[0] then Ok(env[0][field]) else Err(Plain(ErrNotAField)))
  {
    GetAfterDeclare(st, name, Obj(NewObject(name, env[0])), name);
  }

  /** `GetCurrentEnvSnapshot`: a scope-by-scope copy of the live environment. */
  function GetCurrentEnvSnapshot(st: State): (r: Environment)
    ensures |r| == |st.current|
    ensures forall k :: 0 <= k < |r| ==> r[k].Keys == st.current[k].Keys
    ensures forall k, n :: 0 <= k < |r| && n in r[k] ==> r[k][n] == st.current[k][n]
  {
    seq(|st.current|, k requires 0 <= k < |st.current| => map n | n in st.current[k] :: st.current[k][n])
  }

  /** The snapshot resolves every name as the live environment does. */
  lemma SnapshotGet(st: State, name: string)
    ensures Get(st.(current := GetCurrentEnvSnapshot(st)), name) == Get(st, name)
  {
    var snap := GetCurrentEnvSnapshot(st);
    assert snap == st.current by {
      forall k | 0 <= k < |snap|
        ensures snap[k] == st.current[k]
      {
      }
    }
  }

  // ---------------------------------------------------------------------
  // Temporary environments

  /** `PushTempEnv`: runs a closure in `env`, saving the live environment. */
  function PushTempEnv(st: State, env: Environment): (st': State)
    ensures st'.current == env && st'.temp == st.current && st'.callStack == st.callStack
  {
    State(env, st.current, st.callStack)
  }

  /** `PopTempEnv`: goes back to the saved environment. */
  function PopTempEnv(st: State): (st': State)
    ensures st'.current == st.temp && st'.temp == st.temp && st'.callStack == st.callStack
  {
    st.(current := st.temp)
  }

  /** A closure's work in its temporary environment (any declarations and
      assignments) is discarded by `PopTempEnv`, which restores the
      environment live at `PushTempEnv`. */
  lemma TempEnvRestores(st: State, env: Environment, names: seq<string>, v: Value)
    ensures PopTempEnv(DeclareAll(PushTempEnv(st, env), names, v)).current == st.current
  {
    DeclareAllKeepsTemp(PushTempEnv(st, env), names, v);
  }

  /** Declarations in sequence, stopping at the first one that fails. */
  function DeclareAll(st: State, names: seq<string>, v: Value): State
    decreases |names|
  {
    if |names| == 0 then st
    else match Declare(st, names[0], v)
      case Ok(st') => DeclareAll(st', names[1..], v)
      case _ => st
  }

  lemma {:induction false} DeclareAllKeepsTemp(st: State, names: seq<string>, v: Value)
    ensures DeclareAll(st, names, v).temp == st.temp
    decreases |names|
  {
    if |names| > 0 && Declare(st, names[0], v).Ok? {
      DeclareAllKeepsTemp(Declare(st, names[0], v).value, names[1..], v);
    }
  }
}

=== FILE: evaluate.dfy ===
/** Expression evaluation (expr/evaluate.go): which operator and operand
    combinations succeed, which give which error, and which make Go panic.

    Go returns a value and an error side by side, and `evalUnary` keeps
    going after its operand failed: the pair is `Outcome`, and a Go panic
    is `Panic`. The evaluator reads the environment but never changes it,
    so the environment state is a parameter. What the evaluator delegates
    to Go or to the callee is the `Host`: floating-point arithmetic, the
    identity of reference values, and running a callable.

    Two readings are modelled, chosen by the `corrected` flag. As written,
    a failed operand of `evalUnary` is still handed to the operator, and
    unary minus then asserts the `nil` value to `float64`, which panics;
    and `evalCall` refuses every argument count but `numArgs`, including
    for library callables, whose `numArgs` is -1. That test is latent in
    this revision: a library callable lives only as a field of an imported
    object, and a getter is not evaluated. Corrected, the operand's error
    is returned first, as `evalBinary` does for its operands, and a
    negative `numArgs` accepts any count. */
module Evaluate {
  import opened Results
  import opened Fmt
  import opened Values
  import opened TokenTypes
  import opened Lexer
  import opened Util
  import Env
  import opened Expr

  datatype Outcome = Outcome(value: Value, err: Option<Message>) | Panic(reason: string)

  /** Floating-point arithmetic for `+ - * / ^` by operator kind, whether
      two reference or foreign values are the same, and a callable's effect. */
  datatype Host = Host(
    arith: (int, real, real) -> real,
    same: (Value, Value) -> bool,
    call: (Callable, seq<Value>) -> Outcome)

  /** The result of evaluating call arguments: all values, or the outcome
      of the first argument that failed. */
  datatype Args = Values(vs: seq<Value>) | Failed(o: Outcome)

  /** `getType`: "nil" for nil, otherwise the name reflection gives the
      dynamic type, which is empty for the references objects and arrays are
      held by. */
  function TypeOf(v: Value): string {
    match v
    case Nil => "nil"
    case Bool(_) => "bool"
    case Num(_) => "float64"
    case Str(_) => "string"
    case Fn(_) => "Callable"
    case Obj(_) => ""
    case Arr(_) => ""
    case Opaque(t) => t
  }

  /** `isTruthy`: only nil and false are falsy. */
  predicate Truthy(v: Value) {
    v != Bool(false) && v != Nil
  }

  /** `isNumber`: Go's int, float32 and float64. Only float64 values are
      `Num`; the other two can only come from a library callable. */
  predicate IsNumber(v: Value) {
    v.Num? || v == Opaque("int") || v == Opaque("float32")
  }

  /** Go's `int(x)` for a float: truncation toward zero, so the result
      has the sign of `r` and lies less than one away from it. */
  function Trunc(r: real): (t: int)
    ensures r >= 0.0 ==> 0 <= t && t as real <= r < t as real + 1.0
    ensures r < 0.0 ==> t <= 0 && t as real - 1.0 < r <= t as real
  {
    if r >= 0.0 then r.Floor else -((-r).Floor)
  }

  function Abs(n: int): int {
    if n >= 0 then n else -n
  }

  /** Go's `/` on integers: the quotient rounded toward zero. */
  function GoQuo(a: int, b: int): int
    requires b != 0
  {
    if (a >= 0) == (b >= 0) then Abs(a) / Abs(b) else -(Abs(a) / Abs(b))
  }

  /** Go's `%` on integers: the remainder of truncated division. It takes
      the sign of the dividend, is smaller than the divisor in size, and
      completes the truncated quotient to the dividend. */
  function GoRem(a: int, b: int): (r: int)
    requires b != 0
    ensures a >= 0 ==> 0 <= r < Abs(b)
    ensures a < 0 ==> -Abs(b) < r <= 0
    ensures a == GoQuo(a, b) * b + r
  {
    var m := Abs(a) % Abs(b);
    TruncatedDivision(a, b);
    if a >= 0 then m else -m
  }

  /** Euclidean division of the magnitudes, signs put back. */
  lemma TruncatedDivision(a: int, b: int)
    requires b != 0
    ensures var m := Abs(a) % Abs(b);
            a == GoQuo(a, b) * b + (if a >= 0 then m else -m)
  {
    var q := Abs(a) / Abs(b);
    var m := Abs(a) % Abs(b);
    assert Abs(a) == Abs(b) * q + m;
    if a >= 0 && b >= 0 {
      assert GoQuo(a, b) * b == q * b;
    } else if a >= 0 {
      assert GoQuo(a, b) * b == (-q) * (-Abs(b)) == q * Abs(b);
    } else if b >= 0 {
      assert GoQuo(a, b) * b == (-q) * Abs(b);
    } else {
      assert GoQuo(a, b) * b == q * (-Abs(b));
    }
  }

  /** Go's `==` on two `interface{}` values: different dynamic types are
      unequal, two callables (a struct holding a func) cannot be compared
      and panic, references compare by identity. `None` is the panic. */
  function Equals(h: Host, l: Value, r: Value): Option<bool> {
    if l.Fn? && r.Fn? then None
    else if (l.Obj? && r.Obj?) || (l.Arr? && r.Arr?) || (l.Opaque? && r.Opaque? && l.typeName == r.typeName) then
      Some(h.same(l, r))
    else Some(l == r)
  }

  /** The number switch of `evalBinary`; `None` when the operator is not
      one of its cases and evaluation falls through. */
  function NumBinary(h: Host, kind: int, a: real, b: real, line: int): Option<Outcome> {
    if kind == PLUS || kind == MINUS || kind == STAR || kind == HAT then Some(Outcome(Num(h.arith(kind, a, b)), None))
    else if kind == GREATER then Some(Outcome(Bool(a > b), None))
    else if kind == LESS then Some(Outcome(Bool(a < b), None))
    else if kind == LESS_EQUAL then Some(Outcome(Bool(a <= b), None))
    else if kind == GREATER_EQUAL then Some(Outcome(Bool(a >= b), None))
    else if kind == MODULO then
      if Trunc(b) == 0 then Some(Panic("integer divide by zero"))
      else Some(Outcome(Num(GoRem(Trunc(a), Trunc(b)) as real), None))
    else if kind == SLASH then
      if b == 0.0 then Some(Outcome(Nil, FormatError(Some(Plain(ErrDivideByZero)), line)))
      else Some(Outcome(Num(h.arith(SLASH, a, b)), None))
    else None
  }

  /** `evalBinary` once both operands have been evaluated without error. */
  function EvalBinary(h: Host, op: Token, l: Value, r: Value, line: int): Outcome {
    if IsNumber(l) && IsNumber(r) && !(l.Num? && r.Num?) then Panic("interface conversion: interface {} is not float64")
    else if l.Num? && r.Num? && NumBinary(h, op.kind, l.n, r.n, line).Some? then NumBinary(h, op.kind, l.n, r.n, line).value
    else if op.kind == EQUAL_EQUAL || op.kind == NOT_EQUAL then
      match Equals(h, l, r)
      case None => Panic("comparing uncomparable type env.Callable")
      case Some(eq) => Outcome(Bool(if op.kind == EQUAL_EQUAL then eq else !eq), None)
    else if op.kind == AND then Outcome(Bool(Truthy(l) && Truthy(r)), None)
    else if op.kind == OR then Outcome(Bool(Truthy(l) || Truthy(r)), None)
    else if l.Str? && r.Str? && op.kind == PLUS then Outcome(Str(l.s + r.s), None)
    else Outcome(Nil, Some(Formatted(ErrInvalidOperatorTypes, [S(op.lexeme), S(TypeOf(l)), S(TypeOf(r)), D(line)])))
  }

  /** `evalUnary` given its operand's outcome. */
  function EvalUnary(op: Token, right: Outcome, line: int, corrected: bool): Outcome {
    if right.Panic? then right
    else if corrected && right.err.Some? then Outcome(Nil, right.err)
    else
      var v := right.value;
      if op.kind == MINUS then
        if !v.Bool? then
          if v.Num? then Outcome(Num(-v.n), right.err)
          else Panic("interface conversion: interface {} is not float64")
        else Outcome(Nil, Some(Formatted(ErrInvalidOperatorType, [S(op.lexeme), S(TypeOf(v)), D(line)])))
      else if op.kind == NOT then Outcome(Bool(!Truthy(v)), right.err)
      else if op.kind == TYPE then Outcome(Str(TypeOf(v)), right.err)
      else Outcome(Nil, Some(Formatted(ErrInvalidUnaryOperator, [S(op.lexeme), D(line)])))
  }

  /** `EvaluateExpression`. */
  function Eval(h: Host, st: Env.State, e: Expression, corrected: bool): Outcome
    decreases e, 2
  {
    match e
    case Literal(t, _) => Outcome(t.literal, None)
    case Unary(op, right, line) => EvalUnary(op, Eval(h, st, right, corrected), line, corrected)
    case Binary(op, left, right, line) =>
      var lo := Eval(h, st, left, corrected);
      if lo.Panic? then lo
      else if lo.err.Some? then Outcome(Nil, lo.err)
      else
        var ro := Eval(h, st, right, corrected);
        if ro.Panic? then ro
        else if ro.err.Some? then Outcome(Nil, ro.err)
        else EvalBinary(h, op, lo.value, ro.value, line)
    case Group(inner, _) => Eval(h, st, inner, corrected)
    case Variable(name, _) =>
      (match Env.Get(st, name)
       case Ok(v) => Outcome(v, None)
       case Err(m) => Outcome(Nil, Some(m))
       case Crash(c) => Panic(c))
    case Call(_, _, _) => EvalCall(h, st, e, corrected)
    case ArrayExpr(_, _) => Outcome(Opaque(""), Some(Plain(ErrInvalidExpression)))
    case Getter(_, _, _) => Outcome(Opaque(""), Some(Plain(ErrInvalidExpression)))
  }

  /** The argument-count test of `evalCall` for `n` arguments. As written
      any count other than `numArgs` is refused, so a library callable,
      whose `numArgs` is -1 to mean "any number", could never be called
      once a getter reaches it; the corrected reading skips the test for a
      negative `numArgs`. */
  predicate CountMismatch(f: Callable, n: nat, corrected: bool) {
    (!corrected || f.numArgs >= 0) && n != f.numArgs
  }

  /** `evalCall`. */
  function EvalCall(h: Host, st: Env.State, call: Expression, corrected: bool): Outcome
    requires call.Call?
    decreases call, 1
  {
    var notFunc := Outcome(Nil, Some(Formatted(ErrNotFunction, [S(call.name), D(call.line)])));
    match Env.Get(st, call.name)
    case Ok(Fn(f)) =>
      if CountMismatch(f, |call.exprs|, corrected) then
        Outcome(Nil, Some(Formatted(ErrIncorrectArgs, [S(call.name), D(f.numArgs), D(|call.exprs|), D(call.line)])))
      else
        (match EvalArgs(h, st, call, 0, [], corrected)
         case Values(vs) => h.call(f, vs)
         case Failed(o) => o)
    case _ => notFunc
  }

  /** The argument loop of `evalCall` from argument `i`, with the values so
      far in `acc`. */
  function EvalArgs(h: Host, st: Env.State, call: Expression, i: nat, acc: seq<Value>, corrected: bool): Args
    requires call.Call? && i <= |call.exprs|
    decreases call, 0, |call.exprs| - i
  {
    if i == |call.exprs| then Values(acc)
    else
      var o := Eval(h, st, call.exprs[i], corrected);
      if o.Panic? then Failed(o)
      else if o.err.Some? then Failed(Outcome(Nil, o.err))
      else EvalArgs(h, st, call, i + 1, acc + [o.value], corrected)
  }
}

=== FILE: evaluate_props.dfy ===
/** What evaluation guarantees (expr/evaluate.go): the operand order and
    error propagation, the table of operator and operand combinations,
    the dualities between operators, and the call protocol. */
module EvaluateProps {
  import opened Results
  import opened Strs
  import opened Fmt
  import opened Values
  import opened TokenTypes
  import opened Lexer
  import opened Util
  import Env
  import opened Expr
  import opened Evaluate

  predicate Succeeds(o: Outcome) {
    o.Outcome? && o.err.None?
  }

  /** What a failed operand or argument turns into: a panic stays a panic,
      an error is returned with a nil value. */
  function AsFailure(o: Outcome): Outcome {
    if o.Panic? then o else Outcome(Nil, o.err)
  }

  // ---------------------------------------------------------------------
  // Binary expressions

  /** The left operand is evaluated first and its failure is the result;
      then the right one; only two successes reach the operator. */
  lemma OperandsFirst(h: Host, st: Env.State, op: Token, left: Expression, right: Expression, line: int, corrected: bool)
    ensures var lo := Eval(h, st, left, corrected);
            var ro := Eval(h, st, right, corrected);
            var e := Eval(h, st, Binary(op, left, right, line), corrected);
            && (!Succeeds(lo) ==> e == AsFailure(lo))
            && (Succeeds(lo) && !Succeeds(ro) ==> e == AsFailure(ro))
            && (Succeeds(lo) && Succeeds(ro) ==> e == EvalBinary(h, op, lo.value, ro.value, line))
  {
  }

  /** The reference table: the combinations that panic. */
  predicate BinaryPanics(k: int, l: Value, r: Value) {
    || (IsNumber(l) && IsNumber(r) && !(l.Num? && r.Num?))
    || (l.Num? && r.Num? && k == MODULO && Trunc(r.n) == 0)
    || ((k == EQUAL_EQUAL || k == NOT_EQUAL) && l.Fn? && r.Fn?)
  }

  /** The reference table: the combinations that succeed, barring panics. */
  predicate BinaryAccepts(k: int, l: Value, r: Value) {
    || k == EQUAL_EQUAL || k == NOT_EQUAL || k == AND || k == OR
    || (l.Num? && r.Num? && k in {PLUS, MINUS, STAR, HAT, GREATER, LESS, LESS_EQUAL, GREATER_EQUAL, MODULO})
    || (l.Num? && r.Num? && k == SLASH && r.n != 0.0)
    || (l.Str? && r.Str? && k == PLUS)
  }

  lemma DivideByZeroFormatted(line: int)
    ensures FormatError(Some(Plain(ErrDivideByZero)), line) == Some(Formatted(ErrDivideByZero, [D(line)]))
  {
    assert ErrDivideByZero == "division by 0, line " + "%d" + "";
    HasInfixExact("division by 0, line ", "%d", "");
  }

  /** `evalBinary` against the table: it panics exactly on the panicking
      combinations, succeeds exactly on the accepted ones, and otherwise
      reports division by zero or the operator with both type names. */
  lemma BinaryOutcomes(h: Host, op: Token, l: Value, r: Value, line: int)
    ensures var o := EvalBinary(h, op, l, r, line);
            && (o.Panic? <==> BinaryPanics(op.kind, l, r))
            && (o.Outcome? ==> (o.err.None? <==> BinaryAccepts(op.kind, l, r)))
            && (o.Outcome? && o.err.Some? ==>
                  o.value == Nil
                  && o.err == Some(if l.Num? && r.Num? && op.kind == SLASH then Formatted(ErrDivideByZero, [D(line)])
                                   else Formatted(ErrInvalidOperatorTypes, [S(op.lexeme), S(TypeOf(l)), S(TypeOf(r)), D(line)])))
  {
    hide *;
    if l.Num? && r.Num? {
      BinaryOnNumbers(h, op, l, r, line);
    } else {
      BinaryOnOthers(h, op, l, r, line);
    }
  }

  lemma BinaryOnNumbers(h: Host, op: Token, l: Value, r: Value, line: int)
    requires l.Num? && r.Num?
    ensures var o := EvalBinary(h, op, l, r, line);
            && (o.Panic? <==> BinaryPanics(op.kind, l, r))
            && (o.Outcome? ==> (o.err.None? <==> BinaryAccepts(op.kind, l, r)))
            && (o.Outcome? && o.err.Some? ==>
                  o.value == Nil
                  && o.err == Some(if l.Num? && r.Num? && op.kind == SLASH then Formatted(ErrDivideByZero, [D(line)])
                                   else Formatted(ErrInvalidOperatorTypes, [S(op.lexeme), S(TypeOf(l)), S(TypeOf(r)), D(line)])))
  {
    DivideByZeroFormatted(line);
    NumBinaryCases(h, op, l.n, r.n, line);
  }

  lemma BinaryOnOthers(h: Host, op: Token, l: Value, r: Value, line: int)
    requires !(l.Num? && r.Num?)
    ensures var o := EvalBinary(h, op, l, r, line);
            && (o.Panic? <==> BinaryPanics(op.kind, l, r))
            && (o.Outcome? ==> (o.err.None? <==> BinaryAccepts(op.kind, l, r)))
            && (o.Outcome? && o.err.Some? ==>
                  o.value == Nil
                  && o.err == Some(if l.Num? && r.Num? && op.kind == SLASH then Formatted(ErrDivideByZero, [D(line)])
                                   else Formatted(ErrInvalidOperatorTypes, [S(op.lexeme), S(TypeOf(l)), S(TypeOf(r)), D(line)])))
  {
    hide *;
    if IsNumber(l) && IsNumber(r) {
      BinaryMixedNumbers(h, op, l, r, line);
    } else if op.kind == EQUAL_EQUAL || op.kind == NOT_EQUAL {
      BinaryEquality(h, op, l, r, line);
    } else {
      BinaryRest(h, op, l, r, line);
    }
  }

  lemma BinaryMixedNumbers(h: Host, op: Token, l: Value, r: Value, line: int)
    requires !(l.Num? && r.Num?) && IsNumber(l) && IsNumber(r)
    ensures var o := EvalBinary(h, op, l, r, line);
            && (o.Panic? <==> BinaryPanics(op.kind, l, r))
            && (o.Outcome? ==> (o.err.None? <==> BinaryAccepts(op.kind, l, r)))
            && (o.Outcome? && o.err.Some? ==>
                  o.value == Nil
                  && o.err == Some(if l.Num? && r.Num? && op.kind == SLASH then Formatted(ErrDivideByZero, [D(line)])
                                   else Formatted(ErrInvalidOperatorTypes, [S(op.lexeme), S(TypeOf(l)), S(TypeOf(r)), D(line)])))
  {
  }

  lemma BinaryEquality(h: Host, op: Token, l: Value, r: Value, line: int)
    requires !(l.Num? && r.Num?) && !(IsNumber(l) && IsNumber(r)) && (op.kind == EQUAL_EQUAL || op.kind == NOT_EQUAL)
    ensures var o := EvalBinary(h, op, l, r, line);
            && (o.Panic? <==> BinaryPanics(op.kind, l, r))
            && (o.Outcome? ==> (o.err.None? <==> BinaryAccepts(op.kind, l, r)))
            && (o.Outcome? && o.err.Some? ==>
                  o.value == Nil
                  && o.err == Some(if l.Num? && r.Num? && op.kind == SLASH then Formatted(ErrDivideByZero, [D(line)])
                                   else Formatted(ErrInvalidOperatorTypes, [S(op.lexeme), S(TypeOf(l)), S(TypeOf(r)), D(line)])))
  {
  }

  lemma BinaryRest(h: Host, op: Token, l: Value, r: Value, line: int)
    requires !(l.Num? && r.Num?) && !(IsNumber(l) && IsNumber(r)) && op.kind != EQUAL_EQUAL && op.kind != NOT_EQUAL
    ensures var o := EvalBinary(h, op, l, r, line);
            && (o.Panic? <==> BinaryPanics(op.kind, l, r))
            && (o.Outcome? ==> (o.err.None? <==> BinaryAccepts(op.kind, l, r)))
            && (o.Outcome? && o.err.Some? ==>
                  o.value == Nil
                  && o.err == Some(if l.Num? && r.Num? && op.kind == SLASH then Formatted(ErrDivideByZero, [D(line)])
                                   else Formatted(ErrInvalidOperatorTypes, [S(op.lexeme), S(TypeOf(l)), S(TypeOf(r)), D(line)])))
  {
  }

  /** The number switch by itself: every operator but `/` by zero and
      `%` by less than one is decided there, and `==`, `!=`, `and`, `or`
      fall through. */
  lemma NumBinaryCases(h: Host, op: Token, a: real, b: real, line: int)
    ensures var n := NumBinary(h, op.kind, a, b, line);
            && (n.Some? <==> op.kind in {PLUS, MINUS, STAR, HAT, GREATER, LESS, LESS_EQUAL, GREATER_EQUAL, MODULO, SLASH})
            && (n.Some? && n.value.Panic? <==> op.kind == MODULO && Trunc(b) == 0)
            && (n.Some? && n.value.Outcome? ==> (n.value.err.None? <==> !(op.kind == SLASH && b == 0.0)))
            && (n.Some? && n.value.Outcome? && n.value.err.Some? ==>
                  n.value == Outcome(Nil, FormatError(Some(Plain(ErrDivideByZero)), line)))
  {
  }

  function Tok(kind: int, lexeme: string): Token {
    Token(kind, lexeme, Nil, 0)
  }

  /** The comparisons are each other's mirror images and complements. */
  lemma ComparisonDuality(h: Host, a: real, b: real, line: int)
    ensures EvalBinary(h, Tok(GREATER, ">"), Num(a), Num(b), line) == EvalBinary(h, Tok(LESS, "<"), Num(b), Num(a), line)
    ensures EvalBinary(h, Tok(GREATER_EQUAL, ">="), Num(a), Num(b), line) == EvalBinary(h, Tok(LESS_EQUAL, "<="), Num(b), Num(a), line)
    ensures EvalBinary(h, Tok(LESS_EQUAL, "<="), Num(a), Num(b), line)
            == Outcome(Bool(!EvalBinary(h, Tok(GREATER, ">"), Num(a), Num(b), line).value.b), None)
  {
  }

  /** `==` and `!=` accept any operands Go can compare and are complements;
      plain values equal themselves. */
  lemma EqualityDuality(h: Host, l: Value, r: Value, line: int)
    requires !(l.Fn? && r.Fn?) && !(IsNumber(l) && IsNumber(r) && !(l.Num? && r.Num?))
    ensures var eq := EvalBinary(h, Tok(EQUAL_EQUAL, "=="), l, r, line);
            var ne := EvalBinary(h, Tok(NOT_EQUAL, "!="), l, r, line);
            && Succeeds(eq) && Succeeds(ne) && eq.value.Bool? && ne.value == Bool(!eq.value.b)
            && (l == r && (l.Nil? || l.Bool? || l.Num? || l.Str?) ==> eq.value == Bool(true))
  {
  }

  /** `and` and `or` go by truthiness, where only nil and false are falsy;
      they obey De Morgan's law through `!`. */
  lemma AndOrTruthiness(h: Host, l: Value, r: Value, line: int)
    requires !(IsNumber(l) && IsNumber(r) && !(l.Num? && r.Num?))
    ensures var and := EvalBinary(h, Tok(AND, "and"), l, r, line);
            var or := EvalBinary(h, Tok(OR, "or"), l, r, line);
            && and == Outcome(Bool(l != Nil && l != Bool(false) && r != Nil && r != Bool(false)), None)
            && or == Outcome(Bool(Truthy(l) || Truthy(r)), None)
            && var not := Tok(NOT, "!");
               var nl := EvalUnary(not, Outcome(l, None), line, false).value;
               var nr := EvalUnary(not, Outcome(r, None), line, false).value;
               EvalUnary(not, and, line, false) == EvalBinary(h, Tok(OR, "or"), nl, nr, line)
  {
    hide *;
    var not := Tok(NOT, "!");
    AndOr(h, l, r, line);
    NotTruthy(l, line);
    NotTruthy(r, line);
    var a := Truthy(l) && Truthy(r);
    NotTruthy(Bool(a), line);
    NotTruthy(Bool(!Truthy(l)), line);
    NotTruthy(Bool(!Truthy(r)), line);
    AndOr(h, Bool(!Truthy(l)), Bool(!Truthy(r)), line);
  }

  /** `and` and `or` on values that are not a pair of numbers. */
  lemma AndOr(h: Host, l: Value, r: Value, line: int)
    requires !(IsNumber(l) && IsNumber(r) && !(l.Num? && r.Num?))
    ensures EvalBinary(h, Tok(AND, "and"), l, r, line) == Outcome(Bool(Truthy(l) && Truthy(r)), None)
    ensures EvalBinary(h, Tok(OR, "or"), l, r, line) == Outcome(Bool(Truthy(l) || Truthy(r)), None)
    ensures Truthy(l) <==> l != Nil && l != Bool(false)
    ensures Truthy(r) <==> r != Nil && r != Bool(false)
  {
  }

  /** `!` flips truthiness; a boolean's truthiness is itself. */
  lemma NotTruthy(v: Value, line: int)
    ensures EvalUnary(Tok(NOT, "!"), Outcome(v, None), line, false) == Outcome(Bool(!Truthy(v)), None)
    ensures v.Bool? ==> (Truthy(v) <==> v.b) && !IsNumber(v)
  {
  }

  /** `+` on two strings concatenates them. */
  lemma StringConcat(h: Host, a: string, b: string, plus: Token, line: int)
    requires plus.kind == PLUS
    ensures EvalBinary(h, plus, Str(a), Str(b), line) == Outcome(Str(a + b), None)
    ensures |EvalBinary(h, plus, Str(a), Str(b), line).value.s| == |a| + |b|
  {
  }

  /** `%` on two numbers converts both to integers by truncation toward
      zero and takes Go's integer remainder: it panics exactly when the
      divisor is smaller than one in size, and otherwise the result has the
      dividend's sign, is smaller than the truncated divisor in size, and
      completes the truncated quotient to the truncated dividend. */
  lemma ModuloTruncates(h: Host, a: real, b: real, line: int)
    ensures EvalBinary(h, Tok(MODULO, "%"), Num(a), Num(b), line).Panic? <==> -1.0 < b < 1.0
    ensures !(-1.0 < b < 1.0) ==>
              EvalBinary(h, Tok(MODULO, "%"), Num(a), Num(b), line) == Outcome(Num(GoRem(Trunc(a), Trunc(b)) as real), None)
    ensures !(-1.0 < b < 1.0) ==>
              var n := EvalBinary(h, Tok(MODULO, "%"), Num(a), Num(b), line).value.n;
              && (a >= 0.0 ==> 0.0 <= n < Abs(Trunc(b)) as real)
              && (a < 0.0 ==> -(Abs(Trunc(b)) as real) < n <= 0.0)
  {
    assert Trunc(b) == 0 <==> -1.0 < b < 1.0;
    if Trunc(b) != 0 {
      var r := GoRem(Trunc(a), Trunc(b));
      assert EvalBinary(h, Tok(MODULO, "%"), Num(a), Num(b), line) == Outcome(Num(r as real), None);
    }
  }

  /** `-7 % 2` is `-1`, `7.5 % 2.9` is `1`, and `5 % 0.5` panics. */
  lemma ModuloExamples(h: Host, line: int)
    ensures EvalBinary(h, Tok(MODULO, "%"), Num(-7.0), Num(2.0), line) == Outcome(Num(-1.0), None)
    ensures EvalBinary(h, Tok(MODULO, "%"), Num(7.5), Num(2.9), line) == Outcome(Num(1.0), None)
    ensures EvalBinary(h, Tok(MODULO, "%"), Num(5.0), Num(0.5), line).Panic?
  {
    assert Trunc(-7.0) == -7 && Trunc(2.0) == 2 && GoRem(-7, 2) == -1;
    assert Trunc(7.5) == 7 && Trunc(2.9) == 2 && GoRem(7, 2) == 1;
    assert Trunc(0.5) == 0;
  }

  // ---------------------------------------------------------------------
  // Unary expressions

  /** `evalUnary` as written, for an operand that produced `v` and `err`. */
  lemma UnaryOutcomes(op: Token, v: Value, err: Option<Message>, line: int)
    ensures var o := EvalUnary(op, Outcome(v, err), line, false);
            && (op.kind == MINUS && v.Num? ==> o == Outcome(Num(-v.n), err))
            && (op.kind == MINUS && v.Bool? ==>
                  o == Outcome(Nil, Some(Formatted(ErrInvalidOperatorType, [S(op.lexeme), S("bool"), D(line)]))))
            && (op.kind == MINUS ==> (o.Panic? <==> !v.Num? && !v.Bool?))
            && (op.kind == NOT ==> o == Outcome(Bool(v == Nil || v == Bool(false)), err))
            && (op.kind == TYPE ==> o == Outcome(Str(TypeOf(v)), err) && (v == Nil ==> o.value == Str("nil")))
            && (op.kind != MINUS && op.kind != NOT && op.kind != TYPE ==>
                  o == Outcome(Nil, Some(Formatted(ErrInvalidUnaryOperator, [S(op.lexeme), D(line)]))))
  {
  }

  /** Negation is its own inverse on numbers; double `!` is truthiness. */
  lemma UnaryInverses(minus: Token, not: Token, n: real, v: Value, err: Option<Message>, line: int, corrected: bool)
    requires minus.kind == MINUS && not.kind == NOT
    ensures err.None? || !corrected ==>
              EvalUnary(minus, EvalUnary(minus, Outcome(Num(n), err), line, corrected), line, corrected) == Outcome(Num(n), err)
    ensures err.None? || !corrected ==>
              EvalUnary(not, EvalUnary(not, Outcome(v, err), line, corrected), line, corrected) == Outcome(Bool(Truthy(v)), err)
  {
  }

  /** In the corrected reading an operand's error comes back first, with a
      nil value, whatever the operator. */
  lemma CorrectedUnaryPropagates(op: Token, right: Outcome, line: int)
    requires right.Outcome? && right.err.Some?
    ensures EvalUnary(op, right, line, true) == Outcome(Nil, right.err)
    ensures !EvalUnary(op, right, line, true).Panic?
  {
  }

  /** `-x` with `x` undefined: as written the failed lookup's nil reaches
      the `float64` assertion and Go panics; corrected it is the lookup's
      error. */
  lemma MinusOfUndefined(h: Host, st: Env.State, minus: Token, name: string, l1: int, l2: int)
    requires minus.kind == MINUS
    requires forall k :: 0 <= k < |st.current| ==> name !in st.current[k]
    ensures Eval(h, st, Unary(minus, Variable(name, l1), l2), false).Panic?
    ensures Eval(h, st, Unary(minus, Variable(name, l1), l2), true) == Outcome(Nil, Some(Plain(Env.ErrUndefined(name))))
  {
    assert Env.Get(st, name) == Err(Plain(Env.ErrUndefined(name)));
  }

  // ---------------------------------------------------------------------
  // Variables and groups

  /** A variable reads the innermost binding: after declaring it, the
      declared value, and an undefined name is the lookup's error. */
  lemma VariableReads(h: Host, st: Env.State, name: string, v: Value, line: int, corrected: bool)
    ensures Env.Declare(st, name, v).Ok? ==>
              Eval(h, Env.Declare(st, name, v).value, Variable(name, line), corrected) == Outcome(v, None)
    ensures (forall k :: 0 <= k < |st.current| ==> name !in st.current[k]) ==>
              Eval(h, st, Variable(name, line), corrected) == Outcome(Nil, Some(Plain(Env.ErrUndefined(name))))
  {
    if Env.Declare(st, name, v).Ok? {
      Env.GetAfterDeclare(st, name, v, name);
    }
  }

  /** Parentheses are transparent and a literal is its token's value. */
  lemma GroupsAndLiterals(h: Host, st: Env.State, e: Expression, t: Token, line: int, corrected: bool)
    ensures Eval(h, st, Group(e, line), corrected) == Eval(h, st, e, corrected)
    ensures Eval(h, st, Group(Literal(t, line), line), corrected) == Outcome(t.literal, None)
  {
  }

  // ---------------------------------------------------------------------
  // Calls

  /** Argument `k` is the first that fails after `i`. */
  predicate FirstFailure(h: Host, st: Env.State, exprs: seq<Expression>, i: nat, k: nat, corrected: bool)
    requires i <= k < |exprs|
  {
    && !Succeeds(Eval(h, st, exprs[k], corrected))
    && forall j :: i <= j < k ==> Succeeds(Eval(h, st, exprs[j], corrected))
  }

  /** One step of the argument loop. */
  lemma ArgsStep(h: Host, st: Env.State, call: Expression, i: nat, acc: seq<Value>, corrected: bool)
    requires call.Call? && i < |call.exprs|
    ensures var o := Eval(h, st, call.exprs[i], corrected);
            EvalArgs(h, st, call, i, acc, corrected) ==
            if Succeeds(o) then EvalArgs(h, st, call, i + 1, acc + [o.value], corrected) else Failed(AsFailure(o))
  {
  }

  lemma ArgsEnd(h: Host, st: Env.State, call: Expression, acc: seq<Value>, corrected: bool)
    requires call.Call?
    ensures EvalArgs(h, st, call, |call.exprs|, acc, corrected) == Values(acc)
  {
  }

  /** The arguments are evaluated left to right: either all succeed and
      their values are kept in order, or the first failure is the result. */
  lemma {:induction false} ArgsInOrder(h: Host, st: Env.State, call: Expression, i: nat, acc: seq<Value>, corrected: bool)
    requires call.Call? && i <= |call.exprs|
    ensures var r := EvalArgs(h, st, call, i, acc, corrected);
            && (r.Values? ==>
                  && |r.vs| == |acc| + |call.exprs| - i && r.vs[..|acc|] == acc
                  && forall k :: i <= k < |call.exprs| ==> Eval(h, st, call.exprs[k], corrected) == Outcome(r.vs[|acc| + k - i], None))
            && (r.Failed? ==>
                  exists k :: i <= k < |call.exprs| && FirstFailure(h, st, call.exprs, i, k, corrected)
                              && r.o == AsFailure(Eval(h, st, call.exprs[k], corrected)))
    decreases |call.exprs| - i
  {
    hide *;
    if i == |call.exprs| {
      ArgsEnd(h, st, call, acc, corrected);
      assert acc[..|acc|] == acc;
    } else {
      var o := Eval(h, st, call.exprs[i], corrected);
      ArgsStep(h, st, call, i, acc, corrected);
      if Succeeds(o) {
        SucceedsValue(o);
        var acc' := acc + [o.value];
        ArgsInOrder(h, st, call, i + 1, acc', corrected);
        var r := EvalArgs(h, st, call, i + 1, acc', corrected);
        assert EvalArgs(h, st, call, i, acc, corrected) == r;
        if r.Values? {
          assert r.vs[..|acc|] == r.vs[..|acc'|][..|acc|];
          assert r.vs[|acc|] == r.vs[..|acc'|][|acc|] == o.value;
        } else {
          var k :| i + 1 <= k < |call.exprs| && FirstFailure(h, st, call.exprs, i + 1, k, corrected)
                   && r.o == AsFailure(Eval(h, st, call.exprs[k], corrected));
          FirstFailureCons(h, st, call.exprs, i, k, corrected);
        }
      } else {
        FirstFailureHere(h, st, call.exprs, i, corrected);
      }
    }
  }

  lemma SucceedsValue(o: Outcome)
    requires Succeeds(o)
    ensures o.Outcome? && o == Outcome(o.value, None)
  {
  }

  lemma FirstFailureCons(h: Host, st: Env.State, exprs: seq<Expression>, i: nat, k: nat, corrected: bool)
    requires i < k < |exprs| && Succeeds(Eval(h, st, exprs[i], corrected))
    requires FirstFailure(h, st, exprs, i + 1, k, corrected)
    ensures FirstFailure(h, st, exprs, i, k, corrected)
  {
  }

  lemma FirstFailureHere(h: Host, st: Env.State, exprs: seq<Expression>, i: nat, corrected: bool)
    requires i < |exprs| && !Succeeds(Eval(h, st, exprs[i], corrected))
    ensures FirstFailure(h, st, exprs, i, i, corrected)
  {
  }

  /** One step of `evalCall`, before the arguments are looked at. */
  lemma CallUnfold(h: Host, st: Env.State, call: Expression, corrected: bool)
    requires call.Call?
    ensures var g := Env.Get(st, call.name);
            var o := Eval(h, st, call, corrected);
            && (!(g.Ok? && g.value.Fn?) ==>
                  o == Outcome(Nil, Some(Formatted(ErrNotFunction, [S(call.name), D(call.line)]))))
            && (g.Ok? && g.value.Fn? && CountMismatch(g.value.f, |call.exprs|, corrected) ==>
                  o == Outcome(Nil, Some(Formatted(ErrIncorrectArgs,
                                                   [S(call.name), D(g.value.f.numArgs), D(|call.exprs|), D(call.line)]))))
            && (g.Ok? && g.value.Fn? && !CountMismatch(g.value.f, |call.exprs|, corrected) ==>
                  o == match EvalArgs(h, st, call, 0, [], corrected)
                       case Values(vs) => h.call(g.value.f, vs)
                       case Failed(fo) => fo)
  {
    assert Eval(h, st, call, corrected) == EvalCall(h, st, call, corrected);
  }

  /** `evalCall`: an unbound name or a value that is not a callable is
      `ErrNotFunction`; a refused argument count is `ErrIncorrectArgs`;
      otherwise the first failing argument is the result before the
      callee runs, and with none the callee gets the values in order. */
  lemma CallOutcomes(h: Host, st: Env.State, call: Expression, corrected: bool)
    requires call.Call?
    ensures var g := Env.Get(st, call.name);
            var o := Eval(h, st, call, corrected);
            && (!(g.Ok? && g.value.Fn?) ==>
                  o == Outcome(Nil, Some(Formatted(ErrNotFunction, [S(call.name), D(call.line)]))))
            && (g.Ok? && g.value.Fn? && CountMismatch(g.value.f, |call.exprs|, corrected) ==>
                  o == Outcome(Nil, Some(Formatted(ErrIncorrectArgs,
                                                   [S(call.name), D(g.value.f.numArgs), D(|call.exprs|), D(call.line)]))))
            && (g.Ok? && g.value.Fn? && !CountMismatch(g.value.f, |call.exprs|, corrected) ==>
                  || (exists k :: 0 <= k < |call.exprs| && FirstFailure(h, st, call.exprs, 0, k, corrected)
                                  && o == AsFailure(Eval(h, st, call.exprs[k], corrected)))
                  || (exists vs: seq<Value> ::
                        && |vs| == |call.exprs| && o == h.call(g.value.f, vs)
                        && forall k :: 0 <= k < |call.exprs| ==> Eval(h, st, call.exprs[k], corrected) == Outcome(vs[k], None)))
  {
    hide *;
    CallUnfold(h, st, call, corrected);
    ArgsInOrder(h, st, call, 0, [], corrected);
    var r := EvalArgs(h, st, call, 0, [], corrected);
    if r.Values? {
      forall k | 0 <= k < |call.exprs|
        ensures Eval(h, st, call.exprs[k], corrected) == Outcome(r.vs[k], None)
      {
        assert 0 + k - 0 == k;
      }
    }
  }

  /** A library callable (`numArgs` -1, lib/lib.go) as written: the count
      test refuses every call, even one without arguments. A program of
      this revision reaches it only through a getter, which `Eval` does
      not evaluate, so the defect is latent. */
  lemma LibraryCallRefused(h: Host, st: Env.State, call: Expression, f: Callable)
    requires call.Call? && Env.Get(st, call.name) == Ok(Fn(f)) && f.numArgs == -1
    ensures Eval(h, st, call, false)
            == Outcome(Nil, Some(Formatted(ErrIncorrectArgs, [S(call.name), D(-1), D(|call.exprs|), D(call.line)])))
  {
    CallUnfold(h, st, call, false);
  }

  /** Corrected, a library callable takes any number of arguments: they
      are evaluated and the callee runs, as for any accepted count. */
  lemma LibraryCallRuns(h: Host, st: Env.State, call: Expression, f: Callable)
    requires call.Call? && Env.Get(st, call.name) == Ok(Fn(f)) && f.numArgs < 0
    ensures Eval(h, st, call, true)
            == match EvalArgs(h, st, call, 0, [], true)
               case Values(vs) => h.call(f, vs)
               case Failed(fo) => fo
  {
    CallUnfold(h, st, call, true);
  }
}

=== FILE: expr.dfy ===
/** The expression tree and the grouped token form the parser builds it
    from (expr/expr.go).

    Go keeps every expression in one struct whose `Type` field says which
    of its fields matter; here each type is a constructor holding just
    those fields. Go's zero `Expression{}` has type `Literal` and the zero
    token, so it is `ZeroExpression`.

    `Array`, `Getter`, `ArrayGroup`, `Expression.Line`, `ErrBracketError`,
    `ErrNotFunction` and `ErrIncorrectArgs` are used by expr/parse.go and
    expr/evaluate.go but not declared in expr/expr.go; they are declared
    here, with message texts of our own choosing. */
module Expr {
  import opened Values
  import opened Lexer

  datatype Expression =
    | Literal(value: Token, line: int)
    | Unary(operand: Token, right: Expression, line: int)
    | Binary(operand: Token, left: Expression, right: Expression, line: int)
    | Group(inner: Expression, line: int)
    | Variable(name: string, line: int)
    | Call(name: string, exprs: seq<Expression>, line: int)
    | ArrayExpr(exprs: seq<Expression>, line: int)
    | Getter(name: string, exprs: seq<Expression>, line: int)

  const ZeroExpression := Literal(ZeroToken, 0)

  /** The `Name` field of an expression; empty for types that leave it unset. */
  function NameOf(e: Expression): string {
    match e
    case Variable(n, _) => n
    case Call(n, _, _) => n
    case Getter(n, _, _) => n
    case _ => ""
  }

  /** ParseToken kinds; they continue the `iota` sequence of expr/expr.go
      after the six expression types. */
  const Single := 6
  const TokenGroup := 7
  const CallGroup := 8
  const ArrayGroup := 9

  /** A lexer token (`Single`) or a bracketed group of parse tokens. The
      `kind` stays an integer because expr/parse.go compares it with lexer
      kinds. */
  datatype ParseToken = ParseToken(kind: int, token: Token, inner: seq<ParseToken>)

  const ErrParenError := "unmatched parenthesies, line %d"
  const ErrInvalidUnaryOperator := "invalid unary operator '%s', line %d"
  const ErrInvalidOperatorType := "invalid operator '%s' for type '%s', line %d"
  const ErrInvalidOperatorTypes := "invalid operator '%s' for types '%s' and '%s', line %d"
  const ErrDivideByZero := "division by 0, line %d"
  const ErrInvalidExpression := "invalid expression, line %d"
  const ErrExpectedExpression := "expected expression in group, line %d"

  const ErrBracketError := "unmatched brackets, line %d"
  const ErrNotFunction := "'%s' is not a function, line %d"
  const ErrIncorrectArgs := "'%s' expects %d arguments, got %d, line %d"

  /** The size of a parse token: one for itself plus its groups' sizes. */
  function Size(t: ParseToken): nat
    decreases t, 1
  {
    1 + Sizes(t.inner)
  }

  function Sizes(ts: seq<ParseToken>): nat
    decreases ts, 0
  {
    if |ts| == 0 then 0 else Size(ts[0]) + Sizes(ts[1..])
  }

  lemma {:induction false} SizesAppend(a: seq<ParseToken>, b: seq<ParseToken>)
    ensures Sizes(a + b) == Sizes(a) + Sizes(b)
    decreases |a|
  {
    if |a| == 0 {
      assert a + b == b;
    } else {
      assert (a + b)[1..] == a[1..] + b;
      SizesAppend(a[1..], b);
    }
  }

  /** Every element weighs at least one, and no element outweighs the list
      it sits in; dropping an element makes the list strictly lighter. */
  lemma SizesSplit(ts: seq<ParseToken>, k: nat)
    requires k < |ts|
    ensures Sizes(ts) == Sizes(ts[..k]) + Size(ts[k]) + Sizes(ts[k + 1..])
    ensures Size(ts[k]) >= 1 && Sizes([ts[k]]) == Size(ts[k])
    ensures |ts| >= 2 ==> Sizes([ts[k]]) < Sizes(ts)
  {
    assert ts == ts[..k] + [ts[k]] + ts[k + 1..];
    SizesAppend(ts[..k] + [ts[k]], ts[k + 1..]);
    SizesAppend(ts[..k], [ts[k]]);
    assert [ts[k]][1..] == [];
    if k > 0 {
      assert Sizes(ts[..k]) >= Size(ts[..k][0]);
    } else if |ts| >= 2 {
      assert Sizes(ts[k + 1..]) >= Size(ts[k + 1..][0]);
    }
  }

  /** The kind the lowest-kind search starts from. */
  const NoToken := Token(999, "", Nil, 0)

  /** The state of the lowest-kind search of both parsers: `best` is the
      lowest single token among the first `k`, the leftmost one on ties, at
      `bestIdx`; `single` is the parser's code for a single token. */
  predicate LowestSoFar(tokens: seq<ParseToken>, single: int, k: nat, best: Token, bestIdx: nat)
    requires k <= |tokens|
  {
    && ((best == NoToken && bestIdx == 0)
        || (bestIdx < k && tokens[bestIdx].kind == single && best == tokens[bestIdx].token))
    && best.kind <= NoToken.kind
    && (forall j :: 0 <= j < k && tokens[j].kind == single ==> tokens[j].token.kind >= best.kind)
    && (forall j :: 0 <= j < bestIdx && tokens[j].kind == single ==> tokens[j].token.kind > best.kind)
  }

  function LowestFrom(tokens: seq<ParseToken>, single: int, k: nat, best: Token, bestIdx: nat): (r: (Token, nat))
    requires k <= |tokens| && LowestSoFar(tokens, single, k, best, bestIdx)
    ensures LowestSoFar(tokens, single, |tokens|, r.0, r.1)
    decreases |tokens| - k
  {
    if k == |tokens| then (best, bestIdx)
    else if tokens[k].kind == single && tokens[k].token.kind < best.kind then
      LowestFrom(tokens, single, k + 1, tokens[k].token, k)
    else LowestFrom(tokens, single, k + 1, best, bestIdx)
  }
}

=== FILE: expr_parse.dfy ===
/** The two-phase expression parser (expr/parse.go).

    Phase one, `GenerateParseTokens`, nests each parenthesised group, call
    and array literal into a single parse token. Phase two, `ParsePTokens`,
    builds the tree by splitting at the leftmost single token of the lowest
    kind, kinds being ordered by precedence. Go returns the parse tokens
    built so far next to an error; callers drop them, and so does the
    model. */
module ExprParse {
  import opened Results
  import opened Fmt
  import opened Values
  import opened TokenTypes
  import opened Lexer
  import opened Util
  import opened Expr

  /** What one pass of the grouping loop appends and where it resumes. */
  datatype PMove = PMove(next: nat, ptokens: seq<ParseToken>)

  /** `ParseExpression`: grouping, then tree building. */
  function ParseExpression(tokens: seq<Token>): Result<Expression> {
    match GenerateParseTokens(tokens)
    case Ok(pts) => Ok(ParsePTokens(pts))
    case Err(m) => Err(m)
    case Crash(c) => Crash(c)
  }

  // ---------------------------------------------------------------------
  // Phase one: grouping

  function GenerateParseTokens(tokens: seq<Token>): Result<seq<ParseToken>>
    decreases |tokens|, 4
  {
    Gen(tokens, 0, [])
  }

  /** The loop of `generateParseTokens` from index `i`, with the parse
      tokens so far in `acc`. */
  function Gen(tokens: seq<Token>, i: nat, acc: seq<ParseToken>): Result<seq<ParseToken>>
    requires i <= |tokens|
    decreases |tokens|, 3, |tokens| - i
  {
    if i == |tokens| then Ok(acc)
    else
      match PStep(tokens, i)
      case Ok(m) => Gen(tokens, m.next, acc + m.ptokens)
      case Err(e) => Err(e)
      case Crash(c) => Crash(c)
  }

  /** One pass of the loop at index `i`. */
  function PStep(tokens: seq<Token>, i: nat): (r: Result<PMove>)
    requires i < |tokens|
    ensures r.Ok? ==> i < r.value.next <= |tokens|
    decreases |tokens|, 2, 0
  {
    var token := tokens[i];
    var line := token.line;
    if token.kind == LEFT_PAREN then
      var (endIdx, eof) := SeekClosingBracket(tokens, i, LEFT_PAREN, RIGHT_PAREN);
      if eof then Err(Formatted(ErrParenError, [D(line)]))
      else if endIdx - i == 1 then Err(Formatted(ErrExpectedExpression, [D(line)]))
      else
        ClosingBracketMatches(tokens, i, LEFT_PAREN, RIGHT_PAREN);
        match Gen(tokens[i + 1..endIdx], 0, [])
        case Ok(group) => Ok(PMove(endIdx + 1, [ParseToken(TokenGroup, ZeroToken, group)]))
        case Err(e) => Err(e)
        case Crash(c) => Crash(c)
    else if token.kind == RIGHT_PAREN then Err(Formatted(ErrParenError, [D(line)]))
    else if token.kind == LEFT_SQUARE then
      match ParseCSV(tokens, i, LEFT_SQUARE, RIGHT_SQUARE)
      case Ok(g) => Ok(PMove(g.1 + 1, [ParseToken(ArrayGroup, ZeroToken, g.0)]))
      case Err(e) => Err(e)
      case Crash(c) => Crash(c)
    else if token.kind == IDENTIFIER then
      if i + 1 >= |tokens| || tokens[i + 1].kind != LEFT_PAREN then Ok(PMove(i + 1, [ParseToken(Single, token, [])]))
      else
        match ParseCSV(tokens, i + 1, LEFT_PAREN, RIGHT_PAREN)
        case Ok(g) => Ok(PMove(g.1 + 1, [ParseToken(CallGroup, token, g.0)]))
        case Err(e) => Err(e)
        case Crash(c) => Crash(c)
    else if token.kind > IDENTIFIER && token.kind != DOT then Err(Plain(ErrInvalidExpression))
    else Ok(PMove(i + 1, [ParseToken(Single, token, [])]))
  }

  /** `parseCSV`: the comma-separated groups between the bracket at `start`
      and its match, each as a `TokenGroup`, and the index of the match. */
  function ParseCSV(tokens: seq<Token>, start: nat, beginT: int, endT: int): (r: Result<(seq<ParseToken>, nat)>)
    requires start < |tokens| && tokens[start].kind == beginT && beginT != endT
    ensures r.Ok? ==> start < r.value.1 < |tokens|
    decreases |tokens|, 1, 0
  {
    var (endIdx, eof) := SeekClosingBracket(tokens, start, beginT, endT);
    if eof then Err(Plain(ErrBracketError))
    else
      ClosingBracketMatches(tokens, start, beginT, endT);
      match GenGroups(SplitByToken(tokens[start + 1..endIdx], COMMA), |tokens|)
      case Ok(group) => Ok((group, endIdx))
      case Err(e) => Err(e)
      case Crash(c) => Crash(c)
  }

  /** The loop of `parseCSV` over the comma-separated runs. */
  function GenGroups(parts: seq<seq<Token>>, bound: nat): (r: Result<seq<ParseToken>>)
    requires forall k :: 0 <= k < |parts| ==> |parts[k]| < bound
    ensures r.Ok? ==> |r.value| == |parts|
    decreases bound, 0, |parts|
  {
    if |parts| == 0 then Ok([])
    else
      match Gen(parts[0], 0, [])
      case Ok(t) =>
        (match GenGroups(parts[1..], bound)
         case Ok(rest) => Ok([ParseToken(TokenGroup, ZeroToken, t)] + rest)
         case Err(e) => Err(e)
         case Crash(c) => Crash(c))
      case Err(e) => Err(e)
      case Crash(c) => Crash(c)
  }

  // ---------------------------------------------------------------------
  // Phase two: the tree

  /** The lowest-kind single token and its index; `NoToken` at index 0
      when no single token has a kind below 999. */
  function Lowest(tokens: seq<ParseToken>): (r: (Token, nat))
    ensures LowestSoFar(tokens, Single, |tokens|, r.0, r.1)
  {
    LowestFrom(tokens, Single, 0, NoToken, 0)
  }

  /** The getter case: a dot second and an identifier as the lowest kind. */
  predicate IsGetterShape(tokens: seq<ParseToken>)
    requires |tokens| >= 2
  {
    tokens[1].token.kind == DOT && Lowest(tokens).0.kind == IDENTIFIER
  }

  /** Where the tree is split, and the operator token there: the lowest
      single token, moved to the middle when it is the last element. */
  function SplitPoint(tokens: seq<ParseToken>): (r: (Token, nat))
    requires |tokens| >= 2
    ensures r.1 < |tokens|
    ensures Lowest(tokens).1 != |tokens| - 1 ==> r == Lowest(tokens)
    ensures Lowest(tokens).1 == |tokens| - 1 ==> r == (tokens[|tokens| / 2].token, |tokens| / 2)
    ensures |tokens| >= 3 ==> r.1 < |tokens| - 1
  {
    var (lowest, idx) := Lowest(tokens);
    if idx == |tokens| - 1 then (tokens[|tokens| / 2].token, |tokens| / 2) else (lowest, idx)
  }

  /** The unary test; its second half compares a lexer kind with a parse
      token kind. */
  predicate IsUnaryShape(tokens: seq<ParseToken>)
    requires |tokens| >= 2
  {
    var lowest := SplitPoint(tokens).0;
    |tokens| == 2 || ((lowest.kind == MINUS || lowest.kind == TYPE || lowest.kind == NOT) && lowest.kind == tokens[0].kind)
  }

  /** `parsePTokens`. */
  function ParsePTokens(tokens: seq<ParseToken>): Expression
    decreases Sizes(tokens), 2
  {
    if |tokens| == 0 then ZeroExpression
    else
      var line := tokens[0].token.line;
      SizesSplit(tokens, 0);
      if |tokens| == 1 then
        var t := tokens[0];
        if t.kind == TokenGroup then Group(ParsePTokens(t.inner), line)
        else if t.kind == ArrayGroup then ArrayExpr(ParseGroups(t.inner), line)
        else if t.kind == CallGroup then Call(t.token.lexeme, ParseGroups(t.inner), line)
        else if t.token.kind == IDENTIFIER then Variable(t.token.lexeme, line)
        else Literal(t.token, line)
      else if IsGetterShape(tokens) then
        if |tokens| % 2 == 0 then ZeroExpression
        else
          SizesSplit(tokens, |tokens| - 1);
          match GetterParts(tokens, 0)
          case None => ZeroExpression
          case Some(parts) =>
            var exprs := parts + [ParsePTokens([tokens[|tokens| - 1]])];
            Getter(DottedName(exprs), exprs, line)
      else
        var (lowest, idx) := SplitPoint(tokens);
        if IsUnaryShape(tokens) then Unary(tokens[0].token, ParsePTokens(tokens[1..]), line)
        else
          SizesSplit(tokens, idx);
          Binary(lowest, ParsePTokens(tokens[..idx]), ParsePTokens(tokens[idx + 1..]), line)
  }

  /** The expressions of a call's or array's comma-separated groups. */
  function ParseGroups(groups: seq<ParseToken>): (es: seq<Expression>)
    ensures |es| == |groups|
    decreases Sizes(groups), 0
  {
    if |groups| == 0 then []
    else
      SizesSplit(groups, 0);
      [ParsePTokens(groups[0].inner)] + ParseGroups(groups[1..])
  }

  /** The loop over `name . name . …`: every other element must be a dot;
      the elements before the dots are parsed one by one. */
  function GetterParts(tokens: seq<ParseToken>, i: nat): (r: Option<seq<Expression>>)
    requires |tokens| >= 2
    decreases Sizes(tokens), 1, |tokens| - i
  {
    if i + 1 >= |tokens| then Some([])
    else if tokens[i + 1].token.kind != DOT then None
    else
      SizesSplit(tokens, i);
      match GetterParts(tokens, i + 2)
      case None => None
      case Some(rest) => Some([ParsePTokens([tokens[i]])] + rest)
  }

  /** The names joined with dots. */
  function DottedName(exprs: seq<Expression>): (name: string)
    requires |exprs| >= 1
    ensures |exprs| == 1 ==> name == NameOf(exprs[0])
    decreases |exprs|
  {
    if |exprs| == 1 then NameOf(exprs[0]) else NameOf(exprs[0]) + "." + DottedName(exprs[1..])
  }
}

=== FILE: expr_parse_props.dfy ===
/** What the expression parser guarantees (expr/parse.go): how groups are
    delimited, which tokens are refused, and how the tree is split. */
module ExprParseProps {
  import opened Results
  import opened Strs
  import opened Fmt
  import opened Values
  import opened TokenTypes
  import opened Lexer
  import opened Util
  import opened Expr
  import opened ExprParse

  // ---------------------------------------------------------------------
  // Phase one

  /** The two group errors are the `FormatError` of their templates with
      the line of the opening parenthesis. */
  lemma GroupErrorsFormatted(line: int)
    ensures FormatError(Some(Plain(ErrParenError)), line) == Some(Formatted(ErrParenError, [D(line)]))
    ensures FormatError(Some(Plain(ErrExpectedExpression)), line) == Some(Formatted(ErrExpectedExpression, [D(line)]))
  {
    assert ErrParenError == "unmatched parenthesies, line " + "%d" + "";
    HasInfixExact("unmatched parenthesies, line ", "%d", "");
    assert ErrExpectedExpression == "expected expression in group, line " + "%d" + "";
    HasInfixExact("expected expression in group, line ", "%d", "");
  }

  /** A parse token as phase one builds it. */
  predicate ValidKind(p: ParseToken) {
    p.kind == Single || p.kind == TokenGroup || p.kind == CallGroup || p.kind == ArrayGroup
  }

  /** Every top-level parse token has a valid kind, and every single token
      is an operator, an identifier or a dot. */
  predicate TopShaped(pts: seq<ParseToken>) {
    forall k :: 0 <= k < |pts| ==>
      ValidKind(pts[k]) && (pts[k].kind == Single ==> pts[k].token.kind <= IDENTIFIER || pts[k].token.kind == DOT)
  }

  lemma PStepShape(tokens: seq<Token>, i: nat)
    requires i < |tokens|
    ensures PStep(tokens, i).Ok? ==> TopShaped(PStep(tokens, i).value.ptokens)
  {
  }

  /** Phase one never leaves a parenthesis, a bracket, a literal or a
      keyword as a single token: parentheses become groups or errors, and
      any other kind above IDENTIFIER except DOT is refused. */
  lemma {:induction false} GenShapes(tokens: seq<Token>, i: nat, acc: seq<ParseToken>)
    requires i <= |tokens| && TopShaped(acc)
    ensures Gen(tokens, i, acc).Ok? ==> TopShaped(Gen(tokens, i, acc).value)
    decreases |tokens| - i
  {
    if i < |tokens| {
      PStepShape(tokens, i);
      if PStep(tokens, i).Ok? {
        var m := PStep(tokens, i).value;
        assert TopShaped(acc + m.ptokens);
        GenShapes(tokens, m.next, acc + m.ptokens);
      }
    }
  }

  lemma GenerateShapes(tokens: seq<Token>)
    ensures GenerateParseTokens(tokens).Ok? ==> TopShaped(GenerateParseTokens(tokens).value)
  {
    GenShapes(tokens, 0, []);
  }

  /** A parenthesis opens a group that ends at its depth-matched closing
      parenthesis: the tokens strictly between are grouped on their own and
      the scan resumes after the match. A parenthesis that is never closed,
      and an empty pair, are errors with the opening line. */
  lemma ParenStep(tokens: seq<Token>, i: nat)
    requires i < |tokens| && tokens[i].kind == LEFT_PAREN
    ensures var (k, eof) := SeekClosingBracket(tokens, i, LEFT_PAREN, RIGHT_PAREN);
            var line := tokens[i].line;
            && (eof ==> PStep(tokens, i) == Err(Formatted(ErrParenError, [D(line)])))
            && (!eof ==> i < k && tokens[k].kind == RIGHT_PAREN)
            && (!eof && k == i + 1 ==> PStep(tokens, i) == Err(Formatted(ErrExpectedExpression, [D(line)])))
            && (PStep(tokens, i).Ok? ==>
                  && !eof && k > i + 1 && GenerateParseTokens(tokens[i + 1..k]).Ok?
                  && PStep(tokens, i).value
                     == PMove(k + 1, [ParseToken(TokenGroup, ZeroToken, GenerateParseTokens(tokens[i + 1..k]).value)]))
  {
    ClosingBracketMatches(tokens, i, LEFT_PAREN, RIGHT_PAREN);
  }

  /** An identifier directly followed by `(` is a call: one token group per
      comma-separated argument, up to the matching `)`, and group g holds
      the parse tokens of argument g. */
  lemma CallStep(tokens: seq<Token>, i: nat)
    requires i + 1 < |tokens| && tokens[i].kind == IDENTIFIER && tokens[i + 1].kind == LEFT_PAREN
    ensures var (k, eof) := SeekClosingBracket(tokens, i + 1, LEFT_PAREN, RIGHT_PAREN);
            PStep(tokens, i).Ok? ==>
              && !eof && i + 1 < k && tokens[k].kind == RIGHT_PAREN
              && var m := PStep(tokens, i).value;
                 var parts := SplitByToken(tokens[i + 2..k], COMMA);
                 && m.next == k + 1 && |m.ptokens| == 1
                 && m.ptokens[0].kind == CallGroup && m.ptokens[0].token == tokens[i]
                 && |m.ptokens[0].inner| == |parts|
                 && forall g :: 0 <= g < |parts| ==>
                      && GenerateParseTokens(parts[g]).Ok?
                      && m.ptokens[0].inner[g] == ParseToken(TokenGroup, ZeroToken, GenerateParseTokens(parts[g]).value)
  {
    ClosingBracketMatches(tokens, i + 1, LEFT_PAREN, RIGHT_PAREN);
    if PStep(tokens, i).Ok? {
      var r := ParseCSV(tokens, i + 1, LEFT_PAREN, RIGHT_PAREN);
      assert r.Ok?;
      CsvGroups(tokens, i + 1, LEFT_PAREN, RIGHT_PAREN);
    }
  }

  /** A bracketed list ends at its matching bracket. It succeeds exactly
      when every comma-separated part parses, and then group g is the token
      group of part g; otherwise the first failing part's failure is the
      result. */
  lemma CsvGroups(tokens: seq<Token>, start: nat, beginT: int, endT: int)
    requires start < |tokens| && tokens[start].kind == beginT && beginT != endT
    ensures var r := ParseCSV(tokens, start, beginT, endT);
            var (k, eof) := SeekClosingBracket(tokens, start, beginT, endT);
            && (eof ==> r == Err(Plain(ErrBracketError)))
            && (!eof ==>
                  var parts := SplitByToken(tokens[start + 1..k], COMMA);
                  && (r.Ok? <==> forall g :: 0 <= g < |parts| ==> GenerateParseTokens(parts[g]).Ok?)
                  && (r.Ok? ==>
                        && r.value.1 == k && |r.value.0| == |parts|
                        && forall g :: 0 <= g < |parts| ==>
                             r.value.0[g] == ParseToken(TokenGroup, ZeroToken, GenerateParseTokens(parts[g]).value))
                  && (!r.Ok? ==>
                        exists g :: 0 <= g < |parts| && FailsFirst(parts, g)
                                    && r.Err? == GenerateParseTokens(parts[g]).Err?
                                    && (r.Err? ==> r.error == GenerateParseTokens(parts[g]).error)))
  {
    var (k, eof) := SeekClosingBracket(tokens, start, beginT, endT);
    if !eof {
      ClosingBracketMatches(tokens, start, beginT, endT);
      var parts := SplitByToken(tokens[start + 1..k], COMMA);
      GenGroupsContents(parts, |tokens|);
    }
  }

  /** Part `g` is the first one that does not parse. */
  predicate FailsFirst(parts: seq<seq<Token>>, g: nat)
    requires g < |parts|
  {
    && !GenerateParseTokens(parts[g]).Ok?
    && forall j :: 0 <= j < g ==> GenerateParseTokens(parts[j]).Ok?
  }

  /** The loop of `parseCSV`: one token group per part, holding that
      part's parse tokens, or the failure of the first part that does not
      parse. */
  lemma {:induction false} GenGroupsContents(parts: seq<seq<Token>>, bound: nat)
    requires forall k :: 0 <= k < |parts| ==> |parts[k]| < bound
    ensures GenGroups(parts, bound).Ok? <==> forall g :: 0 <= g < |parts| ==> GenerateParseTokens(parts[g]).Ok?
    ensures GenGroups(parts, bound).Ok? ==>
              forall g :: 0 <= g < |parts| ==>
                GenGroups(parts, bound).value[g] == ParseToken(TokenGroup, ZeroToken, GenerateParseTokens(parts[g]).value)
    ensures !GenGroups(parts, bound).Ok? ==>
              exists g :: 0 <= g < |parts| && FailsFirst(parts, g)
                          && GenGroups(parts, bound) == GenerateParseTokens(parts[g])
    decreases |parts|
  {
    if |parts| > 0 {
      var rest := parts[1..];
      GenGroupsContents(rest, bound);
      var first := GenerateParseTokens(parts[0]);
      var r := GenGroups(parts, bound);
      assert forall g :: 1 <= g < |parts| ==> parts[g] == rest[g - 1];
      if !first.Ok? {
        assert r == first;
        assert FailsFirst(parts, 0);
      } else if !GenGroups(rest, bound).Ok? {
        assert r == GenGroups(rest, bound);
        var g' :| 0 <= g' < |rest| && FailsFirst(rest, g') && GenGroups(rest, bound) == GenerateParseTokens(rest[g']);
        assert FailsFirst(parts, g' + 1) by {
          forall j | 0 <= j < g' + 1 ensures GenerateParseTokens(parts[j]).Ok? {
            if j > 0 { assert parts[j] == rest[j - 1]; }
          }
        }
        assert !(forall g :: 0 <= g < |parts| ==> GenerateParseTokens(parts[g]).Ok?) by {
          assert !GenerateParseTokens(parts[g' + 1]).Ok?;
        }
      } else {
        var v := GenGroups(rest, bound).value;
        assert r == Ok([ParseToken(TokenGroup, ZeroToken, first.value)] + v);
        forall g | 0 <= g < |parts|
          ensures GenerateParseTokens(parts[g]).Ok?
          ensures r.value[g] == ParseToken(TokenGroup, ZeroToken, GenerateParseTokens(parts[g]).value)
        {
          if g > 0 { assert parts[g] == rest[g - 1]; }
        }
      }
    }
  }

  /** A closing parenthesis the scan reaches on its own has no opening
      partner: an error with its line. */
  lemma StrayCloseRejected(tokens: seq<Token>)
    requires |tokens| >= 1 && tokens[0].kind == RIGHT_PAREN
    ensures GenerateParseTokens(tokens) == Err(Formatted(ErrParenError, [D(tokens[0].line)]))
  {
    assert PStep(tokens, 0) == Err(Formatted(ErrParenError, [D(tokens[0].line)]));
    assert Gen(tokens, 0, []) == Err(Formatted(ErrParenError, [D(tokens[0].line)]));
  }

  /** A parenthesis with no closing parenthesis after it is an error. */
  lemma UnclosedRejected(tokens: seq<Token>)
    requires |tokens| >= 1 && tokens[0].kind == LEFT_PAREN
    requires forall k :: 0 <= k < |tokens| ==> tokens[k].kind != RIGHT_PAREN
    ensures GenerateParseTokens(tokens) == Err(Formatted(ErrParenError, [D(tokens[0].line)]))
  {
    ParenStep(tokens, 0);
  }

  /** `()` is an error with its line. */
  lemma EmptyGroupRejected(tokens: seq<Token>)
    requires |tokens| >= 2 && tokens[0].kind == LEFT_PAREN && tokens[1].kind == RIGHT_PAREN
    ensures GenerateParseTokens(tokens) == Err(Formatted(ErrExpectedExpression, [D(tokens[0].line)]))
  {
    var r := SeekClosingBracket(tokens, 0, LEFT_PAREN, RIGHT_PAREN);
    assert Depth(tokens, 0, 1, LEFT_PAREN, RIGHT_PAREN) == 1;
    assert Depth(tokens, 0, 2, LEFT_PAREN, RIGHT_PAREN) == 0;
    assert r == (1, false);
    ParenStep(tokens, 0);
  }

  /** Literals and keywords sort after IDENTIFIER, so a number, a string or
      `true` where an operand is expected is refused, unformatted. */
  lemma LiteralsRejected(tokens: seq<Token>)
    requires |tokens| >= 1
    requires tokens[0].kind == NUMBER || tokens[0].kind == STRING || tokens[0].kind == TRUE
    ensures GenerateParseTokens(tokens) == Err(Plain(ErrInvalidExpression))
  {
    assert PStep(tokens, 0) == Err(Plain(ErrInvalidExpression));
    assert Gen(tokens, 0, []) == Err(Plain(ErrInvalidExpression));
  }

  // ---------------------------------------------------------------------
  // Phase two

  /** The split point is the leftmost single token of the lowest kind:
      every single token before it has a greater kind, every one after it
      a kind at least as great. */
  lemma BinarySplitsAtLowest(tokens: seq<ParseToken>)
    requires |tokens| >= 3 && ValidKind(tokens[0]) && !IsGetterShape(tokens)
    requires Lowest(tokens).1 != |tokens| - 1
    ensures var (op, idx) := Lowest(tokens);
            && ParsePTokens(tokens)
               == Binary(op, ParsePTokens(tokens[..idx]), ParsePTokens(tokens[idx + 1..]), tokens[0].token.line)
            && (forall j :: 0 <= j < idx && tokens[j].kind == Single ==> tokens[j].token.kind > op.kind)
            && (forall j :: idx < j < |tokens| && tokens[j].kind == Single ==> tokens[j].token.kind >= op.kind)
  {
    hide ParsePTokens, IsGetterShape, IsUnaryShape, ValidKind;
    SplitsAtSplitPoint(tokens);
    LowestOrder(tokens);
  }

  /** The order facts of the lowest single token, one by one. */
  lemma LowestOrder(tokens: seq<ParseToken>)
    ensures var (op, idx) := Lowest(tokens);
            && (forall j :: 0 <= j < idx && tokens[j].kind == Single ==> tokens[j].token.kind > op.kind)
            && (forall j :: idx < j < |tokens| && tokens[j].kind == Single ==> tokens[j].token.kind >= op.kind)
  {
  }

  /** Past the getter and unary cases, the tree is the Binary at the split
      point. */
  lemma SplitsAtSplitPoint(tokens: seq<ParseToken>)
    requires |tokens| >= 3 && ValidKind(tokens[0]) && !IsGetterShape(tokens)
    ensures var (op, idx) := SplitPoint(tokens);
            ParsePTokens(tokens)
            == Binary(op, ParsePTokens(tokens[..idx]), ParsePTokens(tokens[idx + 1..]), tokens[0].token.line)
  {
    assert !IsUnaryShape(tokens) by {
      assert tokens[0].kind != MINUS && tokens[0].kind != TYPE && tokens[0].kind != NOT;
    }
  }

  /** A lowest operator in last position cannot split the list, so the
      split moves to the middle element, whatever it is, and evaluation
      is left to report the malformed operands. */
  lemma BinarySplitsAtMiddle(tokens: seq<ParseToken>)
    requires |tokens| >= 3 && ValidKind(tokens[0]) && !IsGetterShape(tokens)
    requires Lowest(tokens).1 == |tokens| - 1
    ensures var m := |tokens| / 2;
            ParsePTokens(tokens)
            == Binary(tokens[m].token, ParsePTokens(tokens[..m]), ParsePTokens(tokens[m + 1..]), tokens[0].token.line)
  {
    hide ParsePTokens, IsGetterShape, IsUnaryShape, ValidKind, Lowest;
    SplitsAtSplitPoint(tokens);
  }

  /** `a * b +`: the `+` is lowest and last, so `b` becomes the operator of
      a Binary over the pair `a *` and the lone `+`. */
  lemma MiddleMoveExample(a: Token, star: Token, b: Token, plus: Token)
    requires a.kind == IDENTIFIER && b.kind == IDENTIFIER && star.kind == STAR && plus.kind == PLUS
    ensures ParsePTokens([One(a), One(star), One(b), One(plus)])
            == Binary(b, Unary(a, Literal(star, star.line), a.line), Literal(plus, plus.line), a.line)
  {
    var ts := [One(a), One(star), One(b), One(plus)];
    assert ts[1].kind == Single && ts[3].kind == Single;
    assert Lowest(ts).1 == 3;
    BinarySplitsAtMiddle(ts);
    assert ts[..2] == [One(a), One(star)] && ts[3..] == [One(plus)];
    assert [One(a), One(star)][1..] == [One(star)];
    assert ParsePTokens([One(star)]) == Literal(star, star.line);
    assert ParsePTokens([One(plus)]) == Literal(plus, plus.line);
    UnaryOnlyForPairs([One(a), One(star)]);
  }

  /** One parse token: a token group is a Group, an array or call group
      the Array or Call of its groups, an identifier a Variable, and any
      other single token a Literal, all on the token's line. */
  lemma OneElement(t: ParseToken)
    ensures var e := ParsePTokens([t]);
            var line := t.token.line;
            && (t.kind == TokenGroup ==> e == Group(ParsePTokens(t.inner), line))
            && (t.kind == ArrayGroup ==> e == ArrayExpr(ParseGroups(t.inner), line))
            && (t.kind == CallGroup ==> e == Call(t.token.lexeme, ParseGroups(t.inner), line))
            && (t.kind == Single && t.token.kind == IDENTIFIER ==> e == Variable(t.token.lexeme, line))
            && (t.kind == Single && t.token.kind != IDENTIFIER ==> e == Literal(t.token, line))
  {
    assert [t][0] == t;
  }

  /** Expression g of a call's or array's groups is the tree of group g's
      tokens. */
  lemma {:induction false} ParseGroupsEach(groups: seq<ParseToken>)
    ensures forall g :: 0 <= g < |groups| ==> ParseGroups(groups)[g] == ParsePTokens(groups[g].inner)
    decreases |groups|
  {
    hide ParsePTokens;
    if |groups| > 0 {
      ParseGroupsEach(groups[1..]);
      assert ParseGroups(groups) == [ParsePTokens(groups[0].inner)] + ParseGroups(groups[1..]);
      forall g | 1 <= g < |groups|
        ensures ParseGroups(groups)[g] == ParsePTokens(groups[g].inner)
      {
        assert groups[1..][g - 1] == groups[g];
      }
    }
  }

  /** The unary test's second half compares a lexer kind with a parse
      token kind and never holds, so exactly the two-element lists that
      are not getters become unary expressions. */
  lemma UnaryOnlyForPairs(tokens: seq<ParseToken>)
    requires |tokens| >= 2 && ValidKind(tokens[0]) && !IsGetterShape(tokens)
    ensures ParsePTokens(tokens).Unary? <==> |tokens| == 2
    ensures |tokens| == 2 ==> ParsePTokens(tokens) == Unary(tokens[0].token, ParsePTokens(tokens[1..]), tokens[0].token.line)
  {
  }

  function One(t: Token): ParseToken {
    ParseToken(Single, t, [])
  }

  /** `a op b op c` with one operator groups to the right: `a op (b op c)`. */
  lemma ChainGroupsRight(a: Token, op1: Token, b: Token, op2: Token, c: Token)
    requires a.kind == IDENTIFIER && b.kind == IDENTIFIER && c.kind == IDENTIFIER
    requires op1.kind == op2.kind < IDENTIFIER
    ensures ParsePTokens([One(a), One(op1), One(b), One(op2), One(c)])
            == Binary(op1, Variable(a.lexeme, a.line),
                      Binary(op2, Variable(b.lexeme, b.line), Variable(c.lexeme, c.line), b.line), a.line)
  {
    var ts := [One(a), One(op1), One(b), One(op2), One(c)];
    var (best, idx) := Lowest(ts);
    assert ts[1].kind == Single && ts[3].kind == Single;
    assert idx == 1;
    BinarySplitsAtLowest(ts);
    assert ts[..1] == [One(a)] && ts[2..] == [One(b), One(op2), One(c)];
    var rest := [One(b), One(op2), One(c)];
    var (best', idx') := Lowest(rest);
    assert rest[1].kind == Single;
    assert idx' == 1;
    BinarySplitsAtLowest(rest);
    assert rest[..1] == [One(b)] && rest[2..] == [One(c)];
    assert ParsePTokens([One(a)]) == Variable(a.lexeme, a.line);
    assert ParsePTokens([One(b)]) == Variable(b.lexeme, b.line);
    assert ParsePTokens([One(c)]) == Variable(c.lexeme, c.line);
  }

  /** `a . b` is a getter named `a.b` with the two variables as parts. */
  lemma DottedNameGetter(a: Token, dot: Token, b: Token)
    requires a.kind == IDENTIFIER && b.kind == IDENTIFIER && dot.kind == DOT
    ensures ParsePTokens([One(a), One(dot), One(b)])
            == Getter(a.lexeme + "." + b.lexeme, [Variable(a.lexeme, a.line), Variable(b.lexeme, b.line)], a.line)
  {
    var ts := [One(a), One(dot), One(b)];
    var (best, idx) := Lowest(ts);
    assert ts[0].kind == Single;
    assert idx == 0 && best == a;
    assert GetterParts(ts, 2) == Some([]);
    assert ts[0] == One(a) && ts[2] == One(b);
    assert ParsePTokens([One(a)]) == Variable(a.lexeme, a.line);
    assert ParsePTokens([One(b)]) == Variable(b.lexeme, b.line);
    assert ts[1].token.kind == DOT;
    assert GetterParts(ts, 0) == Some([ParsePTokens([ts[0]])] + []);
    assert [ts[0]] == [One(a)];
    var va := ParsePTokens([ts[0]]);
    assert va == Variable(a.lexeme, a.line);
    assert [va] + [] == [va];
    assert GetterParts(ts, 0) == Some([Variable(a.lexeme, a.line)]);
    var exprs := [Variable(a.lexeme, a.line), Variable(b.lexeme, b.line)];
    assert DottedName(exprs) == a.lexeme + "." + DottedName(exprs[1..]);
  }

  /** Tokens phase one keeps as they are: operators, identifiers and dots. */
  predicate Flat(tokens: seq<Token>) {
    forall k :: 0 <= k < |tokens| ==> tokens[k].kind <= IDENTIFIER || tokens[k].kind == DOT
  }

  function Singles(tokens: seq<Token>): (pts: seq<ParseToken>)
    ensures |pts| == |tokens|
  {
    seq(|tokens|, k requires 0 <= k < |tokens| => One(tokens[k]))
  }

  /** With no bracket, literal or keyword, phase one wraps every token as a
      single parse token and changes nothing else. */
  lemma {:induction false} GenFlat(tokens: seq<Token>, i: nat, acc: seq<ParseToken>)
    requires i <= |tokens| && Flat(tokens)
    ensures Gen(tokens, i, acc) == Ok(acc + Singles(tokens)[i..])
    decreases |tokens| - i
  {
    if i == |tokens| {
      assert Singles(tokens)[i..] == [];
      assert acc + [] == acc;
    } else {
      assert tokens[i].kind <= IDENTIFIER || tokens[i].kind == DOT;
      assert PStep(tokens, i) == Ok(PMove(i + 1, [One(tokens[i])]));
      GenFlat(tokens, i + 1, acc + [One(tokens[i])]);
      assert Singles(tokens)[i..] == [One(tokens[i])] + Singles(tokens)[i + 1..];
      assert acc + [One(tokens[i])] + Singles(tokens)[i + 1..] == acc + ([One(tokens[i])] + Singles(tokens)[i + 1..]);
    }
  }

  lemma GenerateFlat(tokens: seq<Token>)
    requires Flat(tokens)
    ensures GenerateParseTokens(tokens) == Ok(Singles(tokens))
  {
    GenFlat(tokens, 0, []);
    assert Singles(tokens)[0..] == Singles(tokens);
    assert [] + Singles(tokens) == Singles(tokens);
  }

  /** End to end: `a - b - c` parses as `a - (b - c)`. */
  lemma ParseChain(a: Token, op1: Token, b: Token, op2: Token, c: Token)
    requires a.kind == IDENTIFIER && b.kind == IDENTIFIER && c.kind == IDENTIFIER
    requires op1.kind == op2.kind < IDENTIFIER
    ensures ParseExpression([a, op1, b, op2, c])
            == Ok(Binary(op1, Variable(a.lexeme, a.line),
                         Binary(op2, Variable(b.lexeme, b.line), Variable(c.lexeme, c.line), b.line), a.line))
  {
    var ts := [a, op1, b, op2, c];
    assert Flat(ts);
    GenerateFlat(ts);
    assert Singles(ts) == [One(a), One(op1), One(b), One(op2), One(c)];
    ChainGroupsRight(a, op1, b, op2, c);
  }
}

=== FILE: fmt.dfy ===
/** The part of Go's `fmt.Errorf` / `fmt.Sprintf` that the interpreter's
    error templates use: the verbs `%s` and `%d`, the escape `%%`, and Go's
    diagnostics for a missing argument, a mismatched argument, a trailing
    `%` and surplus arguments. */
module Fmt {
  import opened Strs

  datatype Arg = S(s: string) | D(n: int)

  function TypeName(a: Arg): string {
    if a.S? then "string" else "int"
  }

  function ArgText(a: Arg): string {
    match a
    case S(s) => s
    case D(n) => IntToString(n)
  }

  /** One verb applied to one argument; a kind mismatch prints Go's
      `%!v(type=value)` diagnostic. */
  function Render(verb: char, a: Arg): string {
    if (verb == 's' && a.S?) || (verb == 'd' && a.D?) then ArgText(a)
    else "%!" + [verb] + "(" + TypeName(a) + "=" + ArgText(a) + ")"
  }

  function Extras(args: seq<Arg>): string
    decreases |args|
  {
    if |args| == 0 then ""
    else TypeName(args[0]) + "=" + ArgText(args[0]) + (if |args| == 1 then "" else ", " + Extras(args[1..]))
  }

  function Surplus(args: seq<Arg>): string {
    if |args| == 0 then "" else "%!(EXTRA " + Extras(args) + ")"
  }

  /** The formatted text of `template` with `args`. */
  function Format(template: string, args: seq<Arg>): string
    decreases |template|
  {
    if |template| == 0 then Surplus(args)
    else if template[0] != '%' then [template[0]] + Format(template[1..], args)
    else if |template| == 1 then "%!(NOVERB)" + Surplus(args)
    else if template[1] == '%' then "%" + Format(template[2..], args)
    else if template[1] == 's' || template[1] == 'd' then
      if |args| == 0 then "%!" + [template[1]] + "(MISSING)" + Format(template[2..], args)
      else Render(template[1], args[0]) + Format(template[2..], args[1..])
    else [template[0]] + Format(template[1..], args)
  }

  /** A Go error value: `errors.New(text)` or `fmt.Errorf(template, args...)`.
      Keeping the template and arguments apart lets a caller inspect which
      error it got; `Text` is the string `Error()` returns. */
  datatype Message = Plain(text: string) | Formatted(template: string, args: seq<Arg>)

  function Text(m: Message): string {
    match m
    case Plain(t) => t
    case Formatted(t, args) => Format(t, args)
  }

  /** Text without a `%` is copied through unchanged. */
  lemma {:induction false} FormatPlainPrefix(p: string, rest: string, args: seq<Arg>)
    requires '%' !in p
    ensures Format(p + rest, args) == p + Format(rest, args)
    decreases |p|
  {
    if |p| > 0 {
      assert (p + rest)[0] == p[0];
      assert (p + rest)[1..] == p[1..] + rest;
      FormatPlainPrefix(p[1..], rest, args);
      assert p == [p[0]] + p[1..];
    } else {
      assert p + rest == rest;
    }
  }

  /** A template with a single `%d` and no other `%` has the number put in
      place of the verb and nothing else changed. */
  lemma {:induction false} FormatSingleNumber(p: string, q: string, n: int)
    requires '%' !in p && '%' !in q
    ensures Format(p + "%d" + q, [D(n)]) == p + IntToString(n) + q
  {
    FormatPlainPrefix(p, "%d" + q, [D(n)]);
    assert p + "%d" + q == p + ("%d" + q);
    var t := "%d" + q;
    assert t[0] == '%' && t[1] == 'd' && t[2..] == q;
    assert Render('d', D(n)) == IntToString(n);
    assert [D(n)][1..] == [];
    assert Format(t, [D(n)]) == IntToString(n) + Format(q, []);
    FormatPlainPrefix(q, "", []);
    assert q + "" == q;
  }

  /** A `%s` verb after plain text takes the first argument as it is. */
  lemma {:induction false} FormatStringArg(p: string, s: string, rest: string, args: seq<Arg>)
    requires '%' !in p
    ensures Format(p + "%s" + rest, [S(s)] + args) == p + s + Format(rest, args)
  {
    FormatPlainPrefix(p, "%s" + rest, [S(s)] + args);
    assert p + "%s" + rest == p + ("%s" + rest);
    var t := "%s" + rest;
    assert t[0] == '%' && t[1] == 's' && t[2..] == rest;
    assert ([S(s)] + args)[1..] == args;
    assert Render('s', S(s)) == s;
  }
}

=== FILE: lexer.dfy ===
/** The Fizz lexer (lexer/lexer.go).

    `GetTokens` walks the input once, left to right, carrying the current
    line number. Layout is dropped, `#` comments run to the end of the line,
    a symbol followed by `=` becomes a two-character token, strings run to
    the next double quote, and a maximal run of `[a-zA-Z_0-9.]` becomes a
    number, a keyword, an identifier, or a dotted chain of those.

    Go's `strconv.ParseFloat` is the parameter `parseFloat`: which runs are
    numerals, and their values, are whatever it says. On an error the Go
    function also hands back the tokens produced so far; callers drop them,
    and so does the model. */
module Lexer {
  import opened Results
  import opened Strs
  import opened Fmt
  import opened Values
  import opened TokenTypes

  datatype Token = Token(kind: int, lexeme: string, literal: Value, line: int)

  const ErrUnexpectedToken := "unexpeted token: '%s', line: %d"
  const ErrUnterminatedString := "unterminated string, line %d"
  const ErrInvalidSyntax := "invalid syntax '%s', line %d"

  type NumberParser = string -> Option<real>

  /** The Go zero value of a token. */
  const ZeroToken := Token(NOT_TOKEN, "", Nil, 0)

  predicate IsLetter(c: char) {
    'a' <= c <= 'z' || 'A' <= c <= 'Z'
  }

  predicate IsDigit(c: char) {
    '0' <= c <= '9'
  }

  /** The character class `[a-zA-Z_0-9.]` of a word run. */
  predicate IsWordChar(c: char) {
    IsLetter(c) || IsDigit(c) || c == '_' || c == '.'
  }

  /** The stop condition of a word run. */
  predicate EndsWord(c: char) {
    !IsWordChar(c)
  }

  /** The pattern `^[a-zA-Z_][a-zA-Z_0-9]*$`. */
  predicate IsIdentifier(w: string) {
    && |w| >= 1
    && (IsLetter(w[0]) || w[0] == '_')
    && forall k :: 1 <= k < |w| ==> IsLetter(w[k]) || IsDigit(w[k]) || w[k] == '_'
  }

  /** The kinds of a token list, in order. */
  function Kinds(ts: seq<Token>): (ks: seq<int>)
    ensures |ks| == |ts|
    ensures forall k :: 0 <= k < |ts| ==> ks[k] == ts[k].kind
  {
    seq(|ts|, k requires 0 <= k < |ts| => ts[k].kind)
  }

  /** `getNextCharacter`: the character after position `i`, or the zero
      character and `eof` when there is none. */
  function NextCharacter(input: string, i: nat): (r: (char, bool))
    ensures r.1 <==> i + 1 >= |input|
    ensures !r.1 ==> r.0 == input[i + 1]
    ensures r.1 ==> r.0 == '\0'
  {
    if i + 1 < |input| then (input[i + 1], false) else ('\0', true)
  }

  /** `seekFunc`: advances from `i` while the next character does not match,
      stopping on the character just before the first match; `eof` when the
      input ends first. */
  function SeekFunc(input: string, i: nat, matches: char -> bool): (r: (nat, bool))
    requires i < |input|
    ensures i <= r.0 < |input|
    ensures forall k :: i < k <= r.0 ==> !matches(input[k])
    ensures !r.1 ==> r.0 + 1 < |input| && matches(input[r.0 + 1])
    ensures r.1 ==> r.0 == |input| - 1
    decreases |input| - i
  {
    var (next, eof) := NextCharacter(input, i);
    if eof then (i, true)
    else if matches(next) then (i, false)
    else SeekFunc(input, i + 1, matches)
  }

  /** `seekCharacter`: lands on the first `target` after position `i`, or one
      past the end with `eof` set. */
  function SeekCharacter(input: string, i: nat, target: char): (r: (nat, bool))
    requires i < |input|
    ensures i < r.0 <= |input|
    ensures forall k :: i < k < r.0 ==> input[k] != target
    ensures !r.1 <==> r.0 < |input|
    ensures r.0 < |input| ==> input[r.0] == target
  {
    var (k, eof) := SeekFunc(input, i, c => c == target);
    (k + 1, eof)
  }

  /** `intervalToString`: the characters from `i` to `j` inclusive. */
  function IntervalToString(input: string, i: nat, j: int): (r: string)
    requires j < |input|
    ensures i <= j ==> r == input[i..j + 1]
    ensures j < i ==> r == ""
    decreases j - i
  {
    if j < i then "" else [input[i]] + IntervalToString(input, i + 1, j)
  }

  /** The kind `doubleTokenLookup` gives a symbol followed by `=`; Go's map
      yields the zero kind for a pair it does not list. */
  function DoubleKind(pair: string): int {
    match DoubleType(pair)
    case Some(k) => k
    case None => NOT_TOKEN
  }

  /** The token for a word run that is a numeral or identifier-shaped. */
  function WordToken(word: string, number: Option<real>, line: int): (t: Token)
    ensures t.lexeme == word && t.line == line
  {
    var kind := if number.Some? then NUMBER else NOT_TOKEN;
    var literal := if number.Some? then Num(number.value) else Nil;
    if !IsIdentifier(word) then Token(kind, word, literal, line)
    else match KeywordType(word)
      case None => Token(IDENTIFIER, word, literal, line)
      case Some(kw) =>
        var keywordLiteral :=
          if kw == FALSE then Bool(false)
          else if kw == TRUE then Bool(true)
          else if kw == NIL then Nil
          else literal;
        Token(kw, word, keywordLiteral, line)
  }

  /** What one pass of the main loop does: the tokens it appends, the
      index it resumes at and the line number it carries on with. */
  datatype Move = Move(next: nat, line: int, tokens: seq<Token>)

  /** Tokenises `input`; lines are counted from 1. */
  function GetTokens(input: string, parseFloat: NumberParser): Result<seq<Token>>
    decreases |input|, 3, 0
  {
    Scan(input, parseFloat, 0, 1, [])
  }

  /** The main loop of `GetTokens` from index `i` on line `line`, with the
      tokens so far in `acc`. */
  function Scan(input: string, parseFloat: NumberParser, i: nat, line: int, acc: seq<Token>): Result<seq<Token>>
    requires i <= |input|
    decreases |input|, 2, |input| - i
  {
    if i == |input| then Ok(acc)
    else
      match Step(input, parseFloat, i, line)
      case Ok(m) => Scan(input, parseFloat, m.next, m.line, acc + m.tokens)
      case Err(e) => Err(e)
      case Crash(r) => Crash(r)
  }

  /** One pass of the loop at index `i`: a table symbol or a word run
      starts there. Every pass consumes at least one character. */
  function Step(input: string, parseFloat: NumberParser, i: nat, line: int): (r: Result<Move>)
    requires i < |input|
    ensures r.Ok? ==> i < r.value.next <= |input|
    decreases |input|, 1, 1
  {
    match SymbolType(input[i])
    case Some(kind) => SymbolStep(input, i, line, kind)
    case None => WordStep(input, parseFloat, i, line)
  }

  /** A pass on a table symbol of kind `kind`: a line break counts a line
      and emits an empty NEWLINE token, layout and comments emit nothing, a
      symbol followed by `=` becomes a two-character token, and a `"` runs
      to the next `"`. */
  function SymbolStep(input: string, i: nat, line: int, kind: int): (r: Result<Move>)
    requires i < |input|
    ensures r.Ok? ==> i < r.value.next <= |input|
  {
    var c := input[i];
    var (next, _) := NextCharacter(input, i);
    if kind == NEWLINE then Ok(Move(i + 1, line + 1, [Token(NEWLINE, "", Nil, 0)]))
    else if kind == WHITESPACE then Ok(Move(i + 1, line, []))
    else if kind == COMMENT then Ok(Move(SeekCharacter(input, i, '\n').0, line, []))
    else
      var double := SymbolType(next) == Some(EQUAL);
      var j := if double then i + 1 else i;
      var kind' := if double then DoubleKind([c, next]) else kind;
      if kind == STRING then StringStep(input, i, j, line, kind')
      else
        var lexeme := if double then [c, next] else [c];
        Ok(Move(j + 1, line, [Token(kind', lexeme, Nil, line)]))
  }

  /** A string opened at `i`; the closing quote is sought after `j`. The
      token's lexeme keeps the quotes and its literal drops them. */
  function StringStep(input: string, i: nat, j: nat, line: int, kind: int): (r: Result<Move>)
    requires i <= j < |input|
    ensures r.Ok? ==> i < r.value.next <= |input|
  {
    var (k, eof) := SeekCharacter(input, j, '"');
    if eof then Err(Formatted(ErrUnterminatedString, [D(line)]))
    else
      var str := IntervalToString(input, i, k);
      Ok(Move(k + 1, line, [Token(kind, str, Str(str[1..|str| - 1]), line)]))
  }

  /** A pass on a character that is not a table symbol: it must start a
      run of `[a-zA-Z_0-9.]`, and the run must be a numeral, have the shape
      of an identifier, or be a dotted chain. */
  function WordStep(input: string, parseFloat: NumberParser, i: nat, line: int): (r: Result<Move>)
    requires i < |input|
    ensures r.Ok? ==> i < r.value.next <= |input|
    decreases |input|, 1, 0
  {
    var c := input[i];
    if !IsWordChar(c) then Err(Formatted(ErrUnexpectedToken, [S([c]), D(line)]))
    else
      var (k, _) := SeekFunc(input, i, EndsWord);
      var word := IntervalToString(input, i, k);
      var number := parseFloat(word);
      var parts := SplitOn(word, '.');
      var isGetter := number.None? && |parts| > 1;
      var invalid := Formatted(ErrInvalidSyntax, [S(word), D(line)]);
      if number.None? && !IsIdentifier(word) && !isGetter then Err(invalid)
      else if isGetter then
        SplitOnFreeContrapositive(word, '.');
        SplitOnPartsShorter(word, '.');
        match LexParts(parts, parseFloat, line, [DotToken], invalid, |input|)
        case Ok(ts) => Ok(Move(k + 1, line, ts[1..]))
        case Err(m) => Err(m)
        case Crash(r) => Crash(r)
      else Ok(Move(k + 1, line, [WordToken(word, number, line)]))
  }

  /** The token list `GetTokens(".")` returns, which the Go code obtains by
      a recursive call (`LexerProps.DotTokens` proves they agree). */
  const DotToken := Token(DOT, ".", Nil, 1)

  /** The tokens of a dotted run: each part is lexed on its own, its first
      token is moved to the run's line, and a DOT token precedes it. */
  function LexParts(parts: seq<string>, parseFloat: NumberParser, line: int, dot: seq<Token>,
                    invalid: Message, bound: nat): (r: Result<seq<Token>>)
    requires forall k :: 0 <= k < |parts| ==> |parts[k]| < bound
    ensures r.Ok? ==> |r.value| >= |parts|
    decreases bound, 0, |parts|
  {
    if |parts| == 0 then Ok([])
    else
      match GetTokens(parts[0], parseFloat)
      case Ok(t) =>
        if |t| == 0 then Err(invalid)
        else
          (match LexParts(parts[1..], parseFloat, line, dot, invalid, bound)
           case Ok(rest) => Ok(dot + [t[0].(line := line)] + t[1..] + rest)
           case Err(m) => Err(m)
           case Crash(r) => Crash(r))
      case Err(m) => Err(m)
      case Crash(r) => Crash(r)
  }

  lemma SplitOnFreeContrapositive(s: string, c: char)
    requires |SplitOn(s, c)| > 1
    ensures c in s
  {
    if c !in s {
      SplitOnFree(s, c);
    }
  }
}

=== FILE: lexer_examples.dfy ===
/** The Fizz lexer on a few concrete inputs (test/lexer_test.go and the
    error paths of lexer/lexer.go). The numeral parser is a parameter, so
    each example states which runs it must reject. */
module LexerExamples {
  import opened Results
  import opened Strs
  import opened Fmt
  import opened Values
  import opened TokenTypes
  import opened Lexer
  import opened LexerProps
  import opened LexerShapes

  /** The scan resumes where a successful pass leaves off. */
  lemma ScanPass(input: string, parseFloat: NumberParser, i: nat, line: int, acc: seq<Token>, m: Move)
    requires i < |input| && Step(input, parseFloat, i, line) == Ok(m)
    ensures m.next <= |input|
    ensures Scan(input, parseFloat, i, line, acc) == Scan(input, parseFloat, m.next, m.line, acc + m.tokens)
  {
  }

  lemma ScanEnd(input: string, parseFloat: NumberParser, line: int, acc: seq<Token>)
    ensures Scan(input, parseFloat, |input|, line, acc) == Ok(acc)
  {
  }

  const JohnInput := "var name = \"John\";"

  /** The tokens of `JohnInput`, in order. */
  const JohnTokenList := [
    Token(VAR, "var", Nil, 1), Token(IDENTIFIER, "name", Nil, 1), Token(EQUAL, "=", Nil, 1),
    Token(STRING, "\"John\"", Str("John"), 1), Token(SEMICOLON, ";", Nil, 1)]

  /** `var name = "John";` lexes to five tokens, the fourth of which is the
      string `John`. */
  lemma JohnTokens(parseFloat: NumberParser)
    requires parseFloat("var") == None && parseFloat("name") == None
    ensures GetTokens(JohnInput, parseFloat) == Ok(JohnTokenList)
    ensures var ts := GetTokens(JohnInput, parseFloat).value;
            |ts| == 5 && ts[3].kind == STRING && ts[3].literal == Str("John")
  {
    JohnSteps(parseFloat);
    JohnScanHead(parseFloat);
    JohnScanTail(parseFloat);
    GetTokensStarts(JohnInput, parseFloat);
  }

  lemma JohnScanHead(parseFloat: NumberParser)
    requires parseFloat("var") == None && parseFloat("name") == None
    ensures Scan(JohnInput, parseFloat, 0, 1, []) == Scan(JohnInput, parseFloat, 9, 1, JohnTokenList[..2])
  {
    var s := JohnInput;
    var t0 := Token(VAR, "var", Nil, 1);
    var t1 := Token(IDENTIFIER, "name", Nil, 1);
    assert JohnTokenList[..2] == [t0, t1];
    JohnSteps(parseFloat);
    JohnQuotes();
    hide *;
    ScanPass(s, parseFloat, 0, 1, [], Move(3, 1, [t0]));
    ScanPass(s, parseFloat, 3, 1, [t0], Move(4, 1, []));
    ScanPass(s, parseFloat, 4, 1, [t0], Move(8, 1, [t1]));
    ScanPass(s, parseFloat, 8, 1, [t0, t1], Move(9, 1, []));
    assert [] + [t0] == [t0] && [t0] + [] == [t0] && [t0] + [t1] == [t0, t1] && [t0, t1] + [] == [t0, t1];
  }

  lemma JohnScanTail(parseFloat: NumberParser)
    ensures Scan(JohnInput, parseFloat, 9, 1, JohnTokenList[..2]) == Ok(JohnTokenList)
  {
    var s := JohnInput;
    var t0 := Token(VAR, "var", Nil, 1);
    var t1 := Token(IDENTIFIER, "name", Nil, 1);
    var t2 := Token(EQUAL, "=", Nil, 1);
    var t3 := Token(STRING, "\"John\"", Str("John"), 1);
    var t4 := Token(SEMICOLON, ";", Nil, 1);
    assert JohnTokenList[..2] == [t0, t1] && JohnTokenList == [t0, t1, t2, t3, t4];
    JohnLayout(parseFloat, 10);
    JohnSymbols(parseFloat);
    JohnString(parseFloat);
    JohnQuotes();
    hide *;
    ScanPass(s, parseFloat, 9, 1, [t0, t1], Move(10, 1, [t2]));
    ScanPass(s, parseFloat, 10, 1, [t0, t1, t2], Move(11, 1, []));
    ScanPass(s, parseFloat, 11, 1, [t0, t1, t2], Move(17, 1, [t3]));
    ScanPass(s, parseFloat, 17, 1, [t0, t1, t2, t3], Move(18, 1, [t4]));
    ScanEnd(s, parseFloat, 1, [t0, t1, t2, t3, t4]);
    assert [t0, t1] + [t2] == [t0, t1, t2] && [t0, t1, t2] + [] == [t0, t1, t2];
    assert [t0, t1, t2] + [t3] == [t0, t1, t2, t3] && [t0, t1, t2, t3] + [t4] == [t0, t1, t2, t3, t4];
  }

  lemma GetTokensStarts(input: string, parseFloat: NumberParser)
    ensures GetTokens(input, parseFloat) == Scan(input, parseFloat, 0, 1, [])
  {
  }

  /** The eight passes over `var name = "John";`. */
  lemma JohnSteps(parseFloat: NumberParser)
    requires parseFloat("var") == None && parseFloat("name") == None
    ensures var s := JohnInput;
            && Step(s, parseFloat, 0, 1) == Ok(Move(3, 1, [Token(VAR, "var", Nil, 1)]))
            && Step(s, parseFloat, 3, 1) == Ok(Move(4, 1, []))
            && Step(s, parseFloat, 4, 1) == Ok(Move(8, 1, [Token(IDENTIFIER, "name", Nil, 1)]))
            && Step(s, parseFloat, 8, 1) == Ok(Move(9, 1, []))
            && Step(s, parseFloat, 9, 1) == Ok(Move(10, 1, [Token(EQUAL, "=", Nil, 1)]))
            && Step(s, parseFloat, 10, 1) == Ok(Move(11, 1, []))
            && Step(s, parseFloat, 11, 1) == Ok(Move(17, 1, [Token(STRING, "\"John\"", Str("John"), 1)]))
            && Step(s, parseFloat, 17, 1) == Ok(Move(18, 1, [Token(SEMICOLON, ";", Nil, 1)]))
  {
    JohnVar(parseFloat);
    JohnName(parseFloat);
    JohnLayout(parseFloat, 3);
    JohnLayout(parseFloat, 8);
    JohnLayout(parseFloat, 10);
    JohnSymbols(parseFloat);
    JohnString(parseFloat);
  }

  lemma JohnVar(parseFloat: NumberParser)
    requires parseFloat("var") == None
    ensures Step(JohnInput, parseFloat, 0, 1) == Ok(Move(3, 1, [Token(VAR, "var", Nil, 1)]))
  {
    JohnRuns();
    JohnWordTokens();
    hide *;
    WordPass(JohnInput, parseFloat, 0, 2, 1);
  }

  lemma JohnName(parseFloat: NumberParser)
    requires parseFloat("name") == None
    ensures Step(JohnInput, parseFloat, 4, 1) == Ok(Move(8, 1, [Token(IDENTIFIER, "name", Nil, 1)]))
  {
    JohnRuns();
    JohnWordTokens();
    hide *;
    WordPass(JohnInput, parseFloat, 4, 7, 1);
  }

  /** The two word runs of the example and what they are. */
  lemma JohnRuns()
    ensures var s := JohnInput;
            && RunEndsAt(s, 0, 2) && SymbolType(s[0]).None? && s[0..3] == "var"
            && RunEndsAt(s, 4, 7) && SymbolType(s[4]).None? && s[4..8] == "name"
            && '.' !in "var" && IsIdentifier("var") && '.' !in "name" && IsIdentifier("name")
  {
    JohnVarRun();
    JohnNameRun();
  }

  lemma JohnVarRun()
    ensures RunEndsAt(JohnInput, 0, 2) && SymbolType(JohnInput[0]).None? && JohnInput[0..3] == "var"
    ensures '.' !in "var" && IsIdentifier("var")
  {
    var s := JohnInput;
    assert s[0] == 'v' && s[1] == 'a' && s[2] == 'r' && s[3] == ' ';
  }

  lemma JohnNameRun()
    ensures RunEndsAt(JohnInput, 4, 7) && SymbolType(JohnInput[4]).None? && JohnInput[4..8] == "name"
    ensures '.' !in "name" && IsIdentifier("name")
  {
    var s := JohnInput;
    assert s[4] == 'n' && s[5] == 'a' && s[6] == 'm' && s[7] == 'e' && s[8] == ' ';
  }

  lemma JohnWordTokens()
    ensures WordToken("var", None, 1) == Token(VAR, "var", Nil, 1)
    ensures WordToken("name", None, 1) == Token(IDENTIFIER, "name", Nil, 1)
  {
    VarKeyword();
    NameNotKeyword();
  }

  lemma VarKeyword()
    ensures KeywordType("var") == Some(VAR) && IsIdentifier("var")
  {
    LookupFirst(KeywordTable, "var", 9);
  }

  lemma NameNotKeyword()
    ensures KeywordType("name") == None && IsIdentifier("name")
  {
  }

  lemma JohnLayout(parseFloat: NumberParser, i: nat)
    requires i == 3 || i == 8 || i == 10
    ensures Step(JohnInput, parseFloat, i, 1) == Ok(Move(i + 1, 1, []))
  {
    LayoutPass(JohnInput, parseFloat, i, 1);
  }

  lemma JohnSymbols(parseFloat: NumberParser)
    ensures Step(JohnInput, parseFloat, 9, 1) == Ok(Move(10, 1, [Token(EQUAL, "=", Nil, 1)]))
    ensures Step(JohnInput, parseFloat, 17, 1) == Ok(Move(18, 1, [Token(SEMICOLON, ";", Nil, 1)]))
  {
    var s := JohnInput;
    SinglePass(s, parseFloat, 9, 1, EQUAL);
    SinglePass(s, parseFloat, 17, 1, SEMICOLON);
  }

  lemma JohnString(parseFloat: NumberParser)
    ensures Step(JohnInput, parseFloat, 11, 1) == Ok(Move(17, 1, [Token(STRING, "\"John\"", Str("John"), 1)]))
  {
    JohnQuotes();
    hide *;
    StringPass(JohnInput, parseFloat, 11, 16, 1);
  }

  /** The quoted text of the example. */
  lemma JohnQuotes()
    ensures var s := JohnInput;
            && |s| == 18 && s[11] == '"' && s[16] == '"' && s[12] != '='
            && (forall m :: 11 < m < 16 ==> s[m] != '"')
            && s[11..17] == "\"John\"" && s[12..16] == "John"
  {
  }

  /** A string that is never closed is an error reporting the line. */
  lemma UnterminatedExample(parseFloat: NumberParser)
    ensures GetTokens("\"abc", parseFloat) == Err(Formatted(ErrUnterminatedString, [D(1)]))
    ensures Text(GetTokens("\"abc", parseFloat).error) == "unterminated string, line 1"
  {
    UnterminatedPass("\"abc", parseFloat, 0, 1);
    UnterminatedText();
  }

  lemma UnterminatedText()
    ensures Text(Formatted(ErrUnterminatedString, [D(1)])) == "unterminated string, line 1"
  {
    var p := "unterminated string, line ";
    UnterminatedTemplate();
    FormatSingleNumber(p, "", 1);
    assert IntToString(1) == "1";
  }

  lemma UnterminatedTemplate()
    ensures ErrUnterminatedString == "unterminated string, line " + "%d" + ""
    ensures '%' !in "unterminated string, line "
  {
  }

  /** A character outside the symbol table and the word class is an
      error naming it. */
  lemma UnexpectedExample(parseFloat: NumberParser)
    ensures GetTokens("$", parseFloat) == Err(Formatted(ErrUnexpectedToken, [S("$"), D(1)]))
  {
    UnexpectedPass("$", parseFloat, 0, 1);
  }
}

=== FILE: lexer_props.dfy ===
/** What the Fizz lexer's token list says about its input.

    The main fact is that the lexer loses and invents no visible text: the
    lexemes of the tokens, concatenated, spell out the input with layout and
    comments removed (`Visible`, defined independently of the scanner). The
    others describe the shape of every token produced, and pin down a few
    inputs exactly. */
module LexerProps {
  import opened Results
  import opened Strs
  import opened Fmt
  import opened Values
  import opened TokenTypes
  import opened Lexer

  /** The lexemes of a token list, concatenated. */
  function Lexemes(ts: seq<Token>): string
    decreases |ts|
  {
    if |ts| == 0 then "" else ts[0].lexeme + Lexemes(ts[1..])
  }

  lemma {:induction false} LexemesAppend(a: seq<Token>, b: seq<Token>)
    ensures Lexemes(a + b) == Lexemes(a) + Lexemes(b)
    decreases |a|
  {
    if |a| == 0 {
      assert a + b == b;
    } else {
      assert (a + b)[1..] == a[1..] + b;
      LexemesAppend(a[1..], b);
    }
  }

  /** Position of the first `c` in `s`, or `|s|`. */
  function Find(s: string, c: char): (k: nat)
    ensures k <= |s|
    decreases |s|
  {
    if |s| == 0 || s[0] == c then 0 else 1 + Find(s[1..], c)
  }

  /** `Find` lands on a `c` or the end, and skips no `c`. */
  lemma {:induction false} FindFirst(s: string, c: char)
    ensures Find(s, c) < |s| ==> s[Find(s, c)] == c
    ensures forall j :: 0 <= j < Find(s, c) ==> s[j] != c
    decreases |s|
  {
    if |s| > 0 && s[0] != c {
      FindFirst(s[1..], c);
    }
  }

  predicate IsLayout(c: char) {
    c == ' ' || c == '\t' || c == '\r' || c == '\n'
  }

  /** The text a reader sees in a Fizz source: layout characters and `#`
      comments (up to the line break) are dropped, a quoted string is kept
      verbatim with its quotes, and everything else is kept. */
  function Visible(s: string): string
    decreases |s|
  {
    if |s| == 0 then ""
    else if IsLayout(s[0]) then Visible(s[1..])
    else if s[0] == '#' then Visible(s[Find(s, '\n')..])
    else if s[0] == '"' then
      var q := 1 + Find(s[1..], '"');
      if q < |s| then s[..q + 1] + Visible(s[q + 1..]) else [s[0]] + Visible(s[1..])
    else [s[0]] + Visible(s[1..])
  }

  /** A character `Visible` keeps as it stands. */
  predicate IsVisibleChar(c: char) {
    !IsLayout(c) && c != '#' && c != '"'
  }

  /** A run of such characters is visible text in full. */
  lemma {:induction false} VisibleRun(w: string, rest: string)
    requires forall k :: 0 <= k < |w| ==> IsVisibleChar(w[k])
    ensures Visible(w + rest) == w + Visible(rest)
    decreases |w|
  {
    if |w| == 0 {
      assert w + rest == rest;
    } else {
      var s := w + rest;
      assert s[0] == w[0] && s[1..] == w[1..] + rest;
      VisibleRun(w[1..], rest);
      assert w == [w[0]] + w[1..];
    }
  }

  /** `GetTokens(".")`, which the Go code calls for every dotted run, is the
      one token `DotToken` and never an error. */
  lemma DotTokens(parseFloat: NumberParser)
    ensures GetTokens(".", parseFloat) == Ok([DotToken])
  {
    assert NextCharacter(".", 0) == ('\0', true);
    assert SymbolType('.') == Some(DOT);
    assert SymbolType('\0') == None;
    assert Step(".", parseFloat, 0, 1) == Ok(Move(1, 1, [DotToken]));
    assert [] + [DotToken] == [DotToken];
  }

  // ---------------------------------------------------------------------
  // The lexemes spell the visible text
  //
  // Each pass of the loop emits tokens whose lexemes spell the visible text
  // between the index it starts at and the index it resumes at
  // (`MoveSpells`); the scan chains the passes.

  /** Two descriptions of the first `c` in `s` pick the same index. */
  lemma FirstIndexUnique(s: string, c: char, a: nat, b: nat)
    requires a <= |s| && b <= |s|
    requires a < |s| ==> s[a] == c
    requires b < |s| ==> s[b] == c
    requires forall j :: 0 <= j < a ==> s[j] != c
    requires forall j :: 0 <= j < b ==> s[j] != c
    ensures a == b
  {
  }

  /** The scan from `i` spells the visible text from `i` after `acc`. */
  predicate SpellsFrom(input: string, parseFloat: NumberParser, i: nat, line: int, acc: seq<Token>)
    requires i <= |input|
  {
    Scan(input, parseFloat, i, line, acc).Ok? ==>
      Lexemes(Scan(input, parseFloat, i, line, acc).value) == Lexemes(acc) + Visible(input[i..])
  }

  /** A pass from `i` moves forward, and its tokens spell the visible text
      it passes over. */
  predicate MoveSpells(input: string, i: nat, m: Move) {
    i < m.next <= |input| && Lexemes(m.tokens) + Visible(input[m.next..]) == Visible(input[i..])
  }

  /** On success the lexemes, concatenated, spell exactly the input without
      its layout and comments. */
  lemma {:induction false} GetTokensSpells(input: string, parseFloat: NumberParser)
    ensures GetTokens(input, parseFloat).Ok? ==> Lexemes(GetTokens(input, parseFloat).value) == Visible(input)
    decreases |input|, 3, 0
  {
    ScanSpells(input, parseFloat, 0, 1, []);
    assert input[0..] == input;
  }

  lemma {:induction false} ScanSpells(input: string, parseFloat: NumberParser, i: nat, line: int, acc: seq<Token>)
    requires i <= |input|
    ensures SpellsFrom(input, parseFloat, i, line, acc)
    decreases |input|, 2, |input| - i
  {
    if i < |input| {
      hide Step, Visible, Lexemes;
      StepSpells(input, parseFloat, i, line);
      var r := Step(input, parseFloat, i, line);
      if r.Ok? {
        var m := r.value;
        ScanSpells(input, parseFloat, m.next, m.line, acc + m.tokens);
        LexemesAppend(acc, m.tokens);
      }
    }
  }

  lemma {:induction false} StepSpells(input: string, parseFloat: NumberParser, i: nat, line: int)
    requires i < |input|
    ensures Step(input, parseFloat, i, line).Ok? ==> MoveSpells(input, i, Step(input, parseFloat, i, line).value)
    decreases |input|, 1, 1
  {
    match SymbolType(input[i])
    case Some(kind) => SymbolSpells(input, i, line, kind);
    case None => WordSpells(input, parseFloat, i, line);
  }

  // --- passes on a table symbol

  lemma SymbolSpells(input: string, i: nat, line: int, kind: int)
    requires i < |input| && SymbolType(input[i]) == Some(kind)
    ensures SymbolStep(input, i, line, kind).Ok? ==> MoveSpells(input, i, SymbolStep(input, i, line, kind).value)
  {
    SymbolClasses(input[i]);
    if kind == NEWLINE || kind == WHITESPACE {
      LayoutSpells(input, i);
      assert Lexemes([Token(NEWLINE, "", Nil, 0)]) == "";
    } else if kind == COMMENT {
      CommentSpells(input, i);
    } else if kind == STRING {
      StringSpells(input, i, line);
    } else {
      PlainSpells(input, i, line, kind);
    }
  }

  /** A layout character is dropped from the visible text. */
  lemma LayoutSpells(input: string, i: nat)
    requires i < |input| && IsLayout(input[i])
    ensures Visible(input[i..]) == Visible(input[i + 1..])
    ensures Lexemes([]) == ""
  {
    assert input[i..][1..] == input[i + 1..];
  }

  /** A comment is dropped from the visible text up to its line break. */
  lemma CommentSpells(input: string, i: nat)
    requires i < |input| && input[i] == '#'
    ensures Visible(input[i..]) == Visible(input[SeekCharacter(input, i, '\n').0..])
    ensures Lexemes([]) == ""
  {
    var s := input[i..];
    var k := SeekCharacter(input, i, '\n').0;
    forall j | 0 <= j < k - i
      ensures s[j] != '\n'
    {
      assert s[j] == input[i + j];
    }
    if k < |input| {
      assert s[k - i] == input[k];
    }
    FindFirst(s, '\n');
    FirstIndexUnique(s, '\n', Find(s, '\n'), k - i);
    assert s[k - i..] == input[k..];
  }

  /** A one- or two-character symbol token spells itself. */
  lemma PlainSpells(input: string, i: nat, line: int, kind: int)
    requires i < |input| && SymbolType(input[i]) == Some(kind)
    requires kind !in {NEWLINE, WHITESPACE, COMMENT, STRING}
    ensures SymbolStep(input, i, line, kind).Ok?
    ensures MoveSpells(input, i, SymbolStep(input, i, line, kind).value)
  {
    hide *;
    var j := PlainMove(input, i, line, kind);
    var m := SymbolStep(input, i, line, kind).value;
    OneLexeme(m.tokens);
    VisibleSpan(input, i, j);
    SpanMove(input, i, m);
  }

  /** Such a symbol, with a following `=` when there is one, is one token
      spelling those characters. */
  lemma PlainMove(input: string, i: nat, line: int, kind: int) returns (j: nat)
    requires i < |input| && SymbolType(input[i]) == Some(kind)
    requires kind !in {NEWLINE, WHITESPACE, COMMENT, STRING}
    ensures i <= j < |input|
    ensures forall m :: i <= m <= j ==> IsVisibleChar(input[m])
    ensures SymbolStep(input, i, line, kind).Ok?
    ensures SymbolStep(input, i, line, kind).value.next == j + 1
    ensures var ts := SymbolStep(input, i, line, kind).value.tokens; |ts| == 1 && ts[0].lexeme == input[i..j + 1]
  {
    var c := input[i];
    SymbolClasses(c);
    var (next, _) := NextCharacter(input, i);
    var double := SymbolType(next) == Some(EQUAL);
    j := if double then i + 1 else i;
    if double {
      SymbolClasses(next);
    }
  }

  /** A closed string's token spells it with its quotes. */
  lemma StringSpells(input: string, i: nat, line: int)
    requires i < |input| && input[i] == '"'
    ensures SymbolStep(input, i, line, STRING).Ok? ==> MoveSpells(input, i, SymbolStep(input, i, line, STRING).value)
  {
    var j, kind := StringOpen(input, i, line);
    StringClosedSpells(input, i, j, line, kind);
  }

  /** Where the search for the closing quote starts, and the token kind: a
      `"=` pair is looked up as a two-character symbol. */
  lemma StringOpen(input: string, i: nat, line: int) returns (j: nat, kind: int)
    requires i < |input| && input[i] == '"'
    ensures i <= j < |input| && (j == i || (j == i + 1 && input[j] == '='))
    ensures kind == if j == i then STRING else DoubleKind(['"', '='])
    ensures SymbolStep(input, i, line, STRING) == StringStep(input, i, j, line, kind)
  {
    var (next, _) := NextCharacter(input, i);
    var double := SymbolType(next) == Some(EQUAL);
    j := if double then i + 1 else i;
    kind := if double then DoubleKind(['"', next]) else STRING;
    if double {
      SymbolClasses(next);
    }
  }

  lemma StringClosedSpells(input: string, i: nat, j: nat, line: int, kind: int)
    requires i <= j < |input| && input[i] == '"'
    requires j == i || (j == i + 1 && input[j] == '=')
    ensures StringStep(input, i, j, line, kind).Ok? ==> MoveSpells(input, i, StringStep(input, i, j, line, kind).value)
  {
    hide *;
    var r := StringStep(input, i, j, line, kind);
    if r.Ok? {
      var k := StringClose(input, i, j, line, kind);
      VisibleString(input, i, k);
      SpanMove(input, i, r.value);
    }
  }

  /** A closed string pass ends on the first `"` after the opening one and
      its single token spells the quoted text. */
  lemma StringClose(input: string, i: nat, j: nat, line: int, kind: int) returns (k: nat)
    requires i <= j < |input| && input[i] == '"'
    requires j == i || (j == i + 1 && input[j] == '=')
    requires StringStep(input, i, j, line, kind).Ok?
    ensures i < k < |input| && input[k] == '"'
    ensures forall m :: i < m < k ==> input[m] != '"'
    ensures StringStep(input, i, j, line, kind).value.next == k + 1
    ensures Lexemes(StringStep(input, i, j, line, kind).value.tokens) == input[i..k + 1]
  {
    k := SeekCharacter(input, j, '"').0;
    var t := StringStep(input, i, j, line, kind).value.tokens;
    assert |t| == 1 && t[0].lexeme == input[i..k + 1];
    assert Lexemes(t) == t[0].lexeme + Lexemes(t[1..]);
  }

  /** A pass whose tokens spell exactly the visible text it consumed. */
  lemma SpanMove(input: string, i: nat, m: Move)
    requires i < m.next <= |input|
    requires Lexemes(m.tokens) == input[i..m.next]
    requires Visible(input[i..]) == input[i..m.next] + Visible(input[m.next..])
    ensures MoveSpells(input, i, m)
  {
  }

  /** A span of characters `Visible` keeps is visible text in full. */
  lemma VisibleSpan(input: string, i: nat, j: nat)
    requires i <= j < |input|
    requires forall m :: i <= m <= j ==> IsVisibleChar(input[m])
    ensures Visible(input[i..]) == input[i..j + 1] + Visible(input[j + 1..])
  {
    var w := input[i..j + 1];
    forall m | 0 <= m < |w|
      ensures IsVisibleChar(w[m])
    {
      assert w[m] == input[i + m];
    }
    VisibleRun(w, input[j + 1..]);
    assert input[i..] == w + input[j + 1..];
  }

  /** A quoted string is visible text as it stands, quotes included. */
  lemma VisibleString(input: string, i: nat, k: nat)
    requires i < k < |input| && input[i] == '"' && input[k] == '"'
    requires forall m :: i < m < k ==> input[m] != '"'
    ensures Visible(input[i..]) == input[i..k + 1] + Visible(input[k + 1..])
  {
    hide *;
    var s := input[i..];
    ClosingQuote(input, i, k);
    assert s[1..] == input[i + 1..];
    VisibleQuote(s, k - i);
    assert s[..k - i + 1] == input[i..k + 1];
    assert s[k - i + 1..] == input[k + 1..];
  }

  /** A quote in `s` closed at `q` is kept whole. */
  lemma VisibleQuote(s: string, q: nat)
    requires 0 < q < |s| && s[0] == '"'
    requires Find(s[1..], '"') == q - 1
    ensures Visible(s) == s[..q + 1] + Visible(s[q + 1..])
  {
    assert !IsLayout(s[0]) && s[0] != '#';
    var q' := 1 + Find(s[1..], '"');
    assert q' == q;
    assert Visible(s) == s[..q' + 1] + Visible(s[q' + 1..]);
  }

  /** The first `"` after an opening one at `i` is the one at `k`. */
  lemma ClosingQuote(input: string, i: nat, k: nat)
    requires i < k < |input| && input[k] == '"'
    requires forall m :: i < m < k ==> input[m] != '"'
    ensures Find(input[i + 1..], '"') == k - i - 1
  {
    var s1 := input[i + 1..];
    forall m | 0 <= m < k - i - 1
      ensures s1[m] != '"'
    {
      assert s1[m] == input[i + 1 + m];
    }
    FindFirst(s1, '"');
    FirstIndexUnique(s1, '"', Find(s1, '"'), k - i - 1);
  }

  // --- passes on a word run

  lemma {:induction false} WordSpells(input: string, parseFloat: NumberParser, i: nat, line: int)
    requires i < |input| && SymbolType(input[i]).None?
    ensures WordStep(input, parseFloat, i, line).Ok? ==> MoveSpells(input, i, WordStep(input, parseFloat, i, line).value)
    decreases |input|, 1, 0
  {
    if WordStep(input, parseFloat, i, line).Ok? {
      WordStart(input, parseFloat, i, line);
      var k := WordRun(input, i);
      var word := input[i..k + 1];
      if parseFloat(word).None? && |SplitOn(word, '.')| > 1 {
        var ts := GetterParts(input, parseFloat, i, line, k);
        GetterLexemes(word, parseFloat, line, Formatted(ErrInvalidSyntax, [S(word), D(line)]), |input|, ts);
        DottedSpells(input, parseFloat, i, line, k, ts);
      } else {
        SingleSpells(input, parseFloat, i, line, k);
      }
    }
  }

  /** A pass that succeeds on a non-symbol starts a word run. */
  lemma WordStart(input: string, parseFloat: NumberParser, i: nat, line: int)
    requires i < |input| && WordStep(input, parseFloat, i, line).Ok?
    ensures IsWordChar(input[i])
  {
  }

  /** The facts `WordRun` establishes about the run `input[i..k+1]`. */
  predicate WordRunAt(input: string, i: nat, k: nat) {
    && i <= k < |input|
    && SymbolType(input[i]).None? && IsWordChar(input[i])
    && k == SeekFunc(input, i, EndsWord).0
    && IntervalToString(input, i, k) == input[i..k + 1]
    && WordChars(input[i..k + 1])
    && Visible(input[i..]) == input[i..k + 1] + Visible(input[k + 1..])
  }

  /** The word run starting at `i` ends at `k`, and is visible text. */
  lemma WordRun(input: string, i: nat) returns (k: nat)
    requires i < |input| && SymbolType(input[i]).None? && IsWordChar(input[i])
    ensures WordRunAt(input, i, k)
  {
    k := SeekFunc(input, i, EndsWord).0;
    var word := input[i..k + 1];
    forall m | 0 <= m < |word|
      ensures IsWordChar(word[m])
    {
      assert word[m] == input[i + m];
      if m > 0 {
        assert !EndsWord(input[i + m]);
      }
    }
    assert input[i..] == word + input[k + 1..];
    VisibleRun(word, input[k + 1..]);
  }

  /** A numeral or identifier-shaped run is one token spelling the run. */
  lemma SingleSpells(input: string, parseFloat: NumberParser, i: nat, line: int, k: nat)
    requires WordRunAt(input, i, k) && WordStep(input, parseFloat, i, line).Ok?
    requires var w := input[i..k + 1]; !(parseFloat(w).None? && |SplitOn(w, '.')| > 1)
    ensures MoveSpells(input, i, WordStep(input, parseFloat, i, line).value)
  {
    hide *;
    SingleMove(input, parseFloat, i, line, k);
    WordRunVisible(input, i, k);
    var m := WordStep(input, parseFloat, i, line).value;
    OneLexeme(m.tokens);
    SpanMove(input, i, m);
  }

  lemma WordRunVisible(input: string, i: nat, k: nat)
    requires WordRunAt(input, i, k)
    ensures i <= k < |input|
    ensures Visible(input[i..]) == input[i..k + 1] + Visible(input[k + 1..])
  {
  }

  /** Such a run is one token whose lexeme is the run. */
  lemma SingleMove(input: string, parseFloat: NumberParser, i: nat, line: int, k: nat)
    requires WordRunAt(input, i, k) && WordStep(input, parseFloat, i, line).Ok?
    requires var w := input[i..k + 1]; !(parseFloat(w).None? && |SplitOn(w, '.')| > 1)
    ensures WordStep(input, parseFloat, i, line).value
              == Move(k + 1, line, [WordToken(input[i..k + 1], parseFloat(input[i..k + 1]), line)])
    ensures var ts := WordStep(input, parseFloat, i, line).value.tokens; |ts| == 1 && ts[0].lexeme == input[i..k + 1]
  {
  }

  lemma OneLexeme(ts: seq<Token>)
    requires |ts| == 1
    ensures Lexemes(ts) == ts[0].lexeme
  {
  }

  /** A successful dotted run: its parts lex to `ts`, and the pass emits
      `ts` without its leading DOT token. */
  lemma GetterParts(input: string, parseFloat: NumberParser, i: nat, line: int, k: nat) returns (ts: seq<Token>)
    requires WordRunAt(input, i, k) && WordStep(input, parseFloat, i, line).Ok?
    requires var w := input[i..k + 1]; parseFloat(w).None? && |SplitOn(w, '.')| > 1
    ensures SplitOnPartsShortEnough(input[i..k + 1], |input|)
    ensures LexParts(SplitOn(input[i..k + 1], '.'), parseFloat, line, [DotToken],
                     Formatted(ErrInvalidSyntax, [S(input[i..k + 1]), D(line)]), |input|) == Ok(ts)
    ensures |ts| >= 1 && WordStep(input, parseFloat, i, line).value == Move(k + 1, line, ts[1..])
  {
    var word := input[i..k + 1];
    SplitOnFreeContrapositive(word, '.');
    SplitOnPartsShorter(word, '.');
    ts := LexParts(SplitOn(word, '.'), parseFloat, line, [DotToken], Formatted(ErrInvalidSyntax, [S(word), D(line)]), |input|).value;
  }

  /** A dotted run whose tokens spell it is a pass that spells it. */
  lemma DottedSpells(input: string, parseFloat: NumberParser, i: nat, line: int, k: nat, ts: seq<Token>)
    requires WordRunAt(input, i, k) && WordStep(input, parseFloat, i, line).Ok?
    requires |ts| >= 1 && WordStep(input, parseFloat, i, line).value == Move(k + 1, line, ts[1..])
    requires Lexemes(ts[1..]) == input[i..k + 1]
    ensures MoveSpells(input, i, WordStep(input, parseFloat, i, line).value)
  {
  }

  /** The characters of a word run. */
  predicate WordChars(w: string) {
    forall m :: 0 <= m < |w| ==> IsWordChar(w[m])
  }

  /** The tokens of a dotted run, less the leading dot, spell the run. */
  lemma {:induction false} GetterLexemes(word: string, parseFloat: NumberParser, line: int, invalid: Message, bound: nat,
                                         ts: seq<Token>)
    requires WordChars(word) && SplitOnPartsShortEnough(word, bound)
    requires LexParts(SplitOn(word, '.'), parseFloat, line, [DotToken], invalid, bound) == Ok(ts)
    ensures |ts| >= 1 && Lexemes(ts[1..]) == word
    decreases bound, 1, 0, 0
  {
    var parts := SplitOn(word, '.');
    SplitOnPartsChars(word, '.');
    forall p, m | 0 <= p < |parts| && 0 <= m < |parts[p]|
      ensures IsWordChar(parts[p][m])
    {
      var ch := parts[p][m];
      assert ch in word;
      var x :| 0 <= x < |word| && word[x] == ch;
    }
    LexPartsSpells(parts, parseFloat, line, invalid, bound);
    var rest := Lexemes(ts[1..]);
    assert Lexemes(ts) == "." + rest;
    assert "." + rest == "." + Join(parts, ".");
    assert ("." + rest)[1..] == rest;
    assert ("." + Join(parts, "."))[1..] == Join(parts, ".");
    JoinSplit(word, '.');
  }

  predicate SplitOnPartsShortEnough(word: string, bound: nat) {
    forall p :: 0 <= p < |SplitOn(word, '.')| ==> |SplitOn(word, '.')[p]| < bound
  }

  /** One step of `LexParts` that succeeded: the first part lexed to a
      non-empty list `t`, the remaining parts succeeded too, and the result is
      their concatenation behind a DOT token. */
  lemma LexPartsStep(parts: seq<string>, parseFloat: NumberParser, line: int, invalid: Message, bound: nat)
    returns (t: seq<Token>, rest: seq<Token>)
    requires forall k :: 0 <= k < |parts| ==> |parts[k]| < bound
    requires |parts| > 0 && LexParts(parts, parseFloat, line, [DotToken], invalid, bound).Ok?
    ensures GetTokens(parts[0], parseFloat) == Ok(t) && |t| > 0
    ensures LexParts(parts[1..], parseFloat, line, [DotToken], invalid, bound) == Ok(rest)
    ensures |parts| == 1 ==> rest == []
    ensures LexParts(parts, parseFloat, line, [DotToken], invalid, bound).value
              == [DotToken] + ([t[0].(line := line)] + t[1..] + rest)
  {
    t := GetTokens(parts[0], parseFloat).value;
    rest := LexParts(parts[1..], parseFloat, line, [DotToken], invalid, bound).value;
  }

  /** The claim of `LexPartsSpells`, as a predicate. */
  predicate PartsSpelled(parts: seq<string>, parseFloat: NumberParser, line: int, invalid: Message, bound: nat)
    requires forall k :: 0 <= k < |parts| ==> |parts[k]| < bound
  {
    var r := LexParts(parts, parseFloat, line, [DotToken], invalid, bound);
    r.Ok? && |parts| > 0 ==> r.value[0] == DotToken && Lexemes(r.value) == "." + Join(parts, ".")
  }

  lemma {:induction false} LexPartsSpells(parts: seq<string>, parseFloat: NumberParser, line: int,
                                          invalid: Message, bound: nat)
    requires forall k :: 0 <= k < |parts| ==> |parts[k]| < bound
    requires forall k, m :: 0 <= k < |parts| && 0 <= m < |parts[k]| ==> IsWordChar(parts[k][m])
    ensures PartsSpelled(parts, parseFloat, line, invalid, bound)
    decreases bound, 0, |parts|, 0
  {
    if |parts| > 0 {
      GetTokensSpells(parts[0], parseFloat);
      VisibleRun(parts[0], "");
      assert parts[0] + "" == parts[0];
      LexPartsSpells(parts[1..], parseFloat, line, invalid, bound);
      LexPartsCons(parts, parseFloat, line, invalid, bound);
    }
  }

  /** `PartsSpelled` carries over from the tail to the whole list when the
      first part's tokens spell it. */
  lemma LexPartsCons(parts: seq<string>, parseFloat: NumberParser, line: int, invalid: Message, bound: nat)
    requires forall k :: 0 <= k < |parts| ==> |parts[k]| < bound
    requires |parts| > 0
    requires GetTokens(parts[0], parseFloat).Ok? ==> Lexemes(GetTokens(parts[0], parseFloat).value) == parts[0]
    requires PartsSpelled(parts[1..], parseFloat, line, invalid, bound)
    ensures PartsSpelled(parts, parseFloat, line, invalid, bound)
  {
    hide Scan, Step, GetTokens, LexParts;
    var r := LexParts(parts, parseFloat, line, [DotToken], invalid, bound);
    if r.Ok? {
      var t, rest := LexPartsStep(parts, parseFloat, line, invalid, bound);
      var x := [t[0].(line := line)] + t[1..];
      assert x[1..] == t[1..];
      assert Lexemes(x) == parts[0];
      LexemesAppend(x, rest);
      assert ([DotToken] + (x + rest))[1..] == x + rest;
    }
  }

  lemma {:induction false} SplitOnPartsChars(s: string, c: char)
    ensures forall k, m :: 0 <= k < |SplitOn(s, c)| && 0 <= m < |SplitOn(s, c)[k]| ==> SplitOn(s, c)[k][m] in s
    decreases |s|
  {
    if |s| > 0 {
      SplitOnPartsChars(s[1..], c);
    }
  }
}

=== FILE: lexer_shapes.dfy ===
/** The shape of every token the Fizz lexer produces, and what one pass of
    its main loop does on each kind of character (lexer/lexer.go). */
module LexerShapes {
  import opened Results
  import opened Strs
  import opened Fmt
  import opened Values
  import opened TokenTypes
  import opened Lexer
  import opened LexerProps

  /** A token as the lexer hands it out: layout and comments never become
      tokens, a line break is an empty NEWLINE token, every other token
      spells something and carries a line number, and a string token keeps
      its quotes in the lexeme and drops them from the literal. */
  predicate WellFormed(t: Token) {
    && t.kind != WHITESPACE && t.kind != COMMENT
    && (t.kind == NEWLINE ==> t.lexeme == "" && t.literal == Nil)
    && (t.kind != NEWLINE ==> |t.lexeme| >= 1 && t.line >= 1)
    && (t.kind == STRING ==>
          && |t.lexeme| >= 2 && t.lexeme[0] == '"' && t.lexeme[|t.lexeme| - 1] == '"'
          && t.literal == Str(t.lexeme[1..|t.lexeme| - 1]))
  }

  predicate AllWellFormed(ts: seq<Token>) {
    forall k :: 0 <= k < |ts| ==> WellFormed(ts[k])
  }

  lemma AllWellFormedAppend(a: seq<Token>, b: seq<Token>)
    requires AllWellFormed(a) && AllWellFormed(b)
    ensures AllWellFormed(a + b)
  {
    forall k | 0 <= k < |a + b|
      ensures WellFormed((a + b)[k])
    {
      if k < |a| {
        assert (a + b)[k] == a[k];
      } else {
        assert (a + b)[k] == b[k - |a|];
      }
    }
  }

  // ---------------------------------------------------------------------
  // Every token is well formed

  lemma {:induction false} GetTokensShapes(input: string, parseFloat: NumberParser)
    ensures GetTokens(input, parseFloat).Ok? ==> AllWellFormed(GetTokens(input, parseFloat).value)
    decreases |input|, 3, 0
  {
    ScanShapes(input, parseFloat, 0, 1, []);
  }

  lemma {:induction false} ScanShapes(input: string, parseFloat: NumberParser, i: nat, line: int, acc: seq<Token>)
    requires i <= |input| && line >= 1 && AllWellFormed(acc)
    ensures Scan(input, parseFloat, i, line, acc).Ok? ==> AllWellFormed(Scan(input, parseFloat, i, line, acc).value)
    decreases |input|, 2, |input| - i
  {
    if i < |input| {
      hide Step, WellFormed;
      StepShapes(input, parseFloat, i, line);
      var r := Step(input, parseFloat, i, line);
      if r.Ok? {
        var m := r.value;
        AllWellFormedAppend(acc, m.tokens);
        ScanShapes(input, parseFloat, m.next, m.line, acc + m.tokens);
      }
    }
  }

  lemma {:induction false} StepShapes(input: string, parseFloat: NumberParser, i: nat, line: int)
    requires i < |input| && line >= 1
    ensures Step(input, parseFloat, i, line).Ok? ==>
              AllWellFormed(Step(input, parseFloat, i, line).value.tokens) && Step(input, parseFloat, i, line).value.line >= 1
    decreases |input|, 1, 1
  {
    match SymbolType(input[i])
    case Some(kind) => SymbolShapes(input, i, line, kind);
    case None => WordShapes(input, parseFloat, i, line);
  }

  lemma SymbolShapes(input: string, i: nat, line: int, kind: int)
    requires i < |input| && SymbolType(input[i]) == Some(kind) && line >= 1
    ensures SymbolStep(input, i, line, kind).Ok? ==>
              AllWellFormed(SymbolStep(input, i, line, kind).value.tokens) && SymbolStep(input, i, line, kind).value.line >= 1
  {
    SymbolClasses(input[i]);
    if kind == STRING {
      var j, kind' := StringOpen(input, i, line);
      StringShapes(input, i, j, line, kind');
    } else if kind !in {NEWLINE, WHITESPACE, COMMENT} {
      var j := PlainMove(input, i, line, kind);
      PlainKind(input, i, line, kind);
    }
  }

  /** A string token is well formed whichever kind it was given. */
  lemma StringShapes(input: string, i: nat, j: nat, line: int, kind: int)
    requires i <= j < |input| && input[i] == '"' && line >= 1
    requires j == i || (j == i + 1 && input[j] == '=')
    requires kind == STRING || kind == DoubleKind(['"', '='])
    ensures StringStep(input, i, j, line, kind).Ok? ==>
              AllWellFormed(StringStep(input, i, j, line, kind).value.tokens) && StringStep(input, i, j, line, kind).value.line == line
  {
    if StringStep(input, i, j, line, kind).Ok? {
      var k := StringMove(input, i, j, line, kind);
      hide StringStep;
      QuotedInner(input, i, k);
      var str := input[i..k + 1];
      assert str[0] == '"' && str[|str| - 1] == '"';
      assert WellFormed(Token(kind, str, Str(input[i + 1..k]), line));
    }
  }

  /** A closed string pass: the token spans the quotes and its literal is
      the text between them. */
  lemma StringMove(input: string, i: nat, j: nat, line: int, kind: int) returns (k: nat)
    requires i <= j < |input| && StringStep(input, i, j, line, kind).Ok?
    ensures j < k < |input| && input[k] == '"'
    ensures forall m :: j < m < k ==> input[m] != '"'
    ensures StringStep(input, i, j, line, kind).value == Move(k + 1, line, [Token(kind, input[i..k + 1], Str(input[i + 1..k]), line)])
  {
    k := SeekCharacter(input, j, '"').0;
    QuotedInner(input, i, k);
  }

  /** A plain symbol's kind is its own or a two-character comparison's,
      never one of the kinds handled on their own. */
  lemma PlainKind(input: string, i: nat, line: int, kind: int)
    requires i < |input| && SymbolType(input[i]) == Some(kind)
    requires kind !in {NEWLINE, WHITESPACE, COMMENT, STRING} && line >= 1
    ensures SymbolStep(input, i, line, kind).Ok?
    ensures var t := SymbolStep(input, i, line, kind).value.tokens;
            |t| == 1 && t[0].kind !in {NEWLINE, WHITESPACE, COMMENT, STRING} && t[0].line == line
    ensures SymbolStep(input, i, line, kind).value.line == line
  {
    var (next, _) := NextCharacter(input, i);
    if SymbolType(next) == Some(EQUAL) {
      var pair := [input[i], next];
      assert DoubleType(pair).Some? ==> DoubleType(pair).value in {EQUAL_EQUAL, NOT_EQUAL, GREATER_EQUAL, LESS_EQUAL};
    }
  }

  lemma {:induction false} WordShapes(input: string, parseFloat: NumberParser, i: nat, line: int)
    requires i < |input| && SymbolType(input[i]).None? && line >= 1
    ensures WordStep(input, parseFloat, i, line).Ok? ==>
              AllWellFormed(WordStep(input, parseFloat, i, line).value.tokens) && WordStep(input, parseFloat, i, line).value.line == line
    decreases |input|, 1, 0
  {
    if WordStep(input, parseFloat, i, line).Ok? {
      WordStart(input, parseFloat, i, line);
      var k := WordRun(input, i);
      var word := input[i..k + 1];
      if parseFloat(word).None? && |SplitOn(word, '.')| > 1 {
        var ts := GetterParts(input, parseFloat, i, line, k);
        LexPartsShapes(SplitOn(word, '.'), parseFloat, line, Formatted(ErrInvalidSyntax, [S(word), D(line)]), |input|);
        DottedShapes(input, parseFloat, i, line, k, ts);
      } else {
        SingleMove(input, parseFloat, i, line, k);
        WordTokenShape(word, parseFloat(word), line);
      }
    }
  }

  lemma DottedShapes(input: string, parseFloat: NumberParser, i: nat, line: int, k: nat, ts: seq<Token>)
    requires i < |input| && WordStep(input, parseFloat, i, line).Ok?
    requires |ts| >= 1 && WordStep(input, parseFloat, i, line).value == Move(k + 1, line, ts[1..])
    requires AllWellFormed(ts)
    ensures AllWellFormed(WordStep(input, parseFloat, i, line).value.tokens)
    ensures WordStep(input, parseFloat, i, line).value.line == line
  {
    hide WordStep;
    forall x | 0 <= x < |ts[1..]|
      ensures WellFormed(ts[1..][x])
    {
      assert ts[1..][x] == ts[x + 1];
    }
  }

  /** The tokens of a dotted run's parts are well formed: each part's tokens
      are, and moving the first one to the run's line keeps it so. */
  lemma {:induction false} LexPartsShapes(parts: seq<string>, parseFloat: NumberParser, line: int,
                                          invalid: Message, bound: nat)
    requires forall k :: 0 <= k < |parts| ==> |parts[k]| < bound
    requires line >= 1
    ensures LexParts(parts, parseFloat, line, [DotToken], invalid, bound).Ok? ==>
              AllWellFormed(LexParts(parts, parseFloat, line, [DotToken], invalid, bound).value)
    decreases bound, 0, |parts|
  {
    if |parts| > 0 && LexParts(parts, parseFloat, line, [DotToken], invalid, bound).Ok? {
      GetTokensShapes(parts[0], parseFloat);
      LexPartsShapes(parts[1..], parseFloat, line, invalid, bound);
      var t, rest := LexPartsStep(parts, parseFloat, line, invalid, bound);
      hide LexParts, GetTokens, Scan;
      PartShapes(t, rest, line);
    }
  }

  lemma PartShapes(t: seq<Token>, rest: seq<Token>, line: int)
    requires |t| > 0 && AllWellFormed(t) && AllWellFormed(rest) && line >= 1
    ensures AllWellFormed([DotToken] + ([t[0].(line := line)] + t[1..] + rest))
  {
    var head := [DotToken, t[0].(line := line)];
    assert WellFormed(t[0]);
    assert AllWellFormed(head);
    var tail := t[1..];
    assert AllWellFormed(tail) by {
      forall x | 0 <= x < |tail|
        ensures WellFormed(tail[x])
      {
        assert tail[x] == t[x + 1];
      }
    }
    AllWellFormedAppend(head, tail);
    AllWellFormedAppend(head + tail, rest);
    assert [DotToken] + ([t[0].(line := line)] + t[1..] + rest) == head + tail + rest;
  }

  /** No reserved word has a kind the lexer treats as layout, a line break,
      a comment or a string. */
  lemma KeywordKindsPlain(word: string)
    ensures KeywordType(word).Some? ==> KeywordType(word).value !in {NEWLINE, WHITESPACE, COMMENT, STRING}
  {
    if KeywordType(word).Some? {
      var k :| 0 <= k < |KeywordTable| && KeywordTable[k] == (word, KeywordType(word).value);
    }
  }

  /** A word token is well formed and never a line break. */
  lemma WordTokenShape(word: string, number: Option<real>, line: int)
    requires |word| >= 1 && line >= 1
    ensures WellFormed(WordToken(word, number, line))
    ensures WordToken(word, number, line).kind !in {NEWLINE, WHITESPACE, COMMENT, STRING}
  {
    KeywordKindsPlain(word);
  }

  // ---------------------------------------------------------------------
  // What one pass does, by the character it starts on

  /** A line break is an empty NEWLINE token on line 0, and the following
      tokens are on the next line. */
  lemma NewlinePass(input: string, parseFloat: NumberParser, i: nat, line: int)
    requires i < |input| && input[i] == '\n'
    ensures Step(input, parseFloat, i, line) == Ok(Move(i + 1, line + 1, [Token(NEWLINE, "", Nil, 0)]))
  {
  }

  /** Space, tab and carriage return produce nothing. */
  lemma LayoutPass(input: string, parseFloat: NumberParser, i: nat, line: int)
    requires i < |input| && (input[i] == ' ' || input[i] == '\t' || input[i] == '\r')
    ensures Step(input, parseFloat, i, line) == Ok(Move(i + 1, line, []))
  {
  }

  /** A comment produces nothing and resumes on the line break that ends
      it, or at the end of the input. */
  lemma CommentPass(input: string, parseFloat: NumberParser, i: nat, line: int)
    requires i < |input| && input[i] == '#'
    ensures Step(input, parseFloat, i, line).Ok?
    ensures var m := Step(input, parseFloat, i, line).value;
            && m.tokens == [] && m.line == line && i < m.next <= |input|
            && (m.next == |input| || input[m.next] == '\n')
            && forall k :: i < k < m.next ==> input[k] != '\n'
  {
  }

  /** A symbol directly followed by `=` is one token spelling both
      characters, whose kind is the comparison they spell or the zero kind. */
  lemma DoublePass(input: string, parseFloat: NumberParser, i: nat, line: int, kind: int)
    requires i + 1 < |input| && SymbolType(input[i]) == Some(kind) && input[i + 1] == '='
    requires kind !in {NEWLINE, WHITESPACE, COMMENT, STRING}
    ensures Step(input, parseFloat, i, line) == Ok(Move(i + 2, line, [Token(DoubleKind(input[i..i + 2]), input[i..i + 2], Nil, line)]))
    ensures DoubleType(input[i..i + 2]).Some? <==> input[i] in "=!><"
  {
    assert input[i..i + 2] == [input[i], input[i + 1]];
    DoubleStep(input, parseFloat, i, line, kind);
    DoublePair(input[i]);
  }

  lemma DoubleStep(input: string, parseFloat: NumberParser, i: nat, line: int, kind: int)
    requires i + 1 < |input| && SymbolType(input[i]) == Some(kind) && input[i + 1] == '='
    requires kind !in {NEWLINE, WHITESPACE, COMMENT, STRING}
    ensures Step(input, parseFloat, i, line)
            == Ok(Move(i + 2, line, [Token(DoubleKind([input[i], input[i + 1]]), [input[i], input[i + 1]], Nil, line)]))
  {
    hide DoubleKind, DoubleType, WordStep;
    assert NextCharacter(input, i) == (input[i + 1], false);
    assert SymbolType(input[i + 1]) == Some(EQUAL);
  }

  /** A symbol and `=` spell a comparison exactly for `=`, `!`, `>` and `<`. */
  lemma DoublePair(c: char)
    ensures DoubleType([c, '=']).Some? <==> c in "=!><"
  {
    var s := [c, '='];
    if c == '=' { assert s == "=="; }
    else if c == '!' { assert s == "!="; }
    else if c == '>' { assert s == ">="; }
    else if c == '<' { assert s == "<="; }
    else {
      assert s != "==" && s != "!=" && s != ">=" && s != "<=" by {
        assert s[0] == c;
      }
    }
  }

  /** Any other symbol is a one-character token of its own kind. */
  lemma SinglePass(input: string, parseFloat: NumberParser, i: nat, line: int, kind: int)
    requires i < |input| && SymbolType(input[i]) == Some(kind)
    requires i + 1 == |input| || input[i + 1] != '='
    requires kind !in {NEWLINE, WHITESPACE, COMMENT, STRING}
    ensures Step(input, parseFloat, i, line) == Ok(Move(i + 1, line, [Token(kind, [input[i]], Nil, line)]))
  {
    SymbolClasses(NextCharacter(input, i).0);
  }

  /** A string closed by the first `"` after it is one STRING token whose
      lexeme keeps the quotes and whose literal is the text between them. */
  lemma StringPass(input: string, parseFloat: NumberParser, i: nat, k: nat, line: int)
    requires i < k < |input| && input[i] == '"' && input[k] == '"' && input[i + 1] != '='
    requires forall m :: i < m < k ==> input[m] != '"'
    ensures Step(input, parseFloat, i, line) == Ok(Move(k + 1, line, [Token(STRING, input[i..k + 1], Str(input[i + 1..k]), line)]))
  {
    SymbolClasses(input[i + 1]);
    var (k', eof) := SeekCharacter(input, i, '"');
    assert k' == k;
    QuotedInner(input, i, k);
  }

  /** The text between the quotes of `input[i..k+1]`. */
  lemma QuotedInner(input: string, i: nat, k: nat)
    requires i < k < |input|
    ensures var str := input[i..k + 1]; |str| == k - i + 1 && str[1..|str| - 1] == input[i + 1..k]
  {
    var str := input[i..k + 1];
    assert |str| - 1 == k - i;
    var inner, between := str[1..k - i], input[i + 1..k];
    forall m | 0 <= m < |inner|
      ensures inner[m] == between[m]
    {
      assert str[1 + m] == input[i + 1 + m];
    }
    assert inner == between;
  }

  /** A string with no `"` after it is an unterminated-string error. */
  lemma UnterminatedPass(input: string, parseFloat: NumberParser, i: nat, line: int)
    requires i < |input| && input[i] == '"'
    requires forall m :: i < m < |input| ==> input[m] != '"'
    ensures Step(input, parseFloat, i, line) == Err(Formatted(ErrUnterminatedString, [D(line)]))
  {
    if i + 1 < |input| {
      SymbolClasses(input[i + 1]);
    }
  }

  /** A character that is neither a symbol nor in `[a-zA-Z_0-9.]` is an
      unexpected-token error naming it. */
  lemma UnexpectedPass(input: string, parseFloat: NumberParser, i: nat, line: int)
    requires i < |input| && SymbolType(input[i]).None? && !IsWordChar(input[i])
    ensures Step(input, parseFloat, i, line) == Err(Formatted(ErrUnexpectedToken, [S([input[i]]), D(line)]))
  {
  }

  /** The maximal word run starting at `i` ends at `k`. */
  predicate RunEndsAt(input: string, i: nat, k: nat) {
    && i <= k < |input|
    && (forall m :: i <= m <= k ==> IsWordChar(input[m]))
    && (k + 1 == |input| || !IsWordChar(input[k + 1]))
  }

  lemma RunEnd(input: string, i: nat, k: nat)
    requires RunEndsAt(input, i, k)
    ensures SeekFunc(input, i, EndsWord).0 == k
  {
  }

  /** A numeral, or an identifier-shaped run without dots, is one word
      token spelling the run. */
  lemma WordPass(input: string, parseFloat: NumberParser, i: nat, k: nat, line: int)
    requires RunEndsAt(input, i, k) && SymbolType(input[i]).None?
    requires var w := input[i..k + 1]; parseFloat(w).Some? || ('.' !in w && IsIdentifier(w))
    ensures var w := input[i..k + 1];
            Step(input, parseFloat, i, line) == Ok(Move(k + 1, line, [WordToken(w, parseFloat(w), line)]))
  {
    RunEnd(input, i, k);
    var w := input[i..k + 1];
    if '.' !in w {
      SplitOnFree(w, '.');
    }
  }

  /** A run that is no numeral, has no dot and is not identifier-shaped
      is an invalid-syntax error naming the run. */
  lemma InvalidPass(input: string, parseFloat: NumberParser, i: nat, k: nat, line: int)
    requires RunEndsAt(input, i, k) && SymbolType(input[i]).None?
    requires var w := input[i..k + 1]; parseFloat(w).None? && '.' !in w && !IsIdentifier(w)
    ensures Step(input, parseFloat, i, line) == Err(Formatted(ErrInvalidSyntax, [S(input[i..k + 1]), D(line)]))
  {
    RunEnd(input, i, k);
    SplitOnFree(input[i..k + 1], '.');
  }

  // ---------------------------------------------------------------------
  // How a word run is classified

  /** Each reserved word becomes a token of its own kind; `true`, `false`
      and `nil` carry their value as the literal. */
  lemma KeywordTokens(k: nat, number: Option<real>, line: int)
    requires k < |KeywordTable|
    ensures var (word, kind) := KeywordTable[k];
            var t := WordToken(word, number, line);
            && t.kind == kind && t.lexeme == word && t.line == line
            && (kind == TRUE ==> t.literal == Bool(true))
            && (kind == FALSE ==> t.literal == Bool(false))
            && (kind == NIL ==> t.literal == Nil)
  {
    KeywordKinds(k);
    KeywordsAreIdentifiers(k);
  }

  lemma KeywordsAreIdentifiers(k: nat)
    requires k < |KeywordTable|
    ensures IsIdentifier(KeywordTable[k].0)
  {
  }

  /** An identifier-shaped word that is not reserved is an IDENTIFIER. */
  lemma IdentifierToken(word: string, number: Option<real>, line: int)
    requires IsIdentifier(word)
    requires forall k :: 0 <= k < |KeywordTable| ==> KeywordTable[k].0 != word
    ensures WordToken(word, number, line).kind == IDENTIFIER
  {
  }

  /** A numeral that is not identifier-shaped is a NUMBER carrying its
      value. */
  lemma NumberToken(word: string, value: real, line: int)
    requires !IsIdentifier(word)
    ensures WordToken(word, Some(value), line) == Token(NUMBER, word, Num(value), line)
  {
  }
}

=== FILE: old_parser.dfy ===
/** The older expression parser (parser/parser.go), superseded by
    expr/parse.go. It groups a parenthesis with the LAST closing
    parenthesis after it rather than the matching one, knows no calls,
    arrays or getters, and builds the tree with Go slicing that panics on
    an empty side: a panic is `Crash`. Its parse tokens have the shape of
    `Expr.ParseToken` with the kind codes of this package. */
module OldParser {
  import opened Results
  import opened Fmt
  import opened TokenTypes
  import opened Lexer
  import Expr

  datatype Expression =
    | Literal(value: Token)
    | Unary(operand: Token, value: Token)
    | Binary(operand: Token, left: Expression, right: Expression)
    | Group(inner: Expression)

  /** Parse token kinds of this package. */
  const Single := 0
  const TokenGroup := 1

  /** The index of the last `)` after `start`, or `start` itself when there
      is none: the scan from `j` with the last one seen so far at `endIdx`. */
  function LastFrom(tokens: seq<Token>, start: nat, j: nat, endIdx: nat): (r: nat)
    requires start <= j <= |tokens| && start < |tokens|
    requires endIdx == start || (start < endIdx < j && tokens[endIdx].kind == RIGHT_PAREN)
    requires forall q :: endIdx < q < j ==> tokens[q].kind != RIGHT_PAREN
    ensures r == start || (start < r < |tokens| && tokens[r].kind == RIGHT_PAREN)
    ensures forall q :: r < q < |tokens| ==> tokens[q].kind != RIGHT_PAREN
    decreases |tokens| - j
  {
    if j == |tokens| then endIdx
    else if tokens[j].kind == RIGHT_PAREN && j > endIdx then LastFrom(tokens, start, j + 1, j)
    else LastFrom(tokens, start, j + 1, endIdx)
  }

  function LastClose(tokens: seq<Token>, start: nat): nat
    requires start < |tokens|
  {
    LastFrom(tokens, start, start, start)
  }

  /** `GenerateParseTokens` from index `i`, with the parse tokens so far in
      `acc`. */
  function Gen(tokens: seq<Token>, i: nat, acc: seq<Expr.ParseToken>): Result<seq<Expr.ParseToken>>
    requires i <= |tokens|
    decreases |tokens|, |tokens| - i
  {
    if i == |tokens| then Ok(acc)
    else
      var token := tokens[i];
      if token.kind == LEFT_PAREN then
        var endIdx := LastClose(tokens, i);
        if endIdx == i then Err(Formatted(Expr.ErrParenError, [D(token.line)]))
        else
          match Gen(tokens[i + 1..endIdx], 0, [])
          case Ok(group) => Gen(tokens, endIdx + 1, acc + [Expr.ParseToken(TokenGroup, ZeroToken, group)])
          case Err(e) => Err(e)
          case Crash(c) => Crash(c)
      else if token.kind == RIGHT_PAREN then Err(Formatted(Expr.ErrParenError, [D(token.line)]))
      else Gen(tokens, i + 1, acc + [Expr.ParseToken(Single, token, [])])
  }

  function GenerateParseTokens(tokens: seq<Token>): Result<seq<Expr.ParseToken>> {
    Gen(tokens, 0, [])
  }

  /** `ParseExpression`. Go builds the right side first; slicing past the
      end of the list panics. */
  function ParseExpression(tokens: seq<Expr.ParseToken>): Result<Expression>
    decreases Expr.Sizes(tokens)
  {
    if |tokens| == 0 then Crash("slice bounds out of range")
    else if |tokens| == 1 then
      Expr.SizesSplit(tokens, 0);
      if tokens[0].kind == TokenGroup then
        match ParseExpression(tokens[0].inner)
        case Ok(e) => Ok(Group(e))
        case Err(m) => Err(m)
        case Crash(c) => Crash(c)
      else Ok(Literal(tokens[0].token))
    else if |tokens| == 2 then Ok(Unary(tokens[0].token, tokens[1].token))
    else
      var (lowest, idx) := Expr.LowestFrom(tokens, Single, 0, Expr.NoToken, 0);
      Expr.SizesSplit(tokens, idx);
      Combine(lowest, ParseExpression(tokens[..idx]), ParseExpression(tokens[idx + 1..]))
  }

  /** The node of a split: the right side's failure comes first, as Go
      builds the right side first, then the left side's. */
  function Combine(op: Token, left: Result<Expression>, right: Result<Expression>): Result<Expression> {
    match right
    case Crash(c) => Crash(c)
    case Err(m) => Err(m)
    case Ok(r) =>
      match left
      case Crash(c) => Crash(c)
      case Err(m) => Err(m)
      case Ok(l) => Ok(Binary(op, l, r))
  }

  /** The split of a list of three or more. */
  function Split(tokens: seq<Expr.ParseToken>): (r: (Token, nat))
    ensures Expr.LowestSoFar(tokens, Single, |tokens|, r.0, r.1)
  {
    Expr.LowestFrom(tokens, Single, 0, Expr.NoToken, 0)
  }

  // ---------------------------------------------------------------------
  // Grouping

  /** A parenthesis reaches to the last `)` after it, whatever lies
      between; without one it is an error with its line. */
  lemma ParenToLast(tokens: seq<Token>, i: nat, acc: seq<Expr.ParseToken>)
    requires i < |tokens| && tokens[i].kind == LEFT_PAREN
    ensures var endIdx := LastClose(tokens, i);
            && (endIdx == i <==> forall q :: i < q < |tokens| ==> tokens[q].kind != RIGHT_PAREN)
            && (endIdx == i ==> Gen(tokens, i, acc) == Err(Formatted(Expr.ErrParenError, [D(tokens[i].line)])))
            && (endIdx > i ==> tokens[endIdx].kind == RIGHT_PAREN
                               && forall q :: endIdx < q < |tokens| ==> tokens[q].kind != RIGHT_PAREN)
            && (endIdx > i && GenerateParseTokens(tokens[i + 1..endIdx]).Ok? ==>
                  Gen(tokens, i, acc)
                  == Gen(tokens, endIdx + 1, acc + [Expr.ParseToken(TokenGroup, ZeroToken, GenerateParseTokens(tokens[i + 1..endIdx]).value)]))
  {
  }

  /** A `)` reached on its own is an error with its line. */
  lemma StrayClose(tokens: seq<Token>, i: nat, acc: seq<Expr.ParseToken>)
    requires i < |tokens| && tokens[i].kind == RIGHT_PAREN
    ensures Gen(tokens, i, acc) == Err(Formatted(Expr.ErrParenError, [D(tokens[i].line)]))
  {
  }

  predicate NoParens(tokens: seq<Token>) {
    forall k :: 0 <= k < |tokens| ==> tokens[k].kind != LEFT_PAREN && tokens[k].kind != RIGHT_PAREN
  }

  function Singles(tokens: seq<Token>): (pts: seq<Expr.ParseToken>)
    ensures |pts| == |tokens|
  {
    seq(|tokens|, k requires 0 <= k < |tokens| => Expr.ParseToken(Single, tokens[k], []))
  }

  /** Every token other than a parenthesis becomes a single parse token, in
      order, and the scan moves on by one. */
  lemma {:induction false} GenNoParens(tokens: seq<Token>, i: nat, acc: seq<Expr.ParseToken>)
    requires i <= |tokens| && NoParens(tokens)
    ensures Gen(tokens, i, acc) == Ok(acc + Singles(tokens)[i..])
    decreases |tokens| - i
  {
    if i == |tokens| {
      assert acc + Singles(tokens)[i..] == acc;
    } else {
      var one := Expr.ParseToken(Single, tokens[i], []);
      assert Gen(tokens, i, acc) == Gen(tokens, i + 1, acc + [one]);
      GenNoParens(tokens, i + 1, acc + [one]);
      assert Singles(tokens)[i..] == [one] + Singles(tokens)[i + 1..];
      assert acc + [one] + Singles(tokens)[i + 1..] == acc + ([one] + Singles(tokens)[i + 1..]);
    }
  }

  /** `(a) + (b)`: the first parenthesis reaches to the last `)`, so the
      group holds `a) + (b` and its stray `)` is an error with that line. */
  lemma TwoGroupsRejected(lp: Token, a: Token, rp: Token, op: Token, lp': Token, b: Token, rp': Token)
    requires lp.kind == LEFT_PAREN && lp'.kind == LEFT_PAREN
    requires rp.kind == RIGHT_PAREN && rp'.kind == RIGHT_PAREN
    requires a.kind == IDENTIFIER && b.kind == IDENTIFIER && op.kind == PLUS
    ensures GenerateParseTokens([lp, a, rp, op, lp', b, rp']) == Err(Formatted(Expr.ErrParenError, [D(rp.line)]))
  {
    var ts := [lp, a, rp, op, lp', b, rp'];
    ParenToLast(ts, 0, []);
    assert ts[6].kind == RIGHT_PAREN;
    assert LastClose(ts, 0) == 6;
    var inner := ts[1..6];
    assert inner == [a, rp, op, lp', b];
    assert Gen(inner, 0, []) == Gen(inner, 1, [Expr.ParseToken(Single, a, [])]);
    StrayClose(inner, 1, [Expr.ParseToken(Single, a, [])]);
  }

  // ---------------------------------------------------------------------
  // The tree

  /** Two elements are always unary, keeping only the tokens: a group in
      second place is reduced to the zero token. */
  lemma PairIsUnary(tokens: seq<Expr.ParseToken>)
    requires |tokens| == 2
    ensures ParseExpression(tokens) == Ok(Unary(tokens[0].token, tokens[1].token))
    ensures tokens[1].kind == TokenGroup && tokens[1].token == ZeroToken ==> ParseExpression(tokens).value.value == ZeroToken
  {
  }

  /** Three or more elements split at the leftmost single token of the
      lowest kind, and parse only when that token has an element on each
      side; the empty list and an edge split are Go slice panics. */
  lemma BinarySplit(tokens: seq<Expr.ParseToken>)
    requires |tokens| >= 3
    ensures var (op, idx) := Split(tokens);
            && (ParseExpression(tokens).Ok? <==>
                  0 < idx < |tokens| - 1 && ParseExpression(tokens[..idx]).Ok? && ParseExpression(tokens[idx + 1..]).Ok?)
            && (ParseExpression(tokens).Ok? ==>
                  ParseExpression(tokens).value
                  == Binary(op, ParseExpression(tokens[..idx]).value, ParseExpression(tokens[idx + 1..]).value))
            && (forall j :: 0 <= j < idx && tokens[j].kind == Single ==> tokens[j].token.kind > op.kind)
            && (forall j :: idx < j < |tokens| && tokens[j].kind == Single ==> tokens[j].token.kind >= op.kind)
  {
    var (op, idx) := Split(tokens);
    BinaryUnfold(tokens);
    EmptyCrashes();
    hide ParseExpression;
    assert tokens[..0] == [] && tokens[|tokens|..] == [];
  }

  lemma BinaryUnfold(tokens: seq<Expr.ParseToken>)
    requires |tokens| >= 3
    ensures var (op, idx) := Split(tokens);
            && idx < |tokens|
            && (ParseExpression(tokens).Ok? <==> ParseExpression(tokens[..idx]).Ok? && ParseExpression(tokens[idx + 1..]).Ok?)
            && (ParseExpression(tokens).Ok? ==>
                  ParseExpression(tokens).value
                  == Binary(op, ParseExpression(tokens[..idx]).value, ParseExpression(tokens[idx + 1..]).value))
  {
    var (op, idx) := Split(tokens);
    BinaryBody(tokens);
    hide ParseExpression;
  }

  lemma BinaryBody(tokens: seq<Expr.ParseToken>)
    requires |tokens| >= 3
    ensures var (op, idx) := Split(tokens);
            && idx < |tokens|
            && ParseExpression(tokens) == Combine(op, ParseExpression(tokens[..idx]), ParseExpression(tokens[idx + 1..]))
  {
    hide Combine, Expr.Sizes;
    var (op, idx) := Split(tokens);
  }

  lemma EmptyCrashes()
    ensures ParseExpression([]).Crash?
  {
  }

  function One(t: Token): Expr.ParseToken {
    Expr.ParseToken(Single, t, [])
  }

  lemma OneLiteral(t: Token)
    ensures ParseExpression([One(t)]) == Ok(Literal(t))
  {
  }

  lemma Triple(x: Token, op: Token, y: Token)
    requires op.kind < IDENTIFIER && x.kind > op.kind && y.kind > op.kind
    ensures ParseExpression([One(x), One(op), One(y)]) == Ok(Binary(op, Literal(x), Literal(y)))
  {
    var ts := [One(x), One(op), One(y)];
    var (best, idx) := Split(ts);
    assert ts[1].kind == Single;
    assert idx == 1;
    BinarySplit(ts);
    OneLiteral(x);
    OneLiteral(y);
    hide ParseExpression;
    assert ts[..1] == [One(x)] && ts[2..] == [One(y)];
  }

  /** `a - b - c` groups to the right here too: `a - (b - c)`. */
  lemma ChainGroupsRight(a: Token, op1: Token, b: Token, op2: Token, c: Token)
    requires a.kind == IDENTIFIER && b.kind == IDENTIFIER && c.kind == IDENTIFIER
    requires op1.kind == op2.kind < IDENTIFIER
    ensures GenerateParseTokens([a, op1, b, op2, c]).Ok?
    ensures ParseExpression(GenerateParseTokens([a, op1, b, op2, c]).value)
            == Ok(Binary(op1, Literal(a), Binary(op2, Literal(b), Literal(c))))
  {
    var ts := [a, op1, b, op2, c];
    assert NoParens(ts);
    GenNoParens(ts, 0, []);
    var pts := [One(a), One(op1), One(b), One(op2), One(c)];
    assert [] + Singles(ts)[0..] == pts;
    var (best, idx) := Split(pts);
    assert pts[1].kind == Single && pts[3].kind == Single;
    assert idx == 1;
    BinarySplit(pts);
    OneLiteral(a);
    Triple(b, op2, c);
    hide ParseExpression;
    assert pts[..1] == [One(a)] && pts[2..] == [One(b), One(op2), One(c)];
  }
}

=== FILE: results.dfy ===
/** Failure-carrying values shared by every component.

    Go reports recoverable failures as an `error` return and unrecoverable ones
    as a panic; the Python build scripts raise exceptions. `Result` keeps the
    two apart: `Err` is an error value the caller is expected to handle,
    `Crash` is a panic or an uncaught exception that ends the program. An
    error value is a `Message`: its text is what Go's `Error()` returns. */
module Results {
  import opened Fmt

  datatype Option<+T> = None | Some(value: T)

  datatype Result<+T> = Ok(value: T) | Err(error: Message) | Crash(reason: string) {

    predicate IsFailure() {
      !Ok?
    }

    function PropagateFailure<U>(): Result<U>
      requires !Ok?
    {
      if Err? then Err(error) else Crash(reason)
    }

    function Extract(): T
      requires Ok?
    {
      value
    }
  }
}

=== FILE: stmt_parse.dfy ===
/** The statement splitter (stmt/parse.go): each statement runs from the
    current token to the next semicolon, its first token decides between a
    print and an expression statement, and the expression is parsed from
    the tokens strictly between that first token and the semicolon.

    The lexer turns every line break into a NEWLINE token (lexer/lexer.go
    44-48) and the interpreter hands all tokens to this parser, so a
    statement that starts on a new line starts with NEWLINE tokens.

    Two readings are modelled. `ParseStatements` is the code as written: a
    statement made of the semicolon alone slices `tokens[i+1:i]`, which
    panics; a statement loses its first token, which is the line break
    before it or, on the first line and after another statement on the
    same line, its first real token; and line breaks after the last
    semicolon are a statement without a semicolon. `ParseStatementsCorrected`
    skips the line breaks before a statement, reports the empty statement
    with `ErrNoStatement` and keeps the first token of an expression
    statement. Go returns the statements parsed so far next to an error;
    the caller drops them, and so does the model. Go's `Statement` has many
    more fields; only the two this parser sets are kept (it never sets
    `Line`). */
module StmtParse {
  import opened Results
  import opened Fmt
  import opened TokenTypes
  import opened Lexer
  import opened Util
  import opened Expr
  import opened ExprParse

  const ExpressionStmt := 0
  const Print := 1

  datatype Statement = Statement(kind: int, expression: Expression)

  const ErrNoSemicolon := "expected ; after statement, line %d"
  const ErrNoStatement := "expected statement before semicolon, line %d"

  /** The first semicolon at or after `start`. */
  function NextSemicolon(tokens: seq<Token>, start: nat): (r: Option<nat>)
    requires start <= |tokens|
    ensures r.Some? ==> start <= r.value < |tokens| && tokens[r.value].kind == SEMICOLON
                        && forall j :: start <= j < r.value ==> tokens[j].kind != SEMICOLON
    ensures r.None? ==> forall j :: start <= j < |tokens| ==> tokens[j].kind != SEMICOLON
    decreases |tokens| - start
  {
    if start == |tokens| then None
    else if tokens[start].kind == SEMICOLON then Some(start)
    else NextSemicolon(tokens, start + 1)
  }

  /** One statement from its tokens before the semicolon, `part`, which is
      not empty. As written, the expression is parsed from `part[1..]` in
      both branches; corrected, an expression statement keeps `part[0]`. */
  function Build(part: seq<Token>, corrected: bool): Result<Statement>
    requires |part| >= 1
  {
    var kind := if part[0].kind == PRINT then Print else ExpressionStmt;
    var body := if corrected && kind == ExpressionStmt then part else part[1..];
    match ParseExpression(body)
    case Ok(e) => Ok(Statement(kind, e))
    case Err(m) => Err(m)
    case Crash(c) => Crash(c)
  }

  /** The loop of `ParseStatements` from index `i`, with the statements so
      far in `acc`. */
  function StatementsFrom(tokens: seq<Token>, i: nat, acc: seq<Statement>, corrected: bool): Result<seq<Statement>>
    requires i <= |tokens|
    decreases |tokens| - i
  {
    if i == |tokens| then Ok(acc)
    else if corrected && tokens[i].kind == NEWLINE then StatementsFrom(tokens, i + 1, acc, corrected)
    else
      match NextSemicolon(tokens, i)
      case None => Err(Formatted(ErrNoSemicolon, [D(tokens[i].line)]))
      case Some(semi) =>
        if semi == i then
          if corrected then Err(Formatted(ErrNoStatement, [D(tokens[i].line)]))
          else Crash("slice bounds out of range")
        else
          match Build(tokens[i..semi], corrected)
          case Ok(s) => StatementsFrom(tokens, semi + 1, acc + [s], corrected)
          case Err(m) => Err(m)
          case Crash(c) => Crash(c)
  }

  /** `ParseStatements` as written. */
  function ParseStatements(tokens: seq<Token>): Result<seq<Statement>> {
    StatementsFrom(tokens, 0, [], false)
  }

  /** `ParseStatements` with line breaks before a statement skipped, the
      empty statement reported and the first token of an expression
      statement kept. */
  function ParseStatementsCorrected(tokens: seq<Token>): Result<seq<Statement>> {
    StatementsFrom(tokens, 0, [], true)
  }

  // ---------------------------------------------------------------------
  // Statements are the semicolon-separated runs

  /** The runs between semicolons of `tokens[i..]` start with the run up to
      the first semicolon. */
  lemma {:induction false} SplitAtFirst(tokens: seq<Token>, i: nat, semi: nat)
    requires i <= semi < |tokens| && tokens[semi].kind == SEMICOLON
    requires forall j :: i <= j < semi ==> tokens[j].kind != SEMICOLON
    ensures SplitTokens(tokens[i..], SEMICOLON) == [tokens[i..semi]] + SplitTokens(tokens[semi + 1..], SEMICOLON)
    decreases semi - i
  {
    var ts := tokens[i..];
    assert ts[1..] == tokens[i + 1..];
    if semi == i {
      assert tokens[i..semi] == [];
    } else {
      SplitAtFirst(tokens, i + 1, semi);
      assert [ts[0]] + tokens[i + 1..semi] == tokens[i..semi];
    }
  }

  /** Without a semicolon there is one run: the tokens themselves. */
  lemma {:induction false} SplitNone(tokens: seq<Token>)
    requires forall j :: 0 <= j < |tokens| ==> tokens[j].kind != SEMICOLON
    ensures SplitTokens(tokens, SEMICOLON) == [tokens]
    decreases |tokens|
  {
    if |tokens| > 0 {
      SplitNone(tokens[1..]);
      assert [tokens[0]] + tokens[1..] == tokens;
    }
  }

  /** A run without the line breaks it starts with. */
  function SkipLines(part: seq<Token>): (r: seq<Token>)
    ensures r == [] || r[0].kind != NEWLINE
    ensures |r| <= |part| && r == part[|part| - |r|..]
    ensures forall j :: 0 <= j < |part| - |r| ==> part[j].kind == NEWLINE
    decreases |part|
  {
    if |part| > 0 && part[0].kind == NEWLINE then SkipLines(part[1..]) else part
  }

  /** The tokens of a run that make up its statement: all of them as
      written, those after the leading line breaks corrected. */
  function Stmt(part: seq<Token>, corrected: bool): seq<Token> {
    if corrected then SkipLines(part) else part
  }

  /** The reference: the tokens end with a semicolon, up to line breaks in
      the corrected reading, and every run before one is a statement that
      builds. */
  predicate RunsBuild(parts: seq<seq<Token>>, corrected: bool)
    requires |parts| >= 1
  {
    && Stmt(parts[|parts| - 1], corrected) == []
    && forall k :: 0 <= k < |parts| - 1 ==> |Stmt(parts[k], corrected)| >= 1 && Build(Stmt(parts[k], corrected), corrected).Ok?
  }

  /** `v` is `acc` followed by the statements the runs build, in order. */
  predicate Yields(parts: seq<seq<Token>>, acc: seq<Statement>, v: seq<Statement>, corrected: bool)
    requires |parts| >= 1 && RunsBuild(parts, corrected)
  {
    && |v| == |acc| + |parts| - 1 && v[..|acc|] == acc
    && forall k :: 0 <= k < |parts| - 1 ==> v[|acc| + k] == Build(Stmt(parts[k], corrected), corrected).value
  }

  /** Runs that agree statement by statement have the same reference. */
  lemma SameStatements(parts: seq<seq<Token>>, other: seq<seq<Token>>, acc: seq<Statement>, v: seq<Statement>, corrected: bool)
    requires |parts| == |other| >= 1
    requires forall k :: 0 <= k < |parts| ==> Stmt(parts[k], corrected) == Stmt(other[k], corrected)
    ensures RunsBuild(parts, corrected) <==> RunsBuild(other, corrected)
    ensures RunsBuild(parts, corrected) ==> (Yields(parts, acc, v, corrected) <==> Yields(other, acc, v, corrected))
  {
  }

  /** A line break in front of the tokens joins the first run. */
  lemma SplitLineBreak(tokens: seq<Token>, i: nat)
    requires i < |tokens| && tokens[i].kind == NEWLINE
    ensures var parts := SplitTokens(tokens[i..], SEMICOLON);
            var rest := SplitTokens(tokens[i + 1..], SEMICOLON);
            && |parts| == |rest|
            && parts[0] == [tokens[i]] + rest[0]
            && forall k :: 1 <= k < |parts| ==> parts[k] == rest[k]
  {
    assert tokens[i..][1..] == tokens[i + 1..];
  }

  lemma RunsCons(head: seq<Token>, rest: seq<seq<Token>>, acc: seq<Statement>, v: seq<Statement>, corrected: bool)
    requires |Stmt(head, corrected)| >= 1 && Build(Stmt(head, corrected), corrected).Ok? && |rest| >= 1
    ensures RunsBuild([head] + rest, corrected) <==> RunsBuild(rest, corrected)
    ensures RunsBuild(rest, corrected) && Yields(rest, acc + [Build(Stmt(head, corrected), corrected).value], v, corrected) ==>
              Yields([head] + rest, acc, v, corrected)
  {
    hide Build, Stmt;
    var parts := [head] + rest;
    if RunsBuild(rest, corrected) {
      forall k | 0 <= k < |parts| - 1
        ensures |Stmt(parts[k], corrected)| >= 1 && Build(Stmt(parts[k], corrected), corrected).Ok?
      {
        if k > 0 {
          assert parts[k] == rest[k - 1];
        }
      }
      var acc' := acc + [Build(Stmt(head, corrected), corrected).value];
      if Yields(rest, acc', v, corrected) {
        assert v[..|acc|] == v[..|acc'|][..|acc|];
        forall k | 0 <= k < |parts| - 1
          ensures v[|acc| + k] == Build(Stmt(parts[k], corrected), corrected).value
        {
          if k == 0 {
            assert v[|acc|] == v[..|acc'|][|acc|];
          } else {
            assert parts[k] == rest[k - 1];
          }
        }
      }
    }
    if RunsBuild(parts, corrected) {
      forall k | 0 <= k < |rest| - 1
        ensures |Stmt(rest[k], corrected)| >= 1 && Build(Stmt(rest[k], corrected), corrected).Ok?
      {
        assert rest[k] == parts[k + 1];
      }
    }
  }

  /** One pass of the loop: what the statement at `i` decides. */
  lemma StepFacts(tokens: seq<Token>, i: nat, acc: seq<Statement>, corrected: bool)
    requires i < |tokens| && !(corrected && tokens[i].kind == NEWLINE)
    ensures var r := StatementsFrom(tokens, i, acc, corrected);
            match NextSemicolon(tokens, i)
            case None => !r.Ok?
            case Some(semi) =>
              if semi == i then !r.Ok?
              else if Build(tokens[i..semi], corrected).Ok? then
                r == StatementsFrom(tokens, semi + 1, acc + [Build(tokens[i..semi], corrected).value], corrected)
              else !r.Ok?
  {
  }

  lemma RunsBuildFacts(parts: seq<seq<Token>>, acc: seq<Statement>, corrected: bool)
    requires |parts| >= 1
    ensures parts == [[]] ==> RunsBuild(parts, corrected) && Yields(parts, acc, acc, corrected)
    ensures |parts| == 1 && Stmt(parts[0], corrected) != [] ==> !RunsBuild(parts, corrected)
    ensures |parts| >= 2 && (Stmt(parts[0], corrected) == [] || !Build(Stmt(parts[0], corrected), corrected).Ok?) ==> !RunsBuild(parts, corrected)
  {
    assert acc[..|acc|] == acc;
  }

  /** The loop against its reference: it succeeds exactly when the runs
      between semicolons build, and then yields their statements in order. */
  lemma {:induction false} StatementsFromRuns(tokens: seq<Token>, i: nat, acc: seq<Statement>, corrected: bool)
    requires i <= |tokens|
    ensures var parts := SplitTokens(tokens[i..], SEMICOLON);
            var r := StatementsFrom(tokens, i, acc, corrected);
            && (r.Ok? <==> RunsBuild(parts, corrected))
            && (r.Ok? ==> Yields(parts, acc, r.value, corrected))
    decreases |tokens| - i, 1
  {
    hide *;
    if i == |tokens| {
      AtEndRuns(tokens, i, acc, corrected);
    } else if corrected && tokens[i].kind == NEWLINE {
      StatementsFromRuns(tokens, i + 1, acc, corrected);
      LineBreakRuns(tokens, i, acc, corrected);
    } else if NextSemicolon(tokens, i).None? {
      NoSemicolonRuns(tokens, i, acc, corrected);
    } else {
      StepSome(tokens, i, NextSemicolon(tokens, i).value, acc, corrected);
    }
  }

  lemma AtEndRuns(tokens: seq<Token>, i: nat, acc: seq<Statement>, corrected: bool)
    requires i == |tokens|
    ensures var parts := SplitTokens(tokens[i..], SEMICOLON);
            var r := StatementsFrom(tokens, i, acc, corrected);
            && (r.Ok? <==> RunsBuild(parts, corrected))
            && (r.Ok? ==> Yields(parts, acc, r.value, corrected))
  {
    var parts := SplitTokens(tokens[i..], SEMICOLON);
    assert tokens[i..] == [];
    assert parts == [[]];
    assert StatementsFrom(tokens, i, acc, corrected) == Ok(acc);
    RunsBuildFacts(parts, acc, corrected);
  }

  /** In the corrected reading a line break in front of a statement is
      skipped, and it joins the statement's run. */
  lemma LineBreakRuns(tokens: seq<Token>, i: nat, acc: seq<Statement>, corrected: bool)
    requires i < |tokens| && corrected && tokens[i].kind == NEWLINE
    requires var parts := SplitTokens(tokens[i + 1..], SEMICOLON);
             var r := StatementsFrom(tokens, i + 1, acc, corrected);
             && (r.Ok? <==> RunsBuild(parts, corrected))
             && (r.Ok? ==> Yields(parts, acc, r.value, corrected))
    ensures var parts := SplitTokens(tokens[i..], SEMICOLON);
            var r := StatementsFrom(tokens, i, acc, corrected);
            && (r.Ok? <==> RunsBuild(parts, corrected))
            && (r.Ok? ==> Yields(parts, acc, r.value, corrected))
  {
    hide Build, RunsBuild, Yields;
    var parts := SplitTokens(tokens[i..], SEMICOLON);
    assert StatementsFrom(tokens, i, acc, corrected) == StatementsFrom(tokens, i + 1, acc, corrected);
    SplitLineBreak(tokens, i);
    var rest := SplitTokens(tokens[i + 1..], SEMICOLON);
    assert SkipLines(parts[0]) == SkipLines(rest[0]);
    var r := StatementsFrom(tokens, i, acc, corrected);
    SameStatements(parts, rest, acc, if r.Ok? then r.value else [], corrected);
  }

  lemma NoSemicolonRuns(tokens: seq<Token>, i: nat, acc: seq<Statement>, corrected: bool)
    requires i < |tokens| && !(corrected && tokens[i].kind == NEWLINE) && NextSemicolon(tokens, i).None?
    ensures var parts := SplitTokens(tokens[i..], SEMICOLON);
            var r := StatementsFrom(tokens, i, acc, corrected);
            && (r.Ok? <==> RunsBuild(parts, corrected))
            && (r.Ok? ==> Yields(parts, acc, r.value, corrected))
  {
    var parts := SplitTokens(tokens[i..], SEMICOLON);
    StepFacts(tokens, i, acc, corrected);
    RunsBuildFacts(parts, acc, corrected);
    SplitNone(tokens[i..]);
    assert tokens[i..] != [] && Stmt(tokens[i..], corrected) == tokens[i..];
  }

  lemma {:induction false} StepSome(tokens: seq<Token>, i: nat, semi: nat, acc: seq<Statement>, corrected: bool)
    requires i <= semi < |tokens| && NextSemicolon(tokens, i) == Some(semi)
    requires !(corrected && tokens[i].kind == NEWLINE)
    ensures var parts := SplitTokens(tokens[i..], SEMICOLON);
            var r := StatementsFrom(tokens, i, acc, corrected);
            && (r.Ok? <==> RunsBuild(parts, corrected))
            && (r.Ok? ==> Yields(parts, acc, r.value, corrected))
    decreases |tokens| - i, 0
  {
    hide *;
    var parts := SplitTokens(tokens[i..], SEMICOLON);
    StepFacts(tokens, i, acc, corrected);
    RunsBuildFacts(parts, acc, corrected);
    SplitAtFirst(tokens, i, semi);
    var rest := SplitTokens(tokens[semi + 1..], SEMICOLON);
    assert parts == [tokens[i..semi]] + rest;
    StmtOfStatement(tokens[i..semi], corrected);
    if semi == i {
      assert parts[0] == [] && |parts| >= 2;
    } else {
      var b := Build(tokens[i..semi], corrected);
      if b.Ok? {
        var acc' := acc + [b.value];
        StatementsFromRuns(tokens, semi + 1, acc', corrected);
        var r := StatementsFrom(tokens, semi + 1, acc', corrected);
        RunsCons(tokens[i..semi], rest, acc, if r.Ok? then r.value else [], corrected);
      } else {
        assert parts[0] == tokens[i..semi] && |parts| >= 2;
      }
    }
  }

  /** A run that is empty, or does not start with a line break when these
      are skipped, is its own statement. */
  lemma StmtOfStatement(part: seq<Token>, corrected: bool)
    requires |part| == 0 || !corrected || part[0].kind != NEWLINE
    ensures Stmt(part, corrected) == part
  {
  }

  /** One statement per semicolon, each built from its run. */
  lemma StatementsPerSemicolon(tokens: seq<Token>, corrected: bool)
    ensures var parts := SplitTokens(tokens, SEMICOLON);
            var r := StatementsFrom(tokens, 0, [], corrected);
            && (r.Ok? <==> RunsBuild(parts, corrected))
            && (r.Ok? ==> |r.value| == |parts| - 1 == CountKind(tokens, SEMICOLON))
            && (r.Ok? ==> forall k :: 0 <= k < |parts| - 1 ==> r.value[k] == Build(Stmt(parts[k], corrected), corrected).value)
  {
    hide *;
    assert tokens[0..] == tokens;
    StatementsFromRuns(tokens, 0, [], corrected);
    SplitTokensParts(tokens, SEMICOLON);
    var parts := SplitTokens(tokens, SEMICOLON);
    var r := StatementsFrom(tokens, 0, [], corrected);
    if r.Ok? {
      YieldsFromEmpty(parts, r.value, corrected);
    }
  }

  /** Statements yielded from nothing are one per run. */
  lemma YieldsFromEmpty(parts: seq<seq<Token>>, v: seq<Statement>, corrected: bool)
    requires |parts| >= 1 && RunsBuild(parts, corrected) && Yields(parts, [], v, corrected)
    ensures |v| == |parts| - 1
    ensures forall k :: 0 <= k < |parts| - 1 ==> v[k] == Build(Stmt(parts[k], corrected), corrected).value
  {
    hide Build;
    forall k | 0 <= k < |parts| - 1
      ensures v[k] == Build(Stmt(parts[k], corrected), corrected).value
    {
      var none: seq<Statement> := [];
      assert v[|none| + k] == Build(Stmt(parts[k], corrected), corrected).value;
    }
  }

  // ---------------------------------------------------------------------
  // Error cases and examples

  /** Tokens left over with no semicolon after them are an error with the
      line of the first of them. */
  lemma MissingSemicolon(tokens: seq<Token>, i: nat, acc: seq<Statement>, corrected: bool)
    requires i < |tokens|
    requires forall j :: i <= j < |tokens| ==> tokens[j].kind != SEMICOLON
    ensures !(corrected && tokens[i].kind == NEWLINE) ==>
              StatementsFrom(tokens, i, acc, corrected) == Err(Formatted(ErrNoSemicolon, [D(tokens[i].line)]))
  {
  }

  /** Line breaks after the last semicolon: as written a statement without
      a semicolon, on the line of the line break token; corrected, the end
      of the input. */
  lemma {:induction false} TrailingLineBreaks(tokens: seq<Token>, i: nat, acc: seq<Statement>)
    requires i < |tokens|
    requires forall j :: i <= j < |tokens| ==> tokens[j].kind == NEWLINE
    ensures StatementsFrom(tokens, i, acc, false) == Err(Formatted(ErrNoSemicolon, [D(tokens[i].line)]))
    ensures StatementsFrom(tokens, i, acc, true) == Ok(acc)
    decreases |tokens| - i
  {
    assert NextSemicolon(tokens, i).None?;
    if i + 1 < |tokens| {
      TrailingLineBreaks(tokens, i + 1, acc);
    }
  }

  lemma EmptyExpression()
    ensures ParseExpression([]) == Ok(ZeroExpression)
  {
    assert Gen([], 0, []) == Ok([]);
  }

  lemma VariableExpression(x: Token)
    requires x.kind == IDENTIFIER
    ensures ParseExpression([x]) == Ok(Variable(x.lexeme, x.line))
  {
    var t := ParseToken(Single, x, []);
    assert PStep([x], 0) == Ok(PMove(1, [t]));
    assert Gen([x], 0, []) == Gen([x], 1, [] + [t]);
    assert [] + [t] == [t];
    assert Gen([x], 0, []) == Ok([t]);
  }

  /** A lone semicolon: as written a slice panic, corrected an error with
      its line. */
  lemma EmptyStatement(semi: Token)
    requires semi.kind == SEMICOLON
    ensures ParseStatements([semi]).Crash?
    ensures ParseStatementsCorrected([semi]) == Err(Formatted(ErrNoStatement, [D(semi.line)]))
  {
    assert NextSemicolon([semi], 0) == Some(0);
  }

  /** `x;`: as written the statement's expression is the zero expression,
      since `x` is dropped; corrected it is the variable `x`. */
  lemma FirstTokenDropped(x: Token, semi: Token)
    requires x.kind == IDENTIFIER && semi.kind == SEMICOLON
    ensures ParseStatements([x, semi]) == Ok([Statement(ExpressionStmt, ZeroExpression)])
    ensures ParseStatementsCorrected([x, semi]) == Ok([Statement(ExpressionStmt, Variable(x.lexeme, x.line))])
  {
    var ts := [x, semi];
    assert ts[0].kind != SEMICOLON && ts[1].kind == SEMICOLON;
    assert NextSemicolon(ts, 0) == Some(1);
    assert ts[0..1] == [x] && [x][1..] == [];
    EmptyExpression();
    VariableExpression(x);
    assert Build([x], false) == Ok(Statement(ExpressionStmt, ZeroExpression));
    assert ParseStatements(ts) == StatementsFrom(ts, 2, [] + [Statement(ExpressionStmt, ZeroExpression)], false);
    assert Build([x], true) == Ok(Statement(ExpressionStmt, Variable(x.lexeme, x.line)));
    assert ParseStatementsCorrected(ts) == StatementsFrom(ts, 2, [] + [Statement(ExpressionStmt, Variable(x.lexeme, x.line))], true);
    assert [] + [Statement(ExpressionStmt, ZeroExpression)] == [Statement(ExpressionStmt, ZeroExpression)];
    assert [] + [Statement(ExpressionStmt, Variable(x.lexeme, x.line))] == [Statement(ExpressionStmt, Variable(x.lexeme, x.line))];
  }

  /** `print x;` is a print statement of `x` in both readings. */
  lemma PrintStatement(p: Token, x: Token, semi: Token, corrected: bool)
    requires p.kind == PRINT && x.kind == IDENTIFIER && semi.kind == SEMICOLON
    ensures StatementsFrom([p, x, semi], 0, [], corrected) == Ok([Statement(Print, Variable(x.lexeme, x.line))])
  {
    var ts := [p, x, semi];
    assert ts[0].kind != SEMICOLON && ts[1].kind != SEMICOLON && ts[2].kind == SEMICOLON;
    assert NextSemicolon(ts, 0) == Some(2);
    assert StatementsFrom(ts, 3, [Statement(Print, Variable(x.lexeme, x.line))], corrected) == Ok([Statement(Print, Variable(x.lexeme, x.line))]);
    assert ts[0..2] == [p, x] && [p, x][1..] == [x];
    VariableExpression(x);
    assert Build([p, x], corrected) == Ok(Statement(Print, Variable(x.lexeme, x.line)));
    assert StatementsFrom(ts, 0, [], corrected) == StatementsFrom(ts, 3, [] + [Statement(Print, Variable(x.lexeme, x.line))], corrected);
    assert [] + [Statement(Print, Variable(x.lexeme, x.line))] == [Statement(Print, Variable(x.lexeme, x.line))];
  }

  /** `x;` followed by a line break and `y;`: as written the line break is
      dropped in place of `y`, but `x` still is; corrected, both variables
      are statements. */
  lemma LineBreakStatements(x: Token, semi: Token, nl: Token, y: Token, semi2: Token)
    requires x.kind == IDENTIFIER && y.kind == IDENTIFIER && nl.kind == NEWLINE
    requires semi.kind == SEMICOLON && semi2.kind == SEMICOLON
    ensures ParseStatements([x, semi, nl, y, semi2]) ==
              Ok([Statement(ExpressionStmt, ZeroExpression), Statement(ExpressionStmt, Variable(y.lexeme, y.line))])
    ensures ParseStatementsCorrected([x, semi, nl, y, semi2]) ==
              Ok([Statement(ExpressionStmt, Variable(x.lexeme, x.line)), Statement(ExpressionStmt, Variable(y.lexeme, y.line))])
  {
    hide *;
    LineBreakAsWritten(x, semi, nl, y, semi2);
    LineBreakCorrected(x, semi, nl, y, semi2);
  }

  lemma LineBreakAsWritten(x: Token, semi: Token, nl: Token, y: Token, semi2: Token)
    requires x.kind == IDENTIFIER && y.kind == IDENTIFIER && nl.kind == NEWLINE
    requires semi.kind == SEMICOLON && semi2.kind == SEMICOLON
    ensures ParseStatements([x, semi, nl, y, semi2]) ==
              Ok([Statement(ExpressionStmt, ZeroExpression), Statement(ExpressionStmt, Variable(y.lexeme, y.line))])
  {
    EmptyExpression();
    VariableExpression(y);
    var zx := Statement(ExpressionStmt, ZeroExpression);
    var vy := Statement(ExpressionStmt, Variable(y.lexeme, y.line));
    assert [x][1..] == [] && [nl, y][1..] == [y];
    assert Build([x], false) == Ok(zx);
    assert Build([nl, y], false) == Ok(vy);
    assert [] + [zx] == [zx] && [zx] + [vy] == [zx, vy];
    var ts := [x, semi, nl, y, semi2];
    assert ts[0] == x && ts[1] == semi && ts[2] == nl && ts[3] == y && ts[4] == semi2;
    assert NextSemicolon(ts, 3) == Some(4);
    assert NextSemicolon(ts, 0) == Some(1) && NextSemicolon(ts, 2) == Some(4);
    assert ts[0..1] == [x];
    assert ts[2..4] == [nl, y];
    assert StatementsFrom(ts, 2, [zx], false) == StatementsFrom(ts, 5, [zx] + [vy], false);
    assert StatementsFrom(ts, 0, [], false) == StatementsFrom(ts, 2, [] + [zx], false);
  }

  lemma LineBreakCorrected(x: Token, semi: Token, nl: Token, y: Token, semi2: Token)
    requires x.kind == IDENTIFIER && y.kind == IDENTIFIER && nl.kind == NEWLINE
    requires semi.kind == SEMICOLON && semi2.kind == SEMICOLON
    ensures ParseStatementsCorrected([x, semi, nl, y, semi2]) ==
              Ok([Statement(ExpressionStmt, Variable(x.lexeme, x.line)), Statement(ExpressionStmt, Variable(y.lexeme, y.line))])
  {
    VariableExpression(x);
    VariableExpression(y);
    var vx := Statement(ExpressionStmt, Variable(x.lexeme, x.line));
    var vy := Statement(ExpressionStmt, Variable(y.lexeme, y.line));
    assert Build([x], true) == Ok(vx);
    assert Build([y], true) == Ok(vy);
    assert [] + [vx] == [vx] && [vx] + [vy] == [vx, vy];
    var ts := [x, semi, nl, y, semi2];
    assert ts[0] == x && ts[1] == semi && ts[2] == nl && ts[3] == y && ts[4] == semi2;
    assert NextSemicolon(ts, 3) == Some(4);
    assert NextSemicolon(ts, 0) == Some(1);
    assert ts[0..1] == [x];
    assert ts[3..4] == [y];
    assert StatementsFrom(ts, 3, [vx], true) == StatementsFrom(ts, 5, [vx] + [vy], true);
    assert StatementsFrom(ts, 2, [vx], true) == StatementsFrom(ts, 3, [vx], true);
    assert StatementsFrom(ts, 0, [], true) == StatementsFrom(ts, 2, [] + [vx], true);
  }

  /** `x;` and a final line break: as written the line break is a statement
      without a semicolon; corrected, the input ends after `x;`. */
  lemma FinalLineBreak(x: Token, semi: Token, nl: Token)
    requires x.kind == IDENTIFIER && semi.kind == SEMICOLON && nl.kind == NEWLINE
    ensures ParseStatements([x, semi, nl]) == Err(Formatted(ErrNoSemicolon, [D(nl.line)]))
    ensures ParseStatementsCorrected([x, semi, nl]) == Ok([Statement(ExpressionStmt, Variable(x.lexeme, x.line))])
  {
    EmptyExpression();
    VariableExpression(x);
    var zx := Statement(ExpressionStmt, ZeroExpression);
    var vx := Statement(ExpressionStmt, Variable(x.lexeme, x.line));
    assert [x][1..] == [];
    assert Build([x], false) == Ok(zx) && Build([x], true) == Ok(vx);
    assert [] + [zx] == [zx] && [] + [vx] == [vx];
    var us := [x, semi, nl];
    assert NextSemicolon(us, 0) == Some(1);
    assert us[0..1] == [x];
    TrailingLineBreaks(us, 2, [zx]);
    TrailingLineBreaks(us, 2, [vx]);
    assert StatementsFrom(us, 0, [], false) == StatementsFrom(us, 2, [] + [zx], false);
    assert StatementsFrom(us, 0, [], true) == StatementsFrom(us, 2, [] + [vx], true);
  }

  /** `print x;` on a later line: as written the line break is dropped and
      `print` is parsed as an operand, which is refused; corrected, it is a
      print statement. */
  lemma PrintAfterLineBreak(nl: Token, p: Token, x: Token, semi: Token)
    requires nl.kind == NEWLINE && p.kind == PRINT && x.kind == IDENTIFIER && semi.kind == SEMICOLON
    ensures ParseStatements([nl, p, x, semi]) == Err(Plain(ErrInvalidExpression))
    ensures ParseStatementsCorrected([nl, p, x, semi]) == Ok([Statement(Print, Variable(x.lexeme, x.line))])
  {
    var ts := [nl, p, x, semi];
    assert ts[0].kind != SEMICOLON && ts[1].kind != SEMICOLON && ts[2].kind != SEMICOLON && ts[3].kind == SEMICOLON;
    assert NextSemicolon(ts, 2) == Some(3);
    assert NextSemicolon(ts, 0) == Some(3) && NextSemicolon(ts, 1) == Some(3);
    assert ts[0..3] == [nl, p, x] && [nl, p, x][1..] == [p, x];
    assert PStep([p, x], 0) == Err(Plain(ErrInvalidExpression));
    assert Gen([p, x], 0, []) == Err(Plain(ErrInvalidExpression));
    assert Build([nl, p, x], false) == Err(Plain(ErrInvalidExpression));
    assert StatementsFrom(ts, 0, [], true) == StatementsFrom(ts, 1, [], true);
    assert ts[1..3] == [p, x] && [p, x][1..] == [x];
    VariableExpression(x);
    var px := Statement(Print, Variable(x.lexeme, x.line));
    assert Build([p, x], true) == Ok(px);
    assert [] + [px] == [px];
    assert StatementsFrom(ts, 1, [], true) == StatementsFrom(ts, 4, [] + [px], true);
  }
}

=== FILE: strs.dfy ===
/** String helpers with the semantics of the Go `strings` package and of
    Python's `str` methods that the modelled code calls. Strings are
    sequences of characters. */
module Strs {

  predicate StartsWith(s: string, prefix: string) {
    |prefix| <= |s| && s[..|prefix|] == prefix
  }

  predicate EndsWith(s: string, suffix: string) {
    |suffix| <= |s| && s[|s| - |suffix|..] == suffix
  }

  /** Go's `strings.Contains` and Python's `in`: `t` occurs somewhere in `s`. */
  predicate HasInfix(s: string, t: string)
    decreases |s|
  {
    StartsWith(s, t) || (|s| > 0 && HasInfix(s[1..], t))
  }

  /** Python's `str.count` for a non-empty needle: non-overlapping occurrences,
      scanned left to right. */
  function Count(s: string, t: string): nat
    requires |t| > 0
    decreases |s|
  {
    if |s| == 0 then 0
    else if StartsWith(s, t) then 1 + Count(s[|t|..], t)
    else Count(s[1..], t)
  }

  /** `s.replace(c, "")` in Python: every occurrence of `c` deleted. */
  function Without(s: string, c: char): (r: string)
    ensures c !in r
    ensures |r| <= |s|
  {
    if |s| == 0 then ""
    else if s[0] == c then Without(s[1..], c)
    else [s[0]] + Without(s[1..], c)
  }

  /** Go's `strings.Split` and Python's `str.split` with a one-character
      separator: always at least one part, and no part contains `c`. */
  function SplitOn(s: string, c: char): (parts: seq<string>)
    ensures |parts| >= 1
    decreases |s|
  {
    if |s| == 0 then [""]
    else
      var rest := SplitOn(s[1..], c);
      if s[0] == c then [""] + rest
      else [[s[0]] + rest[0]] + rest[1..]
  }

  /** Go's `strings.Join` and Python's `sep.join`. */
  function Join(parts: seq<string>, sep: string): string
    decreases |parts|
  {
    if |parts| == 0 then ""
    else if |parts| == 1 then parts[0]
    else parts[0] + sep + Join(parts[1..], sep)
  }

  /** Go's `strings.TrimLeft` with a one-character cut set. */
  function TrimLeft(s: string, c: char): (r: string)
    ensures |r| <= |s| && r == s[|s| - |r|..]
    ensures |r| > 0 ==> r[0] != c
    ensures forall k :: 0 <= k < |s| - |r| ==> s[k] == c
  {
    if |s| > 0 && s[0] == c then TrimLeft(s[1..], c) else s
  }

  /** Go's `strings.TrimSuffix`. */
  function TrimSuffix(s: string, suffix: string): string {
    if EndsWith(s, suffix) then s[..|s| - |suffix|] else s
  }

  /** Python slice `s[a:b]` for non-negative bounds: both are clamped to
      the length and an inverted interval is empty. */
  function Slice<T>(s: seq<T>, a: nat, b: nat): (r: seq<T>)
    ensures a <= b <= |s| ==> r == s[a..b]
    ensures b <= a || |s| <= a ==> r == []
  {
    var hi := if b <= |s| then b else |s|;
    if a < hi then s[a..hi] else []
  }

  function DigitChar(d: nat): (c: char)
    requires d < 10
    ensures '0' <= c <= '9'
  {
    "0123456789"[d]
  }

  function NatToString(n: nat): (r: string)
    ensures |r| >= 1
    ensures forall k :: 0 <= k < |r| ==> '0' <= r[k] <= '9'
    decreases n
  {
    if n < 10 then [DigitChar(n)] else NatToString(n / 10) + [DigitChar(n % 10)]
  }

  /** Decimal rendering of an integer, as Go's `%d` verb prints it. */
  function IntToString(n: int): (r: string)
    ensures |r| >= 1
    ensures forall k :: 0 <= k < |r| ==> r[k] == '-' || '0' <= r[k] <= '9'
  {
    if n < 0 then "-" + NatToString(-n) else NatToString(n)
  }

  // ---------------------------------------------------------------------
  // Facts about the helpers

  lemma {:induction false} StartsWithAppend(a: string, b: string, t: string)
    requires StartsWith(a, t)
    ensures StartsWith(a + b, t)
  {
    assert (a + b)[..|t|] == a[..|t|];
  }

  lemma {:induction false} HasInfixAppend(a: string, b: string, t: string)
    requires HasInfix(a, t)
    ensures HasInfix(a + b, t) && HasInfix(b + a, t)
    decreases |a|
  {
    if StartsWith(a, t) {
      StartsWithAppend(a, b, t);
    } else {
      assert (a + b)[1..] == a[1..] + b;
      HasInfixAppend(a[1..], b, t);
    }
    HasInfixPrepend(b, a, t);
  }

  lemma {:induction false} HasInfixPrepend(b: string, a: string, t: string)
    requires HasInfix(a, t)
    ensures HasInfix(b + a, t)
    decreases |b|
  {
    if |b| > 0 {
      assert (b + a)[1..] == b[1..] + a;
      HasInfixPrepend(b[1..], a, t);
    } else {
      assert b + a == a;
    }
  }

  /** A string without `c` cannot contain a needle that starts with `c`. */
  lemma {:induction false} NoInfixWithoutFirstChar(s: string, t: string)
    requires |t| > 0 && t[0] !in s
    ensures !HasInfix(s, t)
    decreases |s|
  {
    if |s| > 0 {
      NoInfixWithoutFirstChar(s[1..], t);
    }
  }

  lemma {:induction false} HasInfixExact(p: string, t: string, q: string)
    ensures HasInfix(p + t + q, t)
  {
    assert StartsWith(t + q, t);
    HasInfixPrepend(p, t + q, t);
    assert p + t + q == p + (t + q);
  }

  /** Splitting then joining with the same separator gives the input back. */
  lemma {:induction false} JoinSplit(s: string, c: char)
    ensures Join(SplitOn(s, c), [c]) == s
    decreases |s|
  {
    if |s| > 0 {
      var rest := SplitOn(s[1..], c);
      JoinSplit(s[1..], c);
      if s[0] == c {
        assert SplitOn(s, c) == [""] + rest;
        assert Join([""] + rest, [c]) == "" + [c] + Join(rest, [c]) by {
          assert ([""] + rest)[1..] == rest;
        }
        assert s == [s[0]] + s[1..];
      } else {
        var parts := [[s[0]] + rest[0]] + rest[1..];
        assert SplitOn(s, c) == parts;
        if |rest| == 1 {
          assert Join(parts, [c]) == [s[0]] + rest[0];
          assert Join(rest, [c]) == rest[0];
        } else {
          assert parts[1..] == rest[1..];
          assert Join(parts, [c]) == [s[0]] + rest[0] + [c] + Join(rest[1..], [c]);
          assert Join(rest, [c]) == rest[0] + [c] + Join(rest[1..], [c]);
        }
        assert s == [s[0]] + s[1..];
      }
    }
  }

  lemma {:induction false} SplitOnFree(s: string, c: char)
    requires c !in s
    ensures SplitOn(s, c) == [s]
    decreases |s|
  {
    if |s| > 0 {
      SplitOnFree(s[1..], c);
      assert s == [s[0]] + s[1..];
    }
  }

  lemma {:induction false} SplitOnCons(a: string, c: char, b: string)
    requires c !in a
    ensures SplitOn(a + [c] + b, c) == [a] + SplitOn(b, c)
    decreases |a|
  {
    if |a| == 0 {
      assert a + [c] + b == [c] + b;
      assert ([c] + b)[1..] == b;
    } else {
      var s := a + [c] + b;
      assert s[0] == a[0];
      assert s[1..] == a[1..] + [c] + b;
      SplitOnCons(a[1..], c, b);
      assert a == [a[0]] + a[1..];
    }
  }

  /** Joining parts that do not contain the separator, then splitting, gives
      the parts back. */
  lemma {:induction false} SplitJoin(parts: seq<string>, c: char)
    requires |parts| >= 1
    requires forall k :: 0 <= k < |parts| ==> c !in parts[k]
    ensures SplitOn(Join(parts, [c]), c) == parts
    decreases |parts|
  {
    if |parts| == 1 {
      SplitOnFree(parts[0], c);
    } else {
      SplitJoin(parts[1..], c);
      SplitOnCons(parts[0], c, Join(parts[1..], [c]));
      assert parts == [parts[0]] + parts[1..];
    }
  }

  /** Every part of a split that actually splits is shorter than the input. */
  lemma {:induction false} SplitOnPartsShorter(s: string, c: char)
    requires c in s
    ensures forall k :: 0 <= k < |SplitOn(s, c)| ==> |SplitOn(s, c)[k]| < |s|
    ensures |SplitOn(s, c)| > 1
    decreases |s|
  {
    var rest := SplitOn(s[1..], c);
    SplitOnPartsBounded(s[1..], c);
    if s[0] != c {
      assert c in s[1..];
      SplitOnPartsShorter(s[1..], c);
    }
  }

  lemma {:induction false} SplitOnPartsBounded(s: string, c: char)
    ensures forall k :: 0 <= k < |SplitOn(s, c)| ==> |SplitOn(s, c)[k]| <= |s|
    ensures forall k :: 0 <= k < |SplitOn(s, c)| ==> c !in SplitOn(s, c)[k]
    decreases |s|
  {
    if |s| > 0 {
      SplitOnPartsBounded(s[1..], c);
    }
  }

  lemma NoPercentInNumber(n: int)
    ensures '%' !in IntToString(n)
  {
  }
}

=== FILE: term_args.dfy ===
/** The argument-list parser (term/parser.go) and the queries on its
    result (term/handler.go). Every argument is an option ("--x"), a flag
    ("-x"), the subcommand (the first argument, when it is not dashed and
    not alone) or a plain argument. Dashed arguments must be listed
    verbatim in `valid`; they are stored with their leading dashes cut. The
    program's arguments are a parameter. */
module TermArgs {
  import opened Results
  import opened Strs
  import opened Fmt

  /** The message text, spelled as in the source. */
  const ErrUnknownOption := "uknown option '%s'"

  datatype ArgHandler = ArgHandler(flags: seq<string>, options: seq<string>, args: seq<string>, subcmd: string)

  const NoArgs := ArgHandler([], [], [], "")

  predicate IsOption(arg: string) {
    StartsWith(arg, "--")
  }

  predicate IsFlag(arg: string) {
    StartsWith(arg, "-") && !StartsWith(arg, "--")
  }

  predicate Dashed(arg: string) {
    StartsWith(arg, "-")
  }

  /** The loop of `Parse` from argument `i`, with the handler so far. */
  function ParseFrom(valid: seq<string>, all: seq<string>, i: nat, h: ArgHandler): Result<ArgHandler>
    requires i <= |all|
    decreases |all| - i
  {
    if i == |all| then Ok(h)
    else
      var arg := all[i];
      if IsOption(arg) then
        if arg !in valid then Err(Formatted(ErrUnknownOption, [S(arg)]))
        else ParseFrom(valid, all, i + 1, h.(options := h.options + [TrimLeft(arg, '-')]))
      else if Dashed(arg) then
        if arg !in valid then Err(Formatted(ErrUnknownOption, [S(arg)]))
        else ParseFrom(valid, all, i + 1, h.(flags := h.flags + [TrimLeft(arg, '-')]))
      else if i == 0 && |all| != 1 then ParseFrom(valid, all, i + 1, h.(subcmd := arg))
      else ParseFrom(valid, all, i + 1, h.(args := h.args + [arg]))
  }

  /** `Parse(valid)` on the program's arguments (without the program name). */
  function Parse(valid: seq<string>, all: seq<string>): Result<ArgHandler> {
    ParseFrom(valid, all, 0, NoArgs)
  }

  /** The linear search of `HasFlag` and `HasOption`. */
  function Find(xs: seq<string>, x: string): (r: bool)
    ensures r <==> x in xs
    decreases |xs|
  {
    |xs| > 0 && (xs[0] == x || Find(xs[1..], x))
  }

  function HasFlag(h: ArgHandler, flag: string): bool {
    Find(h.flags, flag)
  }

  function HasOption(h: ArgHandler, option: string): bool {
    Find(h.options, option)
  }

  function SubCommand(h: ArgHandler): string {
    h.subcmd
  }

  function Args(h: ArgHandler): seq<string> {
    h.args
  }

  // ---------------------------------------------------------------------
  // The reference reading of an argument list

  /** The options of `xs`, in order, with their dashes cut. */
  function OptionsOf(xs: seq<string>): seq<string>
    decreases |xs|
  {
    if |xs| == 0 then []
    else (if IsOption(xs[0]) then [TrimLeft(xs[0], '-')] else []) + OptionsOf(xs[1..])
  }

  function FlagsOf(xs: seq<string>): seq<string>
    decreases |xs|
  {
    if |xs| == 0 then []
    else (if IsFlag(xs[0]) then [TrimLeft(xs[0], '-')] else []) + FlagsOf(xs[1..])
  }

  function PlainOf(xs: seq<string>): seq<string>
    decreases |xs|
  {
    if |xs| == 0 then []
    else (if Dashed(xs[0]) then [] else [xs[0]]) + PlainOf(xs[1..])
  }

  predicate HasSubCommand(all: seq<string>) {
    |all| > 1 && !Dashed(all[0])
  }

  predicate Unknown(valid: seq<string>, arg: string) {
    Dashed(arg) && arg !in valid
  }

  /** The position of the first unknown dashed argument, or the length. */
  function FirstUnknown(valid: seq<string>, xs: seq<string>): (n: nat)
    ensures n <= |xs|
    ensures forall j :: 0 <= j < n ==> !Unknown(valid, xs[j])
    ensures n < |xs| ==> Unknown(valid, xs[n])
    decreases |xs|
  {
    if |xs| == 0 || Unknown(valid, xs[0]) then 0 else 1 + FirstUnknown(valid, xs[1..])
  }

  lemma SuffixCons(all: seq<string>, i: nat)
    requires i < |all|
    ensures var xs := all[i..];
            xs[0] == all[i] && xs[1..] == all[i + 1..]
  {
  }

  /** One argument of the reference reading, in front of the rest. */
  lemma ReadingCons(valid: seq<string>, all: seq<string>, i: nat)
    requires i < |all|
    ensures var arg := all[i];
            && OptionsOf(all[i..]) == (if IsOption(arg) then [TrimLeft(arg, '-')] else []) + OptionsOf(all[i + 1..])
            && FlagsOf(all[i..]) == (if IsFlag(arg) then [TrimLeft(arg, '-')] else []) + FlagsOf(all[i + 1..])
            && PlainOf(all[i..]) == (if Dashed(arg) then [] else [arg]) + PlainOf(all[i + 1..])
            && FirstUnknown(valid, all[i..]) == (if Unknown(valid, arg) then 0 else 1 + FirstUnknown(valid, all[i + 1..]))
  {
    SuffixCons(all, i);
  }

  /** The loop after the first argument, or from the first one when there
      is no subcommand, stops exactly at the first unknown dashed argument
      and names it. */
  lemma {:induction false} LoopStops(valid: seq<string>, all: seq<string>, i: nat, h: ArgHandler)
    requires i <= |all|
    requires i > 0 || !HasSubCommand(all)
    ensures var r := ParseFrom(valid, all, i, h);
            var n := FirstUnknown(valid, all[i..]);
            && !r.Crash?
            && (r.Ok? <==> n == |all| - i)
            && (r.Err? ==> n < |all| - i && r.error == Formatted(ErrUnknownOption, [S(all[i + n])]))
    decreases |all| - i
  {
    hide *;
    if i < |all| {
      ParseFromStep(valid, all, i, h);
      ReadingCons(valid, all, i);
      ArgKinds(valid, all[i]);
      var arg := all[i];
      if IsOption(arg) && arg in valid {
        LoopStops(valid, all, i + 1, h.(options := h.options + [TrimLeft(arg, '-')]));
      } else if IsFlag(arg) && arg in valid {
        LoopStops(valid, all, i + 1, h.(flags := h.flags + [TrimLeft(arg, '-')]));
      } else if !Dashed(arg) {
        LoopStops(valid, all, i + 1, h.(args := h.args + [arg]));
      }
    } else {
      LoopEnd(valid, all, h);
      FirstUnknownEmpty(valid, all[|all|..]);
    }
  }

  lemma FirstUnknownEmpty(valid: seq<string>, xs: seq<string>)
    requires xs == []
    ensures FirstUnknown(valid, xs) == 0
  {
  }

  lemma ArgKinds(valid: seq<string>, arg: string)
    ensures IsOption(arg) ==> Dashed(arg) && !IsFlag(arg)
    ensures IsFlag(arg) ==> Dashed(arg) && !IsOption(arg)
    ensures Dashed(arg) && !IsOption(arg) && !IsFlag(arg) ==> false
    ensures Dashed(arg) && arg !in valid ==> Unknown(valid, arg)
  {
    if IsOption(arg) {
      assert arg[..1] == arg[..2][..1];
    }
  }

  lemma LoopEnd(valid: seq<string>, all: seq<string>, h: ArgHandler)
    ensures ParseFrom(valid, all, |all|, h) == Ok(h)
    ensures OptionsOf(all[|all|..]) == [] && FlagsOf(all[|all|..]) == [] && PlainOf(all[|all|..]) == []
  {
    assert all[|all|..] == [];
  }

  /** One step of the loop. */
  lemma ParseFromStep(valid: seq<string>, all: seq<string>, i: nat, h: ArgHandler)
    requires i < |all|
    requires i > 0 || !HasSubCommand(all)
    ensures var arg := all[i];
            var r := ParseFrom(valid, all, i, h);
            && (IsOption(arg) && arg in valid ==> r == ParseFrom(valid, all, i + 1, h.(options := h.options + [TrimLeft(arg, '-')])))
            && (IsFlag(arg) && arg in valid ==> r == ParseFrom(valid, all, i + 1, h.(flags := h.flags + [TrimLeft(arg, '-')])))
            && (!Dashed(arg) ==> r == ParseFrom(valid, all, i + 1, h.(args := h.args + [arg])))
            && (Unknown(valid, arg) ==> r == Err(Formatted(ErrUnknownOption, [S(arg)])))
  {
  }

  /** A successful loop appends the options in order, dashes cut, and leaves the subcommand alone. */
  lemma {:induction false} LoopOptions(valid: seq<string>, all: seq<string>, i: nat, h: ArgHandler)
    requires i <= |all|
    requires i > 0 || !HasSubCommand(all)
    ensures var r := ParseFrom(valid, all, i, h);
            r.Ok? ==> r.value.options == h.options + OptionsOf(all[i..]) && r.value.subcmd == h.subcmd
    decreases |all| - i
  {
    hide *;
    if i < |all| {
      ParseFromStep(valid, all, i, h);
      ReadingCons(valid, all, i);
      ArgKinds(valid, all[i]);
      var arg := all[i];
      if IsOption(arg) && arg in valid {
        var h' := h.(options := h.options + [TrimLeft(arg, '-')]);
        LoopOptions(valid, all, i + 1, h');
        assert h.options + OptionsOf(all[i..]) == h'.options + OptionsOf(all[i + 1..]);
      } else if IsFlag(arg) && arg in valid {
        var h' := h.(flags := h.flags + [TrimLeft(arg, '-')]);
        LoopOptions(valid, all, i + 1, h');
        assert h.options + OptionsOf(all[i..]) == h'.options + OptionsOf(all[i + 1..]);
      } else if !Dashed(arg) {
        var h' := h.(args := h.args + [arg]);
        LoopOptions(valid, all, i + 1, h');
        assert h.options + OptionsOf(all[i..]) == h'.options + OptionsOf(all[i + 1..]);
      }
    } else {
      LoopEnd(valid, all, h);
    }
  }

  /** A successful loop appends the flags in order, dashes cut. */
  lemma {:induction false} LoopFlags(valid: seq<string>, all: seq<string>, i: nat, h: ArgHandler)
    requires i <= |all|
    requires i > 0 || !HasSubCommand(all)
    ensures var r := ParseFrom(valid, all, i, h);
            r.Ok? ==> r.value.flags == h.flags + FlagsOf(all[i..]) && r.value.subcmd == h.subcmd
    decreases |all| - i
  {
    hide *;
    if i < |all| {
      ParseFromStep(valid, all, i, h);
      ReadingCons(valid, all, i);
      ArgKinds(valid, all[i]);
      var arg := all[i];
      if IsOption(arg) && arg in valid {
        var h' := h.(options := h.options + [TrimLeft(arg, '-')]);
        LoopFlags(valid, all, i + 1, h');
        assert h.flags + FlagsOf(all[i..]) == h'.flags + FlagsOf(all[i + 1..]);
      } else if IsFlag(arg) && arg in valid {
        var h' := h.(flags := h.flags + [TrimLeft(arg, '-')]);
        LoopFlags(valid, all, i + 1, h');
        assert h.flags + FlagsOf(all[i..]) == h'.flags + FlagsOf(all[i + 1..]);
      } else if !Dashed(arg) {
        var h' := h.(args := h.args + [arg]);
        LoopFlags(valid, all, i + 1, h');
        assert h.flags + FlagsOf(all[i..]) == h'.flags + FlagsOf(all[i + 1..]);
      }
    } else {
      LoopEnd(valid, all, h);
    }
  }

  /** A successful loop appends the plain arguments in order. */
  lemma {:induction false} LoopArgs(valid: seq<string>, all: seq<string>, i: nat, h: ArgHandler)
    requires i <= |all|
    requires i > 0 || !HasSubCommand(all)
    ensures var r := ParseFrom(valid, all, i, h);
            r.Ok? ==> r.value.args == h.args + PlainOf(all[i..]) && r.value.subcmd == h.subcmd
    decreases |all| - i
  {
    hide *;
    if i < |all| {
      ParseFromStep(valid, all, i, h);
      ReadingCons(valid, all, i);
      ArgKinds(valid, all[i]);
      var arg := all[i];
      if IsOption(arg) && arg in valid {
        var h' := h.(options := h.options + [TrimLeft(arg, '-')]);
        LoopArgs(valid, all, i + 1, h');
        assert h.args + PlainOf(all[i..]) == h'.args + PlainOf(all[i + 1..]);
      } else if IsFlag(arg) && arg in valid {
        var h' := h.(flags := h.flags + [TrimLeft(arg, '-')]);
        LoopArgs(valid, all, i + 1, h');
        assert h.args + PlainOf(all[i..]) == h'.args + PlainOf(all[i + 1..]);
      } else if !Dashed(arg) {
        var h' := h.(args := h.args + [arg]);
        LoopArgs(valid, all, i + 1, h');
        assert h.args + PlainOf(all[i..]) == h'.args + PlainOf(all[i + 1..]);
      }
    } else {
      LoopEnd(valid, all, h);
    }
  }

  /** `Parse` against the reference reading: it fails exactly when a dashed
      argument is not listed in `valid`, naming the first such; otherwise
      the options, flags and plain arguments come out in order with their
      dashes cut, and the first argument is the subcommand exactly when it
      is not dashed and not alone. */
  lemma ParseSpec(valid: seq<string>, all: seq<string>)
    ensures var r := Parse(valid, all);
            var n := FirstUnknown(valid, all);
            && !r.Crash?
            && (r.Ok? <==> n == |all|)
            && (r.Err? ==> r.error == Formatted(ErrUnknownOption, [S(all[n])]))
            && (r.Ok? ==> && r.value.options == OptionsOf(all)
                          && r.value.flags == FlagsOf(all)
                          && r.value.subcmd == (if HasSubCommand(all) then all[0] else "")
                          && r.value.args == PlainOf(if HasSubCommand(all) then all[1..] else all))
  {
    hide *;
    ParseStart(valid, all);
    assert all[0..] == all;
    if HasSubCommand(all) {
      var h := NoArgs.(subcmd := all[0]);
      LoopStops(valid, all, 1, h);
      LoopOptions(valid, all, 1, h);
      LoopFlags(valid, all, 1, h);
      LoopArgs(valid, all, 1, h);
      ReadingCons(valid, all, 0);
      ArgKinds(valid, all[0]);
    } else {
      LoopStops(valid, all, 0, NoArgs);
      LoopOptions(valid, all, 0, NoArgs);
      LoopFlags(valid, all, 0, NoArgs);
      LoopArgs(valid, all, 0, NoArgs);
    }
  }

  /** `Parse` starts the loop, past the subcommand when there is one. */
  lemma ParseStart(valid: seq<string>, all: seq<string>)
    ensures Parse(valid, all) == ParseFrom(valid, all, 0, NoArgs)
    ensures HasSubCommand(all) ==> Parse(valid, all) == ParseFrom(valid, all, 1, NoArgs.(subcmd := all[0]))
    ensures HasSubCommand(all) ==> |all| > 1 && !Dashed(all[0]) && !Unknown(valid, all[0])
    ensures HasSubCommand(all) ==> !IsOption(all[0]) && !IsFlag(all[0])
    ensures NoArgs.options == [] && NoArgs.flags == [] && NoArgs.args == [] && NoArgs.subcmd == ""
  {
    if HasSubCommand(all) {
      ArgKinds(valid, all[0]);
    }
  }

  lemma {:induction false} FlagsOfMembers(xs: seq<string>, f: string)
    ensures f in FlagsOf(xs) <==> exists j :: 0 <= j < |xs| && IsFlag(xs[j]) && TrimLeft(xs[j], '-') == f
    decreases |xs|
  {
    hide *;
    if |xs| > 0 {
      ReadingCons([], xs, 0);
      SuffixCons(xs, 0);
      assert xs[0..] == xs;
      FlagsOfMembers(xs[1..], f);
      if exists j :: 0 <= j < |xs| && IsFlag(xs[j]) && TrimLeft(xs[j], '-') == f {
        var j :| 0 <= j < |xs| && IsFlag(xs[j]) && TrimLeft(xs[j], '-') == f;
        if j > 0 {
          assert xs[1..][j - 1] == xs[j];
        }
      }
      if f in FlagsOf(xs[1..]) {
        var j :| 0 <= j < |xs[1..]| && IsFlag(xs[1..][j]) && TrimLeft(xs[1..][j], '-') == f;
        assert xs[j + 1] == xs[1..][j];
      }
    } else {
      LoopEnd([], xs, NoArgs);
      assert xs[|xs|..] == xs;
    }
  }

  lemma {:induction false} OptionsOfMembers(xs: seq<string>, o: string)
    ensures o in OptionsOf(xs) <==> exists j :: 0 <= j < |xs| && IsOption(xs[j]) && TrimLeft(xs[j], '-') == o
    decreases |xs|
  {
    hide *;
    if |xs| > 0 {
      ReadingCons([], xs, 0);
      SuffixCons(xs, 0);
      assert xs[0..] == xs;
      OptionsOfMembers(xs[1..], o);
      if exists j :: 0 <= j < |xs| && IsOption(xs[j]) && TrimLeft(xs[j], '-') == o {
        var j :| 0 <= j < |xs| && IsOption(xs[j]) && TrimLeft(xs[j], '-') == o;
        if j > 0 {
          assert xs[1..][j - 1] == xs[j];
        }
      }
      if o in OptionsOf(xs[1..]) {
        var j :| 0 <= j < |xs[1..]| && IsOption(xs[1..][j]) && TrimLeft(xs[1..][j], '-') == o;
        assert xs[j + 1] == xs[1..][j];
      }
    } else {
      LoopEnd([], xs, NoArgs);
      assert xs[|xs|..] == xs;
    }
  }

  /** The handler's queries after a successful parse: `HasFlag(f)` and
      `HasOption(o)` hold exactly when some argument, dashes cut, is `f`
      or `o` of that kind; `SubCommand` and `Args` give the subcommand and
      the plain arguments. */
  lemma Queries(valid: seq<string>, all: seq<string>, f: string)
    requires Parse(valid, all).Ok?
    ensures var h := Parse(valid, all).value;
            && (HasFlag(h, f) <==> exists j :: 0 <= j < |all| && IsFlag(all[j]) && TrimLeft(all[j], '-') == f)
            && (HasOption(h, f) <==> exists j :: 0 <= j < |all| && IsOption(all[j]) && TrimLeft(all[j], '-') == f)
            && SubCommand(h) == (if HasSubCommand(all) then all[0] else "")
            && Args(h) == PlainOf(if HasSubCommand(all) then all[1..] else all)
  {
    ParseSpec(valid, all);
    FlagsOfMembers(all, f);
    OptionsOfMembers(all, f);
  }

  /** A lone argument is a plain argument, not a subcommand; with more it
      is the subcommand. */
  lemma SubCommandNeedsCompany()
    ensures Parse([], ["main.fizz"]) == Ok(NoArgs.(args := ["main.fizz"]))
    ensures Parse([], ["run", "main.fizz"]) == Ok(NoArgs.(subcmd := "run", args := ["main.fizz"]))
  {
    assert !StartsWith("main.fizz", "-") by {
      assert "main.fizz"[..1][0] == 'm';
    }
    assert !StartsWith("run", "-") by {
      assert "run"[..1][0] == 'r';
    }
    assert [] + ["main.fizz"] == ["main.fizz"];
  }

  /** All leading dashes are cut, and an option must be listed with its
      dashes. */
  lemma DashesCut()
    ensures Parse(["--help"], ["--help"]) == Ok(NoArgs.(options := ["help"]))
    ensures Parse(["--help"], ["-help"]) == Err(Formatted(ErrUnknownOption, [S("-help")]))
  {
    hide *;
    HelpKinds();
    LoneStart(["--help"], ["--help"]);
    LoneStart(["--help"], ["-help"]);
    ParseFromStep(["--help"], ["--help"], 0, NoArgs);
    ParseFromStep(["--help"], ["-help"], 0, NoArgs);
    ArgKinds(["--help"], "-help");
    LoopEnd(["--help"], ["--help"], NoArgs.(options := [] + ["help"]));
    assert [] + ["help"] == ["help"];
  }

  /** Option and flag spellings of "help". */
  lemma HelpKinds()
    ensures IsOption("--help") && TrimLeft("--help", '-') == "help"
    ensures Dashed("-help") && !IsOption("-help") && "-help" !in ["--help"]
    ensures NoArgs.options == []
  {
    OptionHelp();
    FlagHelp();
  }

  lemma OptionHelp()
    ensures IsOption("--help") && TrimLeft("--help", '-') == "help"
  {
    var s := "--help";
    assert s[..2] == "--";
    assert s[1..] == "-help";
    assert s[1..][1..] == "help";
    assert TrimLeft(s, '-') == TrimLeft(s[1..], '-') == TrimLeft(s[1..][1..], '-');
    assert "help"[0] == 'h';
  }

  lemma FlagHelp()
    ensures Dashed("-help") && !IsOption("-help") && "-help" !in ["--help"]
  {
    assert "-help"[..1] == "-";
    assert "-help"[..2][1] == 'h';
    assert |"-help"| != |"--help"|;
  }

  /** A single argument cannot be a subcommand; `Parse` starts the loop. */
  lemma LoneStart(valid: seq<string>, all: seq<string>)
    requires |all| <= 1
    ensures !HasSubCommand(all) && Parse(valid, all) == ParseFrom(valid, all, 0, NoArgs)
  {
  }
}

=== FILE: term_flags.dfy ===
/** The command-line flag parser (term/term.go). The parser holds two maps,
    the registered flag names (with their dashes) to whether they were seen,
    and flag names to the callback that runs when they are seen. Go mutates
    both by reference; here the parser is a value that `Parse` returns
    together with the file name, the error, and the callbacks it ran, in
    order. The program's arguments are a parameter. */
module TermFlags {
  import opened Results
  import opened Strs
  import opened Fmt

  const ErrNotValidArg := "flag name '%s' is not defined"
  const ErrTooManyFiles := "cannot run more than one file"

  datatype FlagParser<F> = FlagParser(funcs: map<string, F>, flags: map<string, bool>)

  datatype Parsed<F> = Parsed(parser: FlagParser<F>, filename: string, err: Option<Message>, ran: seq<F>)

  /** Registers `prefix + n` for every `n` in `names`, unset. */
  function Register(flags: map<string, bool>, prefix: string, names: seq<string>): (r: map<string, bool>)
    ensures forall k :: k in r <==> k in flags || exists n :: n in names && k == prefix + n
    ensures forall k :: k in r ==> r[k] == (if exists n :: n in names && k == prefix + n then false else flags[k])
    decreases |names|
  {
    if |names| == 0 then flags
    else
      var r := Register(flags[prefix + names[0] := false], prefix, names[1..]);
      assert forall n :: n in names <==> n == names[0] || n in names[1..];
      r
  }

  /** `NewFlagParser`: "-s" for each single-dash name and "--d" for each
      double-dash name, all unset, and no callbacks. */
  function NewFlagParser<F>(sd: seq<string>, dd: seq<string>): (p: FlagParser<F>)
    ensures p.funcs == map[]
    ensures forall k :: k in p.flags <==> (exists s :: s in sd && k == "-" + s) || (exists d :: d in dd && k == "--" + d)
    ensures forall k :: k in p.flags ==> !p.flags[k]
  {
    FlagParser(map[], Register(Register(map[], "-", sd), "--", dd))
  }

  predicate IsValid<F>(p: FlagParser<F>, name: string) {
    name in p.flags
  }

  predicate IsFunc<F>(p: FlagParser<F>, name: string) {
    name in p.funcs
  }

  /** `Assign`: only a registered name can get a callback; a later
      assignment replaces an earlier one. */
  function Assign<F>(p: FlagParser<F>, name: string, f: F): (r: (FlagParser<F>, Option<Message>))
    ensures r.1.None? <==> IsValid(p, name)
    ensures r.1.Some? ==> r.0 == p && r.1 == Some(Formatted(ErrNotValidArg, [S(name)]))
    ensures r.1.None? ==> r.0.flags == p.flags && name in r.0.funcs && r.0.funcs[name] == f
    ensures forall k :: k != name ==> (k in r.0.funcs <==> k in p.funcs)
    ensures forall k :: k != name && k in p.funcs ==> r.0.funcs[k] == p.funcs[k]
  {
    if !IsValid(p, name) then (p, Some(Formatted(ErrNotValidArg, [S(name)])))
    else (p.(funcs := p.funcs[name := f]), None)
  }

  /** The callback registered for `name`, as a list of at most one. */
  function Callback<F>(p: FlagParser<F>, name: string): seq<F> {
    if IsFunc(p, name) then [p.funcs[name]] else []
  }

  /** Marks a registered name as seen and runs its callback. */
  function See<F>(p: FlagParser<F>, name: string): FlagParser<F>
    requires IsValid(p, name)
  {
    p.(flags := p.flags[name := true])
  }

  /** The letters of a single-dash argument: `strings.Split(flag, "-")[1]`,
      the text after the first dash up to the next one. */
  function Letters(arg: string): (r: string)
    requires StartsWith(arg, "-")
    ensures '-' !in r
  {
    SplitOnPartsBounded(arg, '-');
    assert |SplitOn(arg, '-')| >= 2 by {
      assert arg[0] == '-';
    }
    SplitOn(arg, '-')[1]
  }

  /** The inner loop over the letters of "-abc": each "-a" must be
      registered; the first that is not ends the parse with an error. */
  function SetLetters<F>(p: FlagParser<F>, letters: string, ran: seq<F>): (r: (FlagParser<F>, Option<Message>, seq<F>))
    decreases |letters|
  {
    if |letters| == 0 then (p, None, ran)
    else
      var name := "-" + [letters[0]];
      if !IsValid(p, name) then (p, Some(Formatted(ErrNotValidArg, [S(name)])), ran)
      else SetLetters(See(p, name), letters[1..], ran + Callback(p, name))
  }

  /** `Parse` over the remaining arguments, with the file name so far and
      the callbacks run so far. */
  function Run<F>(p: FlagParser<F>, args: seq<string>, filename: string, ran: seq<F>): Parsed<F>
    decreases |args|
  {
    if |args| == 0 then Parsed(p, filename, None, ran)
    else
      var arg := args[0];
      if StartsWith(arg, "--") then
        if !IsValid(p, arg) then Parsed(p, filename, Some(Formatted(ErrNotValidArg, [S(arg)])), ran)
        else Run(See(p, arg), args[1..], filename, ran + Callback(p, arg))
      else if StartsWith(arg, "-") then
        var (p', err, ran') := SetLetters(p, Letters(arg), ran);
        if err.Some? then Parsed(p', filename, err, ran')
        else Run(p', args[1..], filename, ran')
      else if filename != "" then Parsed(p, filename, Some(Plain(ErrTooManyFiles)), ran)
      else Run(p, args[1..], arg, ran)
  }

  /** `Parse` on the program's arguments (without the program name). */
  function Parse<F>(p: FlagParser<F>, args: seq<string>): Parsed<F> {
    Run(p, args, "", [])
  }
}

=== FILE: term_flags_props.dfy ===
/** What the flag parser (term/term.go) guarantees, against a reference
    reading of the argument list: which registered names an argument
    mentions, which arguments are file names, and when a second file name
    is an error. */
module TermFlagsProps {
  import opened Results
  import opened Strs
  import opened Fmt
  import opened TermFlags

  /** The flag names "-a", "-b", … for the letters "ab…". */
  function LetterNames(letters: string): (r: seq<string>)
    ensures |r| == |letters|
    ensures forall j :: 0 <= j < |letters| ==> r[j] == "-" + [letters[j]]
    decreases |letters|
  {
    if |letters| == 0 then [] else ["-" + [letters[0]]] + LetterNames(letters[1..])
  }

  /** The registered names an argument asks for. */
  function Names(arg: string): seq<string> {
    if StartsWith(arg, "--") then [arg]
    else if StartsWith(arg, "-") then LetterNames(Letters(arg))
    else []
  }

  /** The callbacks assigned to `names`, in order; a name without one adds
      nothing. */
  function NamesCallbacks<F>(funcs: map<string, F>, names: seq<string>): seq<F>
    decreases |names|
  {
    if |names| == 0 then []
    else (if names[0] in funcs then [funcs[names[0]]] else []) + NamesCallbacks(funcs, names[1..])
  }

  /** The reference for the callbacks a whole argument list runs: those of
      each argument's names, argument by argument. */
  function CallbacksOf<F>(funcs: map<string, F>, args: seq<string>): seq<F>
    decreases |args|
  {
    if |args| == 0 then [] else NamesCallbacks(funcs, Names(args[0])) + CallbacksOf(funcs, args[1..])
  }

  ghost predicate Mentioned(args: seq<string>, k: string) {
    exists i :: 0 <= i < |args| && k in Names(args[i])
  }

  predicate AllRegistered(keys: set<string>, args: seq<string>) {
    forall i :: 0 <= i < |args| ==> forall n :: n in Names(args[i]) ==> n in keys
  }

  /** The arguments without a leading dash, in order. */
  function Files(args: seq<string>): seq<string>
    decreases |args|
  {
    if |args| == 0 then []
    else if StartsWith(args[0], "-") then Files(args[1..])
    else [args[0]] + Files(args[1..])
  }

  /** No file name arrives while an earlier one is held: every file name
      but the last is empty, counting the one held at the start. */
  predicate FilesOk(held: string, files: seq<string>)
    decreases |files|
  {
    |files| == 0 || (held == "" && FilesOk(files[0], files[1..]))
  }

  function LastFile(held: string, files: seq<string>): string
    decreases |files|
  {
    if |files| == 0 then held else LastFile(files[0], files[1..])
  }

  ghost predicate SameShape<F>(p: FlagParser<F>, q: FlagParser<F>) {
    && q.funcs == p.funcs
    && q.flags.Keys == p.flags.Keys
    && (forall k :: k in p.flags && p.flags[k] ==> q.flags[k])
  }

  /** The letters loop only sets registered names and keeps the callbacks. */
  lemma {:induction false} SetLettersShape<F>(p: FlagParser<F>, letters: string, ran: seq<F>)
    ensures SameShape(p, SetLetters(p, letters, ran).0)
    decreases |letters|
  {
    if |letters| > 0 {
      var name := "-" + [letters[0]];
      if IsValid(p, name) {
        SetLettersShape(See(p, name), letters[1..], ran + Callback(p, name));
      }
    }
  }

  /** The letters loop succeeds exactly when every letter is registered,
      and then sets exactly those names. */
  lemma {:induction false} SetLettersOk<F>(p: FlagParser<F>, letters: string, ran: seq<F>)
    ensures var r := SetLetters(p, letters, ran);
            && (r.1.None? <==> forall n :: n in LetterNames(letters) ==> n in p.flags)
            && (r.1.None? ==> forall k :: k in p.flags ==> k in r.0.flags && r.0.flags[k] == (p.flags[k] || k in LetterNames(letters)))
    decreases |letters|
  {
    if |letters| > 0 {
      var name := "-" + [letters[0]];
      assert LetterNames(letters) == [name] + LetterNames(letters[1..]);
      if IsValid(p, name) {
        SetLettersOk(See(p, name), letters[1..], ran + Callback(p, name));
      }
    }
  }

  /** A successful letters loop runs the letters' callbacks in order. */
  lemma {:induction false} SetLettersRan<F>(p: FlagParser<F>, letters: string, ran: seq<F>)
    ensures var r := SetLetters(p, letters, ran);
            r.1.None? ==> r.2 == ran + NamesCallbacks(p.funcs, LetterNames(letters))
    decreases |letters|
  {
    if |letters| > 0 {
      var name := "-" + [letters[0]];
      assert LetterNames(letters) == [name] + LetterNames(letters[1..]);
      assert NamesCallbacks(p.funcs, LetterNames(letters))
             == Callback(p, name) + NamesCallbacks(p.funcs, LetterNames(letters[1..]));
      if IsValid(p, name) {
        SetLettersRan(See(p, name), letters[1..], ran + Callback(p, name));
        assert ran + Callback(p, name) + NamesCallbacks(p.funcs, LetterNames(letters[1..]))
               == ran + (Callback(p, name) + NamesCallbacks(p.funcs, LetterNames(letters[1..])));
      }
    } else {
      assert LetterNames(letters) == [];
      assert ran + [] == ran;
    }
  }

  /** The letters loop stops at the first unregistered letter with an
      error naming it, and the letters before it stay set. */
  lemma {:induction false} SetLettersStops<F>(p: FlagParser<F>, letters: string, ran: seq<F>)
    ensures var r := SetLetters(p, letters, ran);
            r.1.Some? ==>
              exists j :: 0 <= j < |letters|
                          && "-" + [letters[j]] !in p.flags
                          && (forall i :: 0 <= i < j ==> "-" + [letters[i]] in p.flags)
                          && r.1 == Some(Formatted(ErrNotValidArg, [S("-" + [letters[j]])]))
                          && forall k :: k in p.flags ==> k in r.0.flags && r.0.flags[k] == (p.flags[k] || k in LetterNames(letters[..j]))
    decreases |letters|
  {
    hide *;
    if |letters| > 0 {
      var name := "-" + [letters[0]];
      SetLettersStep(p, letters, ran);
      if !IsValid(p, name) {
        assert letters[..0] == [];
        NoLetterNames(letters[..0]);
      } else {
        var q := See(p, name);
        var r := SetLetters(q, letters[1..], ran + Callback(p, name));
        SetLettersStops(q, letters[1..], ran + Callback(p, name));
        if r.1.Some? {
          var j :| 0 <= j < |letters[1..]|
                   && "-" + [letters[1..][j]] !in q.flags
                   && (forall i :: 0 <= i < j ==> "-" + [letters[1..][i]] in q.flags)
                   && r.1 == Some(Formatted(ErrNotValidArg, [S("-" + [letters[1..][j]])]))
                   && forall k :: k in q.flags ==> k in r.0.flags && r.0.flags[k] == (q.flags[k] || k in LetterNames(letters[1..][..j]));
          StopsShift(p, letters, j, r.0.flags);
          assert letters[1..][j] == letters[j + 1];
        }
      }
    } else {
      SetLettersEnd(p, letters, ran);
    }
  }

  lemma SetLettersEnd<F>(p: FlagParser<F>, letters: string, ran: seq<F>)
    requires letters == []
    ensures SetLetters(p, letters, ran) == (p, None, ran)
  {
  }

  /** One letter of `SetLetters`. */
  lemma SetLettersStep<F>(p: FlagParser<F>, letters: string, ran: seq<F>)
    requires |letters| > 0
    ensures var name := "-" + [letters[0]];
            && (IsValid(p, name) <==> name in p.flags)
            && (!IsValid(p, name) ==> SetLetters(p, letters, ran) == (p, Some(Formatted(ErrNotValidArg, [S(name)])), ran))
            && (IsValid(p, name) ==> SetLetters(p, letters, ran) == SetLetters(See(p, name), letters[1..], ran + Callback(p, name)))
  {
  }

  lemma NoLetterNames(letters: string)
    requires letters == []
    ensures LetterNames(letters) == []
  {
  }

  /** The induction step of `SetLettersStops`: the stopping letter found
      after a registered first letter is one further on. */
  lemma StopsShift<F>(p: FlagParser<F>, letters: string, j: nat, flags: map<string, bool>)
    requires |letters| > 0 && "-" + [letters[0]] in p.flags
    requires j < |letters| - 1
    requires var q := See(p, "-" + [letters[0]]);
             && "-" + [letters[1..][j]] !in q.flags
             && (forall i :: 0 <= i < j ==> "-" + [letters[1..][i]] in q.flags)
             && forall k :: k in q.flags ==> k in flags && flags[k] == (q.flags[k] || k in LetterNames(letters[1..][..j]))
    ensures "-" + [letters[j + 1]] !in p.flags
    ensures forall i :: 0 <= i < j + 1 ==> "-" + [letters[i]] in p.flags
    ensures forall k :: k in p.flags ==> k in flags && flags[k] == (p.flags[k] || k in LetterNames(letters[..j + 1]))
  {
    var name := "-" + [letters[0]];
    assert LetterNames(letters[..j + 1]) == [name] + LetterNames(letters[1..][..j]) by {
      assert letters[..j + 1][1..] == letters[1..][..j];
    }
    forall i | 0 <= i < j + 1
      ensures "-" + [letters[i]] in p.flags
    {
      if i > 0 {
        assert letters[i] == letters[1..][i - 1];
      }
    }
    assert letters[j + 1] == letters[1..][j];
  }

  lemma {:induction false} FilesCons(arg: string, rest: seq<string>)
    ensures Files([arg] + rest) == (if StartsWith(arg, "-") then [] else [arg]) + Files(rest)
  {
    assert ([arg] + rest)[1..] == rest;
  }

  lemma MentionedCons(args: seq<string>)
    requires |args| > 0
    ensures forall k :: Mentioned(args, k) <==> k in Names(args[0]) || Mentioned(args[1..], k)
  {
    var rest := args[1..];
    forall k
      ensures Mentioned(args, k) <==> k in Names(args[0]) || Mentioned(rest, k)
    {
      if Mentioned(rest, k) {
        var i :| 0 <= i < |rest| && k in Names(rest[i]);
        assert args[i + 1] == rest[i];
      }
      if Mentioned(args, k) && k !in Names(args[0]) {
        var i :| 0 <= i < |args| && k in Names(args[i]);
        assert rest[i - 1] == args[i];
      }
    }
  }

  lemma RegisteredCons(keys: set<string>, args: seq<string>)
    requires |args| > 0
    ensures AllRegistered(keys, args) <==>
            (forall n :: n in Names(args[0]) ==> n in keys) && AllRegistered(keys, args[1..])
  {
    var rest := args[1..];
    if (forall n :: n in Names(args[0]) ==> n in keys) && AllRegistered(keys, rest) {
      forall i | 0 <= i < |args|
        ensures forall n :: n in Names(args[i]) ==> n in keys
      {
        if i > 0 {
          assert args[i] == rest[i - 1];
        }
      }
    }
    if AllRegistered(keys, args) {
      forall i | 0 <= i < |rest|
        ensures forall n :: n in Names(rest[i]) ==> n in keys
      {
        assert rest[i] == args[i + 1];
      }
    }
  }

  /** `Parse` never adds or removes a registered name, never unsets a
      flag and never changes the callbacks. */
  lemma {:induction false} RunShape<F>(p: FlagParser<F>, args: seq<string>, held: string, ran: seq<F>)
    ensures SameShape(p, Run(p, args, held, ran).parser)
    decreases |args|
  {
    if |args| > 0 {
      var arg := args[0];
      if StartsWith(arg, "--") {
        if IsValid(p, arg) {
          RunShape(See(p, arg), args[1..], held, ran + Callback(p, arg));
        }
      } else if StartsWith(arg, "-") {
        var (q, err, ran') := SetLetters(p, Letters(arg), ran);
        SetLettersShape(p, Letters(arg), ran);
        if err.None? {
          RunShape(q, args[1..], held, ran');
        }
      } else if held == "" {
        RunShape(p, args[1..], arg, ran);
      }
    }
  }

  /** `Parse` succeeds exactly when every name the arguments ask for is
      registered and no second file name comes. */
  lemma {:induction false} RunOk<F>(p: FlagParser<F>, args: seq<string>, held: string, ran: seq<F>)
    ensures Run(p, args, held, ran).err.None? <==> AllRegistered(p.flags.Keys, args) && FilesOk(held, Files(args))
    decreases |args|
  {
    if |args| > 0 {
      var arg := args[0];
      var rest := args[1..];
      assert args == [arg] + rest;
      FilesCons(arg, rest);
      RegisteredCons(p.flags.Keys, args);
      if StartsWith(arg, "--") {
        assert Names(arg) == [arg];
        if IsValid(p, arg) {
          var q := See(p, arg);
          RunOk(q, rest, held, ran + Callback(p, arg));
          assert q.flags.Keys == p.flags.Keys;
        }
      } else if StartsWith(arg, "-") {
        var (q, err, ran') := SetLetters(p, Letters(arg), ran);
        SetLettersShape(p, Letters(arg), ran);
        SetLettersOk(p, Letters(arg), ran);
        assert Names(arg) == LetterNames(Letters(arg));
        if err.None? {
          RunOk(q, rest, held, ran');
        }
      } else {
        assert Names(arg) == [];
        if held == "" {
          RunOk(p, rest, arg, ran);
        }
      }
    }
  }

  /** After a successful `Parse` the file name is the last one given, a
      registered flag is set exactly when it was set before or an argument
      mentions it, and the callbacks of the mentioned names have run, one
      per mention, in argument order. */
  lemma {:induction false} RunResult<F>(p: FlagParser<F>, args: seq<string>, held: string, ran: seq<F>)
    ensures var r := Run(p, args, held, ran);
            && (r.err.None? ==> r.filename == LastFile(held, Files(args)))
            && (r.err.None? ==> forall k :: k in p.flags ==> k in r.parser.flags && r.parser.flags[k] == (p.flags[k] || Mentioned(args, k)))
            && (r.err.None? ==> r.ran == ran + CallbacksOf(p.funcs, args))
    decreases |args|
  {
    RunCallbacks(p, args, held, ran);
    RunFlags(p, args, held, ran);
  }

  /** The callback part of `RunResult`, by induction over the arguments. */
  lemma {:induction false} RunCallbacks<F>(p: FlagParser<F>, args: seq<string>, held: string, ran: seq<F>)
    ensures var r := Run(p, args, held, ran);
            r.err.None? ==> r.ran == ran + CallbacksOf(p.funcs, args)
    decreases |args|
  {
    hide *;
    if |args| == 0 {
      RunEnd(p, args, held, ran);
    } else {
      var arg := args[0];
      var rest := args[1..];
      RunStep(p, args, held, ran);
      CallbacksCons(p, args);
      if StartsWith(arg, "--") {
        if IsValid(p, arg) {
          SeeFuncs(p, arg);
          RunCallbacks(See(p, arg), rest, held, ran + Callback(p, arg));
          SeqAssoc(ran, Callback(p, arg), CallbacksOf(p.funcs, rest));
        }
      } else if StartsWith(arg, "-") {
        var l := SetLetters(p, Letters(arg), ran);
        SetLettersRan(p, Letters(arg), ran);
        SingleDashNames(arg);
        if l.1.None? {
          SetLettersFuncs(p, Letters(arg), ran);
          RunCallbacks(l.0, rest, held, l.2);
          SeqAssoc(ran, NamesCallbacks(p.funcs, Names(arg)), CallbacksOf(p.funcs, rest));
        }
      } else if held == "" {
        RunCallbacks(p, rest, arg, ran);
      }
    }
  }

  lemma RunEnd<F>(p: FlagParser<F>, args: seq<string>, held: string, ran: seq<F>)
    requires args == []
    ensures Run(p, args, held, ran).err.None? && Run(p, args, held, ran).ran == ran + CallbacksOf(p.funcs, args)
  {
    assert ran + [] == ran;
  }

  /** One argument of `Run`: a registered "--x", a "-abc" whose letters
      are all registered, or a first file name continues the loop; any
      other argument ends it with an error. */
  lemma RunStep<F>(p: FlagParser<F>, args: seq<string>, held: string, ran: seq<F>)
    requires |args| > 0
    ensures var arg := args[0];
            var r := Run(p, args, held, ran);
            if StartsWith(arg, "--") then
              if IsValid(p, arg) then r == Run(See(p, arg), args[1..], held, ran + Callback(p, arg))
              else r.err.Some?
            else if StartsWith(arg, "-") then
              var l := SetLetters(p, Letters(arg), ran);
              if l.1.None? then r == Run(l.0, args[1..], held, l.2)
              else r.err.Some?
            else if held == "" then r == Run(p, args[1..], arg, ran)
            else r.err.Some?
  {
  }

  /** The callbacks of an argument list start with those of its first
      argument, which for "--x" is the callback of "--x" and for "-abc"
      those of its letters. */
  lemma CallbacksCons<F>(p: FlagParser<F>, args: seq<string>)
    requires |args| > 0
    ensures CallbacksOf(p.funcs, args) == NamesCallbacks(p.funcs, Names(args[0])) + CallbacksOf(p.funcs, args[1..])
    ensures StartsWith(args[0], "--") ==> NamesCallbacks(p.funcs, Names(args[0])) == Callback(p, args[0])
    ensures !StartsWith(args[0], "-") ==> NamesCallbacks(p.funcs, Names(args[0])) == []
  {
    hide *;
    CallbacksUnfold(p.funcs, args);
    DoubleDashCallback(p, args[0]);
    FileCallbacks(p.funcs, args[0]);
  }

  lemma CallbacksUnfold<F>(funcs: map<string, F>, args: seq<string>)
    requires |args| > 0
    ensures CallbacksOf(funcs, args) == NamesCallbacks(funcs, Names(args[0])) + CallbacksOf(funcs, args[1..])
  {
  }

  lemma DoubleDashCallback<F>(p: FlagParser<F>, arg: string)
    ensures StartsWith(arg, "--") ==> NamesCallbacks(p.funcs, Names(arg)) == Callback(p, arg)
  {
    if StartsWith(arg, "--") {
      assert Names(arg) == [arg];
      assert NamesCallbacks(p.funcs, [arg]) == Callback(p, arg) + NamesCallbacks(p.funcs, []);
    }
  }

  lemma FileCallbacks<F>(funcs: map<string, F>, arg: string)
    ensures !StartsWith(arg, "-") ==> NamesCallbacks(funcs, Names(arg)) == []
  {
  }

  lemma SingleDashNames(arg: string)
    requires StartsWith(arg, "-") && !StartsWith(arg, "--")
    ensures Names(arg) == LetterNames(Letters(arg))
  {
  }

  lemma SeeFuncs<F>(p: FlagParser<F>, name: string)
    requires IsValid(p, name)
    ensures See(p, name).funcs == p.funcs
  {
  }

  lemma SetLettersFuncs<F>(p: FlagParser<F>, letters: string, ran: seq<F>)
    ensures SetLetters(p, letters, ran).0.funcs == p.funcs
  {
    SetLettersShape(p, letters, ran);
  }

  lemma SeqAssoc<F>(a: seq<F>, b: seq<F>, c: seq<F>)
    ensures a + b + c == a + (b + c)
  {
  }

  /** The file name and flag parts of `RunResult`. */
  lemma {:induction false} RunFlags<F>(p: FlagParser<F>, args: seq<string>, held: string, ran: seq<F>)
    ensures var r := Run(p, args, held, ran);
            && (r.err.None? ==> r.filename == LastFile(held, Files(args)))
            && (r.err.None? ==> forall k :: k in p.flags ==> k in r.parser.flags && r.parser.flags[k] == (p.flags[k] || Mentioned(args, k)))
    decreases |args|
  {
    if |args| > 0 {
      var arg := args[0];
      var rest := args[1..];
      assert args == [arg] + rest;
      FilesCons(arg, rest);
      MentionedCons(args);
      if StartsWith(arg, "--") {
        assert Names(arg) == [arg];
        if IsValid(p, arg) {
          RunFlags(See(p, arg), rest, held, ran + Callback(p, arg));
        }
      } else if StartsWith(arg, "-") {
        var (q, err, ran') := SetLetters(p, Letters(arg), ran);
        SetLettersShape(p, Letters(arg), ran);
        SetLettersOk(p, Letters(arg), ran);
        assert Names(arg) == LetterNames(Letters(arg));
        if err.None? {
          RunFlags(q, rest, held, ran');
        }
      } else {
        assert Names(arg) == [];
        if held == "" {
          RunFlags(p, rest, arg, ran);
        }
      }
    }
  }

  /** With no arguments nothing changes and there is no file name. */
  lemma NoArguments<F>(p: FlagParser<F>)
    ensures Parse(p, []) == Parsed(p, "", None, [])
  {
  }

  /** A registered "--x" is set and runs its callback, if one is assigned;
      an unregistered one is an error naming it. */
  lemma DoubleDash<F>(p: FlagParser<F>, arg: string)
    requires StartsWith(arg, "--")
    ensures var r := Parse(p, [arg]);
            && (IsValid(p, arg) ==> r == Parsed(See(p, arg), "", None, Callback(p, arg)))
            && (!IsValid(p, arg) ==> r == Parsed(p, "", Some(Formatted(ErrNotValidArg, [S(arg)])), []))
  {
    assert [arg][1..] == [];
    assert [] + Callback(p, arg) == Callback(p, arg);
    if IsValid(p, arg) {
      assert Parse(p, [arg]) == Run(See(p, arg), [], "", [] + Callback(p, arg));
    }
  }

  /** A callback assigned to a registered name is the one that runs when
      the name is given. */
  lemma AssignThenParse<F>(p: FlagParser<F>, name: string, f: F)
    requires StartsWith(name, "--") && IsValid(p, name)
    ensures var q := Assign(p, name, f).0;
            var r := Parse(q, [name]);
            r.err.None? && r.ran == [f] && name in r.parser.flags && r.parser.flags[name]
  {
    var q := Assign(p, name, f).0;
    assert IsValid(q, name) && Callback(q, name) == [f];
    assert [name][1..] == [];
    assert Parse(q, [name]) == Run(See(q, name), [], "", [] + [f]);
    assert [] + [f] == [f];
  }

  /** "-ab" with only "-a" registered: "-a" is set, then the parse stops
      at "-b". */
  lemma LettersStop<F>(p: FlagParser<F>)
    requires "-a" in p.flags && "-b" !in p.flags
    ensures var r := Parse(p, ["-ab"]);
            && r.err == Some(Formatted(ErrNotValidArg, [S("-b")]))
            && "-a" in r.parser.flags && r.parser.flags["-a"]
  {
    assert StartsWith("-ab", "-");
    assert !StartsWith("-ab", "--") by {
      assert "-ab"[..2][1] == 'a';
    }
    assert SplitOn("-ab", '-') == ["", "ab"] by {
      assert "-ab"[1..] == "ab" && "ab"[1..] == "b" && "b"[1..] == "";
      SplitOnFree("ab", '-');
    }
    assert Letters("-ab") == "ab";
    assert "-" + ['a'] == "-a" && "-" + ['b'] == "-b";
    assert "ab"[1..] == "b";
  }

  /** A second file name is an error; the first is kept. */
  lemma TwoFiles<F>(p: FlagParser<F>)
    ensures var r := Parse(p, ["a.fizz", "b.fizz"]);
            r.err == Some(Plain(ErrTooManyFiles)) && r.filename == "a.fizz"
  {
    assert !StartsWith("a.fizz", "-") by {
      assert "a.fizz"[..1][0] == 'a';
    }
    assert !StartsWith("b.fizz", "-") by {
      assert "b.fizz"[..1][0] == 'b';
    }
    assert ["a.fizz", "b.fizz"][1..] == ["b.fizz"];
  }

  /** A freshly made parser accepts "-s" for a single-dash name `s`, with
      the flag unset and no callback. */
  lemma NewParserFlags<F>(sd: seq<string>, dd: seq<string>, s: string)
    requires s in sd
    ensures var p: FlagParser<F> := NewFlagParser(sd, dd);
            IsValid(p, "-" + s) && !p.flags["-" + s] && !IsFunc(p, "-" + s)
  {
  }
}

=== FILE: token_types.dfy ===
/** Token kinds of the Fizz lexer and its three lookup tables
    (lexer/token_types.go).

    Kinds are integers because the expression parser compares them with `<`:
    the declaration order is the operator precedence, lowest first, and every
    non-operator kind sorts after every operator. LEFT_SQUARE, RIGHT_SQUARE
    and MODULO are used by the expression code but not declared in the
    token table; they are appended after EOF here, and the lexer never
    produces them. */
module TokenTypes {
  import opened Results

  const NOT_TOKEN := 0
  const AND := 1
  const OR := 2
  const EQUAL_EQUAL := 3
  const NOT_EQUAL := 4
  const GREATER := 5
  const LESS := 6
  const GREATER_EQUAL := 7
  const LESS_EQUAL := 8
  const PLUS := 9
  const MINUS := 10
  const TYPE := 11
  const STAR := 12
  const SLASH := 13
  const HAT := 14
  const NOT := 15

  const IDENTIFIER := 16
  const STRING := 17
  const NUMBER := 18
  const LEFT_PAREN := 19
  const RIGHT_PAREN := 20
  const LEFT_BRACE := 21
  const RIGHT_BRACE := 22
  const COMMA := 23
  const DOT := 24
  const SEMICOLON := 25
  const COMMENT := 26
  const EQUAL := 27
  const FUNC := 28
  const CLASS := 29
  const RETURN := 30
  const IF := 31
  const ELSE := 32
  const FOR := 33
  const NIL := 34
  const PRINT := 35
  const SUPER := 36
  const THIS := 37
  const TRUE := 38
  const FALSE := 39
  const VAR := 40
  const WHILE := 41
  const BREAK := 42
  const WHITESPACE := 43
  const NEWLINE := 44
  const EOF := 45

  const LEFT_SQUARE := 46
  const RIGHT_SQUARE := 47
  const MODULO := 48

  /** The operator kinds in precedence order, lowest first. */
  const Operators: seq<int> :=
    [NOT_TOKEN, AND, OR, EQUAL_EQUAL, NOT_EQUAL, GREATER, LESS, GREATER_EQUAL, LESS_EQUAL,
     PLUS, MINUS, TYPE, STAR, SLASH, HAT, NOT]

  /** The declared non-operator kinds, IDENTIFIER through EOF. */
  const NonOperators: seq<int> :=
    [IDENTIFIER, STRING, NUMBER, LEFT_PAREN, RIGHT_PAREN, LEFT_BRACE, RIGHT_BRACE, COMMA, DOT,
     SEMICOLON, COMMENT, EQUAL, FUNC, CLASS, RETURN, IF, ELSE, FOR, NIL, PRINT, SUPER, THIS,
     TRUE, FALSE, VAR, WHILE, BREAK, WHITESPACE, NEWLINE, EOF]

  /** The characters `tokenLookup` knows, in declaration order. */
  const SymbolChars: seq<char> :=
    ['\n', '\t', '\r', ' ', ')', '(', '{', '}', '*', '/', '-', '+', '^',
     ';', ',', '.', '#', '"', '=', '!', '>', '<', '&', ':']

  /** `tokenLookup`: the kind of a one-character symbol. */
  function SymbolType(c: char): Option<int> {
    match c
    case '\n' => Some(NEWLINE)
    case '\t' => Some(WHITESPACE)
    case '\r' => Some(WHITESPACE)
    case ' ' => Some(WHITESPACE)
    case ')' => Some(RIGHT_PAREN)
    case '(' => Some(LEFT_PAREN)
    case '{' => Some(LEFT_BRACE)
    case '}' => Some(RIGHT_BRACE)
    case '*' => Some(STAR)
    case '/' => Some(SLASH)
    case '-' => Some(MINUS)
    case '+' => Some(PLUS)
    case '^' => Some(HAT)
    case ';' => Some(SEMICOLON)
    case ',' => Some(COMMA)
    case '.' => Some(DOT)
    case '#' => Some(COMMENT)
    case '"' => Some(STRING)
    case '=' => Some(EQUAL)
    case '!' => Some(NOT)
    case '>' => Some(GREATER)
    case '<' => Some(LESS)
    case '&' => Some(AND)
    case ':' => Some(OR)
    case _ => None
  }

  /** `doubleTokenLookup`: the kind of a two-character comparison. */
  function DoubleType(s: string): (r: Option<int>)
    ensures r.Some? <==> s in {"==", "!=", ">=", "<="}
  {
    if s == "==" then Some(EQUAL_EQUAL)
    else if s == "!=" then Some(NOT_EQUAL)
    else if s == ">=" then Some(GREATER_EQUAL)
    else if s == "<=" then Some(LESS_EQUAL)
    else None
  }

  /** `keyWordLookup`: each reserved word with its kind. */
  const KeywordTable: seq<(string, int)> :=
    [("if", IF), ("else", ELSE), ("nil", NIL), ("print", PRINT), ("return", RETURN),
     ("class", CLASS), ("for", FOR), ("super", SUPER), ("this", THIS), ("var", VAR),
     ("true", TRUE), ("false", FALSE), ("while", WHILE), ("func", FUNC), ("type", TYPE),
     ("break", BREAK)]

  /** The kind the first entry for `key` gives, if there is one. */
  function Lookup(table: seq<(string, int)>, key: string): (r: Option<int>)
    ensures r.Some? <==> exists k :: 0 <= k < |table| && table[k].0 == key
    ensures r.Some? ==> exists k :: 0 <= k < |table| && table[k] == (key, r.value)
    decreases |table|
  {
    if |table| == 0 then None
    else if table[0].0 == key then Some(table[0].1)
    else
      var r := Lookup(table[1..], key);
      assert r.Some? ==> table[1..][0] == table[1];
      r
  }

  /** The kind of a reserved word. */
  function KeywordType(s: string): Option<int> {
    Lookup(KeywordTable, s)
  }

  // ---------------------------------------------------------------------
  // Facts about the tables

  /** The operator kinds are strictly increasing in the listed precedence
      order, and every non-operator kind is above every operator kind. */
  lemma PrecedenceOrder()
    ensures forall i, j :: 0 <= i < j < |Operators| ==> Operators[i] < Operators[j]
    ensures forall i, j :: 0 <= i < |Operators| && 0 <= j < |NonOperators| ==> Operators[i] < NonOperators[j]
    ensures forall j :: 0 <= j < |NonOperators| ==> IDENTIFIER <= NonOperators[j]
  {
  }

  /** The symbol table has 24 distinct entries; '&' and ':' are the logical
      operators. */
  lemma SymbolTableShape()
    ensures |SymbolChars| == 24
    ensures forall i, j :: 0 <= i < j < |SymbolChars| ==> SymbolChars[i] != SymbolChars[j]
    ensures SymbolType('&') == Some(AND) && SymbolType(':') == Some(OR)
  {
  }

  /** `tokenLookup` knows exactly the listed characters. */
  lemma SymbolTypeDomain(c: char)
    ensures SymbolType(c).Some? <==> c in SymbolChars
  {
  }

  /** Exactly space, tab and carriage return are layout, and the other kinds
      the lexer treats specially each come from one character. */
  lemma SymbolClasses(c: char)
    ensures SymbolType(c) == Some(WHITESPACE) <==> c == ' ' || c == '\t' || c == '\r'
    ensures SymbolType(c) == Some(NEWLINE) <==> c == '\n'
    ensures SymbolType(c) == Some(COMMENT) <==> c == '#'
    ensures SymbolType(c) == Some(STRING) <==> c == '"'
    ensures SymbolType(c) == Some(EQUAL) <==> c == '='
    ensures SymbolType(c) == Some(DOT) <==> c == '.'
  {
  }

  /** `Lookup` finds the first entry whose key matches. */
  lemma {:induction false} LookupFirst(table: seq<(string, int)>, key: string, k: nat)
    requires k < |table| && table[k].0 == key
    requires forall j :: 0 <= j < k ==> table[j].0 != key
    ensures Lookup(table, key) == Some(table[k].1)
    decreases k
  {
    if k > 0 {
      LookupFirst(table[1..], key, k - 1);
    }
  }

  /** Sixteen distinct reserved words; "type" is the only one of operator
      kind. */
  lemma KeywordTableShape()
    ensures |KeywordTable| == 16
    ensures forall i, j :: 0 <= i < j < |KeywordTable| ==> KeywordTable[i].0 != KeywordTable[j].0
    ensures forall i :: 0 <= i < |KeywordTable| && KeywordTable[i].1 < IDENTIFIER ==> KeywordTable[i].0 == "type"
  {
  }

  /** Every reserved word is looked up to its own kind. */
  lemma KeywordKinds(i: nat)
    requires i < |KeywordTable|
    ensures KeywordType(KeywordTable[i].0) == Some(KeywordTable[i].1)
  {
    KeywordTableShape();
    LookupFirst(KeywordTable, KeywordTable[i].0, i);
  }
}

=== FILE: util.dfy ===
/** Helpers shared by the parser and the interpreter (util/util.go): error
    templating, membership, bracket matching, file-name handling and the
    pair list that guards against circular imports.

    A Go `error` that may be nil is an `Option<Message>`. */
module Util {
  import opened Results
  import opened Strs
  import opened Fmt
  import opened Lexer

  // ---------------------------------------------------------------------
  // FormatError

  /** `FormatError`: an error whose text still holds a `%d` is rendered
      again with the line as its one argument; errors already carrying a
      line number pass through. */
  function FormatError(err: Option<Message>, line: int): (r: Option<Message>)
    ensures r.None? <==> err.None?
    ensures r.Some? && r != err ==> HasInfix(Text(err.value), "%d")
    ensures err.Some? && HasInfix(Text(err.value), "%d") ==> r == Some(Formatted(Text(err.value), [D(line)]))
    ensures err.Some? && !HasInfix(Text(err.value), "%d") ==> r == err
  {
    match err
    case None => None
    case Some(m) => if HasInfix(Text(m), "%d") then Some(Formatted(Text(m), [D(line)])) else err
  }

  /** A template with one `%d` gets the line put in place of the verb, and
      the result is left alone by a second `FormatError`. */
  lemma FormatErrorTemplate(p: string, q: string, line: int, line': int)
    requires '%' !in p && '%' !in q
    ensures var r := FormatError(Some(Plain(p + "%d" + q)), line);
            && r.Some? && Text(r.value) == p + IntToString(line) + q
            && FormatError(r, line') == r
  {
    HasInfixExact(p, "%d", q);
    FormatSingleNumber(p, q, line);
    NoPercentInNumber(line);
    var t := p + IntToString(line) + q;
    assert '%' !in t;
    NoInfixWithoutFirstChar(t, "%d");
  }

  // ---------------------------------------------------------------------
  // Contains, SContains

  /** `Contains` and `SContains`: a linear scan for `target`. */
  method Contains<T(==)>(arr: seq<T>, target: T) returns (found: bool)
    ensures found <==> target in arr
  {
    for i := 0 to |arr|
      invariant forall j :: 0 <= j < i ==> arr[j] != target
    {
      if arr[i] == target {
        return true;
      }
    }
    return false;
  }

  // ---------------------------------------------------------------------
  // SeekClosingBracket

  /** How one token moves the bracket count: an opening kind counts up, a
      closing kind counts down (the opening kind wins when both are equal). */
  function Delta(kind: int, beginT: int, endT: int): int {
    if kind == beginT then 1 else if kind == endT then -1 else 0
  }

  /** The bracket count after `tokens[start..end]`. */
  function Depth(tokens: seq<Token>, start: nat, end: nat, beginT: int, endT: int): int
    requires start <= end <= |tokens|
    decreases end - start
  {
    if end == start then 0
    else Depth(tokens, start, end - 1, beginT, endT) + Delta(tokens[end - 1].kind, beginT, endT)
  }

  /** `SeekClosingBracket`: the first index at or after `start` where the
      count over `tokens[start..]` returns to zero, or `(0, true)` when it
      never does. */
  function SeekClosingBracket(tokens: seq<Token>, start: nat, beginT: int, endT: int): (r: (nat, bool))
    ensures !r.1 ==> start <= r.0 < |tokens| && Depth(tokens, start, r.0 + 1, beginT, endT) == 0
    ensures !r.1 ==> forall j :: start < j <= r.0 ==> Depth(tokens, start, j, beginT, endT) != 0
    ensures r.1 ==> r.0 == 0 && forall j :: start < j <= |tokens| ==> Depth(tokens, start, j, beginT, endT) != 0
  {
    if start >= |tokens| then (0, true) else SeekFrom(tokens, start, start, 0, beginT, endT)
  }

  /** The loop of `SeekClosingBracket` at index `i`, with `depth` the count
      over `tokens[start..i]`. */
  function SeekFrom(tokens: seq<Token>, start: nat, i: nat, depth: int, beginT: int, endT: int): (r: (nat, bool))
    requires start <= i <= |tokens|
    requires depth == Depth(tokens, start, i, beginT, endT)
    requires forall j :: start < j <= i ==> Depth(tokens, start, j, beginT, endT) != 0
    ensures !r.1 ==> i <= r.0 < |tokens| && Depth(tokens, start, r.0 + 1, beginT, endT) == 0
    ensures !r.1 ==> forall j :: start < j <= r.0 ==> Depth(tokens, start, j, beginT, endT) != 0
    ensures r.1 ==> r.0 == 0 && forall j :: start < j <= |tokens| ==> Depth(tokens, start, j, beginT, endT) != 0
    decreases |tokens| - i
  {
    if i == |tokens| then (0, true)
    else
      var d := depth + Delta(tokens[i].kind, beginT, endT);
      if d == 0 then (i, false) else SeekFrom(tokens, start, i + 1, d, beginT, endT)
  }

  /** Seeking from an opening bracket with distinct bracket kinds lands on a
      closing bracket, and every bracket in between is nested: the count
      stays at least one until the match. */
  lemma ClosingBracketMatches(tokens: seq<Token>, start: nat, beginT: int, endT: int)
    requires start < |tokens| && tokens[start].kind == beginT && beginT != endT
    ensures var (k, eof) := SeekClosingBracket(tokens, start, beginT, endT);
            !eof ==> && start < k && tokens[k].kind == endT
                     && forall j :: start < j <= k ==> Depth(tokens, start, j, beginT, endT) >= 1
  {
    var (k, eof) := SeekClosingBracket(tokens, start, beginT, endT);
    if !eof {
      assert Depth(tokens, start, start + 1, beginT, endT) == 1;
      DepthPositive(tokens, start, k, beginT, endT);
      assert Depth(tokens, start, k + 1, beginT, endT)
          == Depth(tokens, start, k, beginT, endT) + Delta(tokens[k].kind, beginT, endT);
    }
  }

  /** A count that starts at one and never reaches zero stays positive: it
      moves by at most one per token. */
  lemma {:induction false} DepthPositive(tokens: seq<Token>, start: nat, k: nat, beginT: int, endT: int)
    requires start < k < |tokens|
    requires Depth(tokens, start, start + 1, beginT, endT) == 1
    requires forall j :: start < j <= k ==> Depth(tokens, start, j, beginT, endT) != 0
    ensures forall j :: start < j <= k ==> Depth(tokens, start, j, beginT, endT) >= 1
    decreases k - start
  {
    if k > start + 1 {
      DepthPositive(tokens, start, k - 1, beginT, endT);
      assert Depth(tokens, start, k, beginT, endT)
          == Depth(tokens, start, k - 1, beginT, endT) + Delta(tokens[k - 1].kind, beginT, endT);
    }
  }

  // ---------------------------------------------------------------------
  // SplitByToken

  /** `SplitByToken`, which util/util.go does not show: the runs of tokens
      between the tokens of kind `sep`. No tokens give no runs. */
  function SplitByToken(tokens: seq<Token>, sep: int): (parts: seq<seq<Token>>)
    ensures |tokens| == 0 <==> |parts| == 0
    ensures forall k :: 0 <= k < |parts| ==> |parts[k]| <= |tokens|
  {
    if |tokens| == 0 then [] else SplitTokens(tokens, sep)
  }

  function SplitTokens(tokens: seq<Token>, sep: int): (parts: seq<seq<Token>>)
    ensures |parts| >= 1
    ensures forall k :: 0 <= k < |parts| ==> |parts[k]| <= |tokens|
    decreases |tokens|
  {
    if |tokens| == 0 then [[]]
    else
      var rest := SplitTokens(tokens[1..], sep);
      if tokens[0].kind == sep then [[]] + rest
      else [[tokens[0]] + rest[0]] + rest[1..]
  }

  /** The number of tokens of kind `sep`. */
  function CountKind(tokens: seq<Token>, sep: int): nat
    decreases |tokens|
  {
    if |tokens| == 0 then 0 else (if tokens[0].kind == sep then 1 else 0) + CountKind(tokens[1..], sep)
  }

  /** The tokens that are not of kind `sep`, in order. */
  function DropKind(tokens: seq<Token>, sep: int): seq<Token>
    decreases |tokens|
  {
    if |tokens| == 0 then [] else (if tokens[0].kind == sep then [] else [tokens[0]]) + DropKind(tokens[1..], sep)
  }

  function Concat(parts: seq<seq<Token>>): seq<Token>
    decreases |parts|
  {
    if |parts| == 0 then [] else parts[0] + Concat(parts[1..])
  }

  /** Splitting loses exactly the separators: there is one run more than
      there are separators, no run holds one, and the runs put together are
      the other tokens in order. */
  lemma {:induction false} SplitTokensParts(tokens: seq<Token>, sep: int)
    ensures |SplitTokens(tokens, sep)| == CountKind(tokens, sep) + 1
    ensures Concat(SplitTokens(tokens, sep)) == DropKind(tokens, sep)
    ensures forall k, j :: 0 <= k < |SplitTokens(tokens, sep)| && 0 <= j < |SplitTokens(tokens, sep)[k]|
              ==> SplitTokens(tokens, sep)[k][j].kind != sep
    decreases |tokens|
  {
    if |tokens| > 0 {
      var rest := SplitTokens(tokens[1..], sep);
      SplitTokensParts(tokens[1..], sep);
      var parts: seq<seq<Token>> := SplitTokens(tokens, sep);
      if tokens[0].kind == sep {
        assert parts == [[]] + rest;
        assert parts[1..] == rest;
      } else {
        assert parts == [[tokens[0]] + rest[0]] + rest[1..];
        assert parts[1..] == rest[1..];
        assert Concat(rest) == rest[0] + Concat(rest[1..]);
        forall k: nat, j: nat | k < |parts| && j < |parts[k]|
          ensures parts[k][j].kind != sep
        {
          if k == 0 && j > 0 {
            assert parts[0][j] == rest[0][j - 1];
          } else if k > 0 {
            assert parts[k] == rest[k];
          }
        }
      }
    }
  }

  // ---------------------------------------------------------------------
  // WrapFilename

  /** `WrapFilename`: an error that does not mention a `.fizz` file is
      prefixed with `filename: `. */
  function WrapFilename(filename: string, err: Option<Message>): (r: Option<Message>)
    ensures r.None? <==> err.None?
    ensures r.Some? && r != err ==> !HasInfix(Text(err.value), ".fizz")
  {
    match err
    case None => None
    case Some(m) => if HasInfix(Text(m), ".fizz") then err else Some(Formatted("%s: %s", [S(filename), S(Text(m))]))
  }

  /** The wrapped text is the file name, a colon and the old text; wrapping
      with a `.fizz` file name a second time changes nothing. */
  lemma WrapFilenameText(filename: string, m: Message)
    requires !HasInfix(Text(m), ".fizz")
    ensures var r := WrapFilename(filename, Some(m));
            && r.Some? && Text(r.value) == filename + ": " + Text(m)
            && (HasInfix(filename, ".fizz") ==> WrapFilename(filename, r) == r)
  {
    var t := Text(m);
    var w := filename + ": " + t;
    FormatTwoStrings(filename, t);
    hide Format, HasInfix;
    assert WrapFilename(filename, Some(m)) == Some(Formatted("%s: %s", [S(filename), S(t)]));
    if HasInfix(filename, ".fizz") {
      HasInfixAppend(filename, ": " + t, ".fizz");
      assert w == filename + (": " + t);
    }
  }

  lemma FormatTwoStrings(a: string, b: string)
    ensures Format("%s: %s", [S(a), S(b)]) == a + ": " + b
  {
    var t := "%s: %s";
    assert t[2..] == ": %s" && t[3..] == " %s" && t[4..] == "%s" && t[6..] == "";
    assert Format(t[4..], [S(b)]) == b + Format("", []);
    assert Format(t[2..], [S(b)]) == ": " + b;
    assert Format(t, [S(a), S(b)]) == a + Format(t[2..], [S(b)]);
  }

  // ---------------------------------------------------------------------
  // GetPlainFilename

  /** `GetPlainFilename`: one trailing `.fizz` dropped, then everything up
      to the last `/`. */
  function GetPlainFilename(path: string): (r: string)
    ensures '/' !in r
  {
    var parts := SplitOn(TrimSuffix(path, ".fizz"), '/');
    SplitOnPartsBounded(TrimSuffix(path, ".fizz"), '/');
    parts[|parts| - 1]
  }

  /** The plain name of `dir/name.fizz` is `name`, whatever the directory. */
  lemma PlainFilenameOfPath(dir: string, name: string)
    requires '/' !in name
    ensures GetPlainFilename(dir + "/" + name + ".fizz") == name
  {
    var s := dir + "/" + name + ".fizz";
    assert s[..|s| - 5] == dir + "/" + name;
    LastPart(dir, '/', name);
  }

  /** A bare `name.fizz` also gives `name`. */
  lemma PlainFilenameOfFile(name: string)
    requires '/' !in name
    ensures GetPlainFilename(name + ".fizz") == name
  {
    var s := name + ".fizz";
    assert s[..|s| - 5] == name;
    SplitOnFree(name, '/');
  }

  /** The last part of a split is what follows the last separator. */
  lemma {:induction false} LastPart(s: string, c: char, t: string)
    requires c !in t
    ensures var parts := SplitOn(s + [c] + t, c); parts[|parts| - 1] == t
    decreases |s|
  {
    var x := s + [c] + t;
    if |s| == 0 {
      SplitOnCons(s, c, t);
      SplitOnFree(t, c);
    } else {
      assert x[1..] == s[1..] + [c] + t;
      LastPart(s[1..], c, t);
      assert c in x[1..] by { assert x[1..][|s| - 1] == c; }
      SplitOnPartsShorter(x[1..], c);
    }
  }

  // ---------------------------------------------------------------------
  // UniquePairs

  /** Go's `<` on strings: lexicographic, a proper prefix first. */
  predicate Less(a: string, b: string)
    decreases |a|
  {
    if |a| == 0 then |b| > 0
    else if |b| == 0 then false
    else a[0] < b[0] || (a[0] == b[0] && Less(a[1..], b[1..]))
  }

  /** `sort.StringSlice{a, b}` after `Sort()`. */
  function SortedPair(a: string, b: string): (p: (string, string))
    ensures !Less(p.1, p.0)
    ensures p == (a, b) || p == (b, a)
  {
    if Less(b, a) then LessAsymmetric(b, a); (b, a) else (a, b)
  }

  /** Every pair of the list is in sorted order. */
  predicate AllSorted(pairs: seq<(string, string)>) {
    forall k :: 0 <= k < |pairs| ==> !Less(pairs[k].1, pairs[k].0)
  }

  /** The loop of `UniquePairs.Add`: some stored pair equals `(a, b)`. */
  predicate Listed(pairs: seq<(string, string)>, a: string, b: string)
    decreases |pairs|
  {
    |pairs| > 0 && ((pairs[0].0 == a && pairs[0].1 == b) || Listed(pairs[1..], a, b))
  }

  lemma {:induction false} ListedIn(pairs: seq<(string, string)>, a: string, b: string)
    ensures Listed(pairs, a, b) <==> (a, b) in pairs
    decreases |pairs|
  {
    if |pairs| > 0 {
      ListedIn(pairs[1..], a, b);
      assert pairs == [pairs[0]] + pairs[1..];
    }
  }

  /** `UniquePairs.Add` as written: reports whether `(a, b)` is stored
      exactly as given, and otherwise stores the sorted pair. */
  function AddPair(pairs: seq<(string, string)>, a: string, b: string): (r: (bool, seq<(string, string)>))
    ensures r.0 <==> (a, b) in pairs
    ensures r.0 ==> r.1 == pairs
    ensures !r.0 ==> r.1 == pairs + [SortedPair(a, b)]
    ensures AllSorted(pairs) ==> AllSorted(r.1)
  {
    ListedIn(pairs, a, b);
    if Listed(pairs, a, b) then (true, pairs) else (false, pairs + [SortedPair(a, b)])
  }

  /** Since stored pairs are sorted, the as-written `Add` can only report a
      pair that is given in sorted order. */
  lemma AddPairOnlySorted(pairs: seq<(string, string)>, a: string, b: string)
    requires AllSorted(pairs)
    ensures AddPair(pairs, a, b).0 ==> !Less(b, a)
  {
  }

  /** `main` importing `lib` records the pair; `lib` importing `main` back
      is not reported at that import, because the query is compared
      unsorted, and the pair is stored a second time. Only when the
      re-imported `main` imports `lib` again does the stored pair match, so
      the cycle is reported one import late, with the two names swapped. */
  lemma AddPairMissesCycle()
    ensures var u := AddPair([], "lib", "main").1;
            var u' := AddPair(u, "main", "lib").1;
            && u == [("lib", "main")]
            && !AddPair(u, "main", "lib").0
            && u' == [("lib", "main"), ("lib", "main")]
            && AddPair(u', "lib", "main").0
  {
    assert Less("lib", "main") by { assert "lib"[0] < "main"[0]; }
    LessAsymmetric("lib", "main");
  }

  /** The evident intent of `UniquePairs.Add`: compare the sorted query
      with the sorted stored pairs. */
  function AddPairSorted(pairs: seq<(string, string)>, a: string, b: string): (r: (bool, seq<(string, string)>))
    ensures r.0 <==> SortedPair(a, b) in pairs
    ensures r.0 ==> r.1 == pairs
    ensures !r.0 ==> r.1 == pairs + [SortedPair(a, b)]
    ensures AllSorted(pairs) ==> AllSorted(r.1)
  {
    var p := SortedPair(a, b);
    ListedIn(pairs, p.0, p.1);
    if Listed(pairs, p.0, p.1) then (true, pairs) else (false, pairs + [p])
  }

  /** The corrected `Add` does not depend on the order of its arguments,
      so an import back along a recorded edge is always reported. */
  lemma AddPairSortedSymmetric(pairs: seq<(string, string)>, a: string, b: string)
    ensures AddPairSorted(pairs, a, b) == AddPairSorted(pairs, b, a)
    ensures AddPairSorted(AddPairSorted(pairs, a, b).1, b, a).0
  {
    SortedPairSymmetric(a, b);
  }

  lemma SortedPairSymmetric(a: string, b: string)
    ensures SortedPair(a, b) == SortedPair(b, a)
  {
    LessTotal(a, b);
    if Less(a, b) {
      LessAsymmetric(a, b);
    } else if Less(b, a) {
      LessAsymmetric(b, a);
    }
  }

  lemma {:induction false} LessAsymmetric(a: string, b: string)
    requires Less(a, b)
    ensures !Less(b, a)
    decreases |a|
  {
    if |a| > 0 && |b| > 0 && a[0] == b[0] {
      LessAsymmetric(a[1..], b[1..]);
    }
  }

  /** Distinct strings are ordered one way or the other. */
  lemma {:induction false} LessTotal(a: string, b: string)
    ensures a == b || Less(a, b) || Less(b, a)
    decreases |a|
  {
    if |a| > 0 && |b| > 0 && a[0] == b[0] {
      LessTotal(a[1..], b[1..]);
      if a[1..] == b[1..] {
        assert a == [a[0]] + a[1..] && b == [b[0]] + b[1..];
      }
    }
  }
}

=== FILE: values.dfy ===
/** Fizz run-time values and the three object kinds of the environment
    package: callables, objects and arrays (env/types.go, env/create.go).

    Numbers are `real`s; floating-point rounding is not modelled. A callable's
    Go closure is represented by an opaque `callback` identity: what it does
    when called is a parameter of evaluation. `Opaque` stands for any other
    Go value that can travel through an `interface{}`, identified only by
    the name reflection gives its type. */
module Values {
  import opened Results
  import opened Fmt

  datatype Value =
    | Nil
    | Bool(b: bool)
    | Num(n: real)
    | Str(s: string)
    | Fn(f: Callable)
    | Obj(o: Object)
    | Arr(a: Array)
    | Opaque(typeName: string)

  datatype Callable = Callable(name: string, origin: string, callback: nat, numArgs: int)

  datatype Object = Object(fields: map<string, Value>, numFields: int, name: string)

  datatype Array = Array(values: seq<Value>, length: int)

  /** Go's message for a missing field; callers format it later. */
  const ErrNotAField := "'%s' has no attribute '%s', line %d"

  /** An object whose stored field count agrees with its field map. */
  predicate ObjectValid(o: Object) {
    o.numFields == |o.fields|
  }

  /** An array whose stored length agrees with its element list. */
  predicate ArrayValid(a: Array) {
    a.length == |a.values|
  }

  // --- env/create.go

  function NewObject(name: string, elements: map<string, Value>): (o: Object)
    ensures ObjectValid(o)
    ensures o.fields == elements && o.name == name
  {
    Object(elements, |elements|, name)
  }

  function NewFunction(name: string, numArgs: int, callback: nat): (c: Callable)
    ensures c.name == name && c.numArgs == numArgs && c.callback == callback
    ensures c.origin == ""
  {
    Callable(name, "", callback, numArgs)
  }

  function NewArray(elements: seq<Value>): (a: Array)
    ensures ArrayValid(a)
    ensures a.values == elements
  {
    Array(elements, |elements|)
  }

  // --- env/types.go

  /** `Object.Get`: the field's value, or the not-a-field error. */
  function GetField(o: Object, name: string): (r: Result<Value>)
    ensures r.Ok? <==> name in o.fields
    ensures r.Ok? ==> r.value == o.fields[name]
    ensures !r.Ok? ==> r == Err(Plain(ErrNotAField))
  {
    if name in o.fields then Ok(o.fields[name]) else Err(Plain(ErrNotAField))
  }

  /** `Object.Set`: reassigns an existing field; objects never gain fields. */
  function SetField(o: Object, name: string, v: Value): (r: Result<Object>)
    ensures r.Ok? <==> name in o.fields
    ensures !r.Ok? ==> r == Err(Plain(ErrNotAField))
    ensures r.Ok? ==> r.value.fields.Keys == o.fields.Keys
    ensures r.Ok? ==> r.value.numFields == o.numFields && r.value.name == o.name
    ensures r.Ok? ==> r.value.fields[name] == v
    ensures r.Ok? ==> forall k :: k in o.fields && k != name ==> r.value.fields[k] == o.fields[k]
    ensures r.Ok? && ObjectValid(o) ==> ObjectValid(r.value)
  {
    if name in o.fields then Ok(o.(fields := o.fields[name := v])) else Err(Plain(ErrNotAField))
  }

  /** A field read after a successful write returns the written value;
      every other field reads as before. */
  lemma GetAfterSet(o: Object, name: string, v: Value, other: string)
    requires SetField(o, name, v).Ok?
    ensures GetField(SetField(o, name, v).value, name) == Ok(v)
    ensures other != name ==> GetField(SetField(o, name, v).value, other) == GetField(o, other)
  {
  }

  /** The three kinds of runtime object, each with its own `Type()`. */
  datatype Kind = FunctionKind | ObjectKind | ArrayKind

  /** `Type()`: "function" for a callable, "object" for an object and
      "array" for an array. */
  function TypeName(k: Kind): (t: string)
    ensures k == FunctionKind <==> t == "function"
    ensures k == ObjectKind <==> t == "object"
    ensures k == ArrayKind <==> t == "array"
  {
    match k
    case FunctionKind => "function"
    case ObjectKind => "object"
    case ArrayKind => "array"
  }

  /** `Callable.Print`: the name followed by empty parentheses. */
  function CallablePrint(c: Callable): (p: string)
    ensures |p| == |c.name| + 2
    ensures p[..|c.name|] == c.name && p[|c.name|..] == "()"
  {
    c.name + "()"
  }

  /** A function made by `NewFunction` prints as the name it was given. */
  lemma PrintOfNewFunction(name: string, numArgs: int, callback: nat)
    ensures CallablePrint(NewFunction(name, numArgs, callback)) == name + "()"
  {
  }

  /** `Array.Print`: the element list, as many elements as the stored
      length of a valid array. */
  function ArrayPrint(a: Array): (p: seq<Value>)
    ensures ArrayValid(a) ==> |p| == a.length
  {
    a.values
  }

  /** Printing an array made by `NewArray` gives back its elements, and a
      valid array is rebuilt from what it prints: the two are inverse. */
  lemma PrintOfNewArray(elements: seq<Value>, a: Array)
    ensures ArrayPrint(NewArray(elements)) == elements
    ensures ArrayValid(a) ==> NewArray(ArrayPrint(a)) == a
  {
  }
}
